=== FILE: README.md ===
# AI Squatting Coach: the client's envelope logic and the Lambda handlers, in Dafny

The system is an iOS app with AWS Lambda handlers behind API Gateway.
The user records a squat. The app uploads the video to S3 through a presigned URL.
A Lambda runs the Amazon Nova Lite model on the video, and the app shows its report and score.
A chat screen sends questions to a second Lambda, which answers from a Bedrock knowledge base and falls back to Nova Micro.

This project models the deterministic decision logic of that system as pure Dafny functions.

- **The Swift client.**
  - `BedrockService.sendMessage`: how the answer is read out of whatever envelope comes back.
  - `VideoUploadService`: the size guard, then the three chained steps (credential, S3 transfer, analysis). Each step returns its field extraction result together with its status checks.
  - The two text helpers of `ContentView`: `formatAIOutput` and `parseScore`, plus how the report is assembled.
- **The Python Lambda handlers.**
  - `novalight_model.py`: the model-response cascade, the size probe, the `result_key` rewrite and the envelopes.
  - `Squat_Text_Analysis.py`: the knowledge-base answer filter, the fallback and the status mapping.
  - `store_video_toS3.py`: the hand-rolled `multipart/form-data` parser and the handler around it.

Library services are not modelled. Each becomes a field of an environment value handed to the functions:

- `Foundation.Env` on the Swift side: `JSONSerialization` parsing and serialising, `String(data:encoding:)`, `URL(string:)`, and float formatting.
- `Python.PyEnv` on the Python side: `json.loads`, `json.dumps`, `str(e)`, `base64.b64decode`, and float formatting.

Every network or AWS request is a scripted outcome. Each operation returns the requests it issued, in order, together with its result. Python semantics that decide the handlers' branches are written out in module `Python`:

- truthiness;
- `in`, `[]` and `.get` on parsed JSON, including the exceptions they raise on the wrong type;
- the exception-to-500 mapping.

UTF-8 encoding is written out concretely in module `Text`.

Module `Gateway` connects the two sides. It models how a handler's response dictionary reaches the client under a proxy or a non-proxy API Gateway integration. It assumes one property of the two JSON libraries (`Gateway.Interoperable`). The client's `JSONSerialization.jsonObject(with:)` parses back every portable object that `json.dumps` writes. Portable (`Json.Portable`) means that every number in it is an integer of magnitude at most 2^53 - 1, the range JSON implementations agree on exactly (section 6 of RFC 8259). Only objects count, because the client does not allow JSON fragments. These values form a countable set, so a real printer and parser can satisfy the assumption. Under it the model proves that the client recovers exactly what the handlers send, whenever the statuses are safe integers and the model's analysis is portable.

Where the code and its documentation disagree, the model follows the code:

- The chat client treats an empty text response as a success; nothing checks for non-empty text.
- A string `body` that is valid JSON without `message` is returned verbatim.
- The credential POST sends no body at all.
- Neither the chat request nor the analysis request checks the HTTP status.

## Model

| member | source | states |
|---|---|---|
| Json.FirstStringField | FrontEnd/BedrockService.swift:59-90 | a priority scan: the key returned is the first listed key whose value is a string, every key before it holds none, and the string is its value; the result is None exactly when no listed key holds a string |
| BedrockService.PickAnswer | FrontEnd/BedrockService.swift:56-97 | the answer is the first of code, response, body, message holding a string, with a body string re-read for its own message and otherwise returned verbatim; with none of them the failure is code -3 listing the keys present |
| BedrockService.InterpretResponse | FrontEnd/BedrockService.swift:55-123 | a JSON object goes through the field cascade; any other bytes that are UTF-8 succeed as their text, the empty text included; non-UTF-8 bytes fail with the parse error, or with code -4 when they parsed as a non-object |
| BedrockService.SendMessage | FrontEnd/BedrockService.swift:11-125 | an invalid URL (-1) or a failed serialisation fails with no request; otherwise exactly one POST of {"message": m} as application/json; a transport error fails, missing data is -2, and the status never matters |
| VideoUploadService.CredentialSource | FrontEnd/VideoUploadService.swift:100-111 | a body string that parses to an object is the only source; a body string that does not parse falls through to the top level; a body object comes next; the top level is used when the body is neither a string nor an object, a missing body included |
| VideoUploadService.ExtractCredential | FrontEnd/VideoUploadService.swift:97-118 | succeeds exactly when both presignedUrl and s3Key are strings in the chosen source, with exactly that pair; otherwise code -7 |
| VideoUploadService.RequestCredential | FrontEnd/VideoUploadService.swift:43-123 | an invalid URL fails with -3 and no request; else exactly one request, and each outcome has its result: a transport error fails with it, no status is -4, a non-200 status fails with the status as code, 200 without data is -5, data that does not parse is the parse error, a non-object is -6, and an object gives exactly the credential extracted from it |
| VideoUploadService.Transfer | FrontEnd/VideoUploadService.swift:125-162 | the PUT of the exact bytes as video/mp4 to the presigned URL succeeds exactly when it completes with status 200; any other status fails with "S3 upload failed: HTTP n" and the status as code |
| VideoUploadService.ExtractAnalysis | FrontEnd/VideoUploadService.swift:212-237 | a body string is the only place looked at (its parsed object, if any), even when a top-level Squat_analysis exists; a body object is next; the top level only when body is neither; a missing analysis fails with -7 |
| VideoUploadService.Analyze | FrontEnd/VideoUploadService.swift:164-243 | an invalid URL fails with -5 and no request; else one POST of {"s3Key": k}; whatever the status, the result is the parse and extraction of the returned data |
| VideoUploadService.UploadAndAnalyze | FrontEnd/VideoUploadService.swift:13-41 | an unreadable file fails with -1 and a file over 1 GiB with -2, both before any request, while exactly 1 GiB passes; a credential failure stops the pipeline with that failure; after the credential, every transfer failure is the result, after two requests at most; after a successful transfer the analysis step's result is the pipeline's; the transfer sends the file to the issued URL and the analysis names the issued key; success takes exactly three requests |
| VideoUploadService.TransferFailureStops | FrontEnd/VideoUploadService.swift:151-160 | a transfer answered with any status but 200 ends the pipeline with that failure after two requests, so the analysis is never requested |
| ContentView.StripEmphasis | FrontEnd/ContentView.swift:32-33 | after both removals no "__" is left and no character is introduced |
| ContentView.Bulleted | FrontEnd/ContentView.swift:36-38 | a leading "- " becomes "• " with the rest unchanged; any other line is unchanged |
| ContentView.FormatLine | FrontEnd/ContentView.swift:26-30 | a line of blanks becomes the empty line |
| ContentView.Cleaned | FrontEnd/ContentView.swift:26-38 | the cleaned text of a line has no "__", never starts with "- ", and is empty exactly when the line held only blanks and emphasis markers |
| ContentView.CleanedChars | FrontEnd/ContentView.swift:26-38 | cleaning brings in no character but those of the bullet |
| ContentView.FormatLineMeaning | FrontEnd/ContentView.swift:25-47 | a formatted line is the flag followed by the cleaned line exactly when the cleaned line mentions incorrect, valgus or error in any case, and the cleaned line alone otherwise; neither it nor the text after the flag starts with "- "; it is empty exactly when the line held only blanks and markers |
| ContentView.FormatLineUnmarked | FrontEnd/ContentView.swift:25-47 | no "__" survives formatting, the flag included |
| ContentView.FormatLineNoNewline | FrontEnd/ContentView.swift:25-47 | formatting a line never introduces a line break |
| ContentView.FormatAIOutput | FrontEnd/ContentView.swift:21-51 | splitting the output at newlines gives exactly the input's lines, each formatted on its own, in order, empty ones included |
| ContentView.FormatReport | FrontEnd/ContentView.swift:518-519 | the report's lines are the header, an empty line and the analysis's lines, all formatted |
| ContentView.ReportLines | FrontEnd/ContentView.swift:518-519 | the report shows the header unchanged and unflagged, then an empty line, then each analysis line formatted |
| ContentView.HeaderKept | FrontEnd/ContentView.swift:518-519 | formatting leaves the report header as it is |
| ContentView.ScoreToken | FrontEnd/ContentView.swift:625-629 | a token is found only when the marker occurs, and it is non-empty and free of separators |
| ContentView.ScoreFraction | FrontEnd/ContentView.swift:630-635 | a token that does not split at '/' into exactly two non-empty pieces has no score; with two pieces there is a score exactly when both read as numbers and the total is positive, so a total of zero or less gives none, and the score is gained / total * 100 |
| ContentView.ParseScore | FrontEnd/ContentView.swift:623-636 | no marker, or no token after it, gives no score; otherwise the score is exactly that of the first token after the first marker, which holds '/' |
| ContentView.ScoreOfStandardReply | FrontEnd/ContentView.swift:623-636 | a reply stating "SQUAT SCORE: n/d" at the marker's first occurrence, with d > 0, scores n / d * 100 |
| ContentView.ZeroTotalUnscored | FrontEnd/ContentView.swift:631-634 | a reply "SQUAT SCORE: n/d" whose total reads as zero or less has no score |
| Python.OutputContentText | LambdaFuncs/novalight_model.py:219-232 | a value that is not a container raises; when output.message.content is a non-empty list whose first item is a dict holding "text" or a str, that text is the answer; a dict whose output branch finds nothing (no output, no message, no content, an empty or non-list content, or an unusable first item) yields its top-level text, or nothing |
| Python.NovaResponseText | LambdaFuncs/novalight_model.py:219-225 | a Nova reply yields the text of its first content item, whatever other keys sit beside output, message, content and text, and whatever items follow the first |
| Python.FlatResponseText | LambdaFuncs/novalight_model.py:229-230 | a flat {"text": t} response yields t |
| Python.NeitherShape | LambdaFuncs/novalight_model.py:219-232 | a dict with neither output nor text yields nothing and raises nothing |
| Python.ErrorResponse | LambdaFuncs/novalight_model.py:280-287 | a caught exception becomes status 500, the JSON and CORS headers, and a body that is json.dumps of {"error": str(e)}; a handler's own ValueError carries its message, any other exception its description |
| NovaLambda.ExtractModelText | LambdaFuncs/novalight_model.py:219-232 | the extracted text when the cascade matches; a ValueError quoting the whole response when neither shape matches; the probing's own exception otherwise |
| NovaLambda.NovaReplyExtracted | LambdaFuncs/novalight_model.py:219-225 | the analysis of a Nova reply is the text of its first content item, whatever else the reply holds |
| NovaLambda.UnrecognisedReplyRaises | LambdaFuncs/novalight_model.py:228-232 | a dict reply with neither output nor text raises the ValueError quoting the whole reply |
| NovaLambda.RequestedKey | LambdaFuncs/novalight_model.py:236-240 | a key is only ever returned when it is truthy; a body that does not parse raises its error; a parsed dict gives its s3Key when that is truthy and the "must contain s3Key" ValueError when it is missing or falsy; a body that parses to anything but a dict raises AttributeError |
| NovaLambda.ResultKey | LambdaFuncs/novalight_model.py:264 | a key with neither the folder nor ".mp4" in it is left unchanged |
| NovaLambda.ResultKeyOfUploadKey | LambdaFuncs/novalight_model.py:264 | the key "squat_video/<digits>.mp4" maps to "squat_video_model_output/<digits>_<timestamp>.json" |
| NovaLambda.HandleCore | LambdaFuncs/novalight_model.py:234-287 | a bad request is 500 with no AWS call; every answer is 200 or 500; status 200 exactly when the key is a string, the model call and extraction succeed and the store succeeds; then the calls are the probe, the identity lookup, the model call on s3://bucket/key, and the store under the result key, and the body holds exactly Squat_analysis and result_s3_key; otherwise the answer is the {"error": str(e)} response of the request's, the model call's, the extraction's, the non-string key's or the store's exception |
| NovaLambda.WithKey | LambdaFuncs/novalight_model.py:244-287 | once the key is read: 200 exactly when the key is a string, the size is allowed, the model call and extraction succeed and the store succeeds, and then with exactly the four calls and the success payload; an oversized video under the limit gives the size ValueError after the one probe; a failing model call, extraction, non-string key or store gives the error response of that exception |
| NovaLambda.AfterModel | LambdaFuncs/novalight_model.py:260-287 | once the model was called, the calls made so far are kept and at most the store is added; 200 exactly when the key is a string, the extraction succeeds and the store succeeds, then with the result-key document and the success payload; a failing model call, extraction, non-string key or store answers the error response of that exception |
| NovaLambda.SizeProbeIgnored | LambdaFuncs/novalight_model.py:246-255 | as written, the probe's answer makes no difference to the handler |
| NovaLambda.OversizedVideoAnalyzed | LambdaFuncs/novalight_model.py:246-260 | as written, a video over 1 GiB is still sent to the model and answered 200 |
| NovaLambda.LimitRefusesOversized | LambdaFuncs/novalight_model.py:252-253 | with the limit enforced, an oversized video is refused with the size error after the probe alone |
| NovaLambda.LimitChangesNothingElse | LambdaFuncs/novalight_model.py:246-255 | with the limit enforced, every video within the limit is handled exactly as written |
| TextLambda.RagAnswer | LambdaFuncs/Squat_Text_Analysis.py:46-82 | a knowledge-base answer is kept exactly when output.text is a string that is neither blank nor a refusal and the citations can be logged, whatever else the response holds, and then it is that string |
| TextLambda.FallbackAnswer | LambdaFuncs/Squat_Text_Analysis.py:150-181 | the model's text when the cascade matches, "Unable to parse model response" when neither shape matches, "" when anything raised |
| TextLambda.NovaReplyIsFallback | LambdaFuncs/Squat_Text_Analysis.py:163-172 | the fallback advice for a Nova reply is the text of its first content item |
| TextLambda.GenerateAdvice | LambdaFuncs/Squat_Text_Analysis.py:9-89 | the knowledge base is asked first exactly when the question is a string; a question of any other type fails boto3's parameter validation before sending, so only the model is asked; for a string, the model is asked second exactly when the knowledge base raised or its answer was unusable; whenever the model is asked last, its fallback answer is the advice |
| TextLambda.Question | LambdaFuncs/Squat_Text_Analysis.py:188-189 | a body that does not parse raises its error; a parsed dict gives its message, or "" when it has none |
| TextLambda.Handle | LambdaFuncs/Squat_Text_Analysis.py:186-224 | status is 200, 400 or 500; 400 "Message is required" with no call exactly when the message is falsy; otherwise the advice's calls, with 200 {"message": advice} for truthy advice and 500 "Failed to generate advice" for empty advice |
| TextLambda.RefusalDetected | LambdaFuncs/Squat_Text_Analysis.py:58-68 | a refusal phrase in any ASCII case, anywhere in the answer, is detected |
| TextLambda.RefusalFallsBack | LambdaFuncs/Squat_Text_Analysis.py:67-71 | a refusal sends the question to the model directly, and the model's answer is used |
| TextLambda.UsableAnswerReturned | LambdaFuncs/Squat_Text_Analysis.py:46-82 | for a string question, a usable knowledge-base answer, whatever citations and session it comes with, is returned unchanged with 200, after a single request |
| TextLambda.NonStringQuestionSkipsKnowledgeBase | LambdaFuncs/Squat_Text_Analysis.py:23-29 | a truthy question that is not a string (such as {"message": 5}) gets only the model request, and its answer decides between 200 and 500 |
| TextLambda.CitedAnswerUsable | LambdaFuncs/Squat_Text_Analysis.py:46-82 | an answer with citations carrying their retrieved text and a session id is usable when it is neither blank nor a refusal |
| TextLambda.BothFail | LambdaFuncs/Squat_Text_Analysis.py:200-215 | when both the knowledge base and the model raise, the handler answers 500 "Failed to generate advice" |
| StoreLambda.BoundaryValue | LambdaFuncs/store_video_toS3.py:15-19 | a parameter names a boundary exactly when, stripped, it starts with "boundary="; the value carries no surrounding quote |
| StoreLambda.Boundary | LambdaFuncs/store_video_toS3.py:13-22 | a boundary found is never empty |
| StoreLambda.DropLast | LambdaFuncs/store_video_toS3.py:38 | Python's data[:-n] keeps a prefix: all but n bytes, or none |
| StoreLambda.TrimClosing | LambdaFuncs/store_video_toS3.py:37-40 | the trimmed data is a prefix of the data; data not ending in "--\r\n" is unchanged; otherwise at least five bytes go |
| StoreLambda.DropDelimiterCrLf | LambdaFuncs/store_video_toS3.py:36-40 | the corrected trimming removes exactly the line break that belongs to the next delimiter |
| StoreLambda.PartFile | LambdaFuncs/store_video_toS3.py:26-44 | a part yields a file only when it names a Content-Disposition and its headers end in a blank line and hold "filename=" and, in any case, "video"; the file is what follows the headers, trimmed |
| StoreLambda.ParseMultipart | LambdaFuncs/store_video_toS3.py:8-46 | a falsy content type, or one without "multipart/form-data", gives None; no boundary gives None; otherwise the first video part of the body split at "--boundary" |
| StoreLambda.ContentType | LambdaFuncs/store_video_toS3.py:50 | headers that are not a dict raise; a truthy content-type wins; otherwise Content-Type, or "" when it is absent |
| StoreLambda.RequestBody | LambdaFuncs/store_video_toS3.py:53-59 | a flagged body is base64-decoded, and a decoding error raises; an unflagged string is UTF-8 encoded |
| StoreLambda.HandleCore | LambdaFuncs/store_video_toS3.py:48-107 | every answer is 200 or 500; one put_object exactly when a non-empty file of at most 15 MiB was found, under "squat_video/<seconds>.mp4" as video/mp4; 200 exactly when that store succeeds; a request that fails to yield a file answers the error response of its exception with no AWS call, a missing or empty file and an oversized file giving their ValueError texts; a failing store answers the error response of its exception |
| StoreLambda.TrimmedAsWritten | LambdaFuncs/store_video_toS3.py:37-40 | as written, a file part keeps the delimiter's line break, unless the file ends in "--", and then three or five of its own bytes are lost |
| StoreLambda.StandardBoundary | LambdaFuncs/store_video_toS3.py:14-22 | "multipart/form-data; boundary=b" names the boundary b |
| StoreLambda.HeaderLinesBlock | LambdaFuncs/store_video_toS3.py:24-28 | one header line, or two lines such as a Content-Disposition line and "Content-Type: video/mp4", end at the part's first blank line |
| StoreLambda.FilePartFile | LambdaFuncs/store_video_toS3.py:29-44 | a video file part with its headers yields its data with the line break after it, trimmed as written or exactly |
| StoreLambda.ParseStandardUpload | LambdaFuncs/store_video_toS3.py:8-46 | on a well-formed one-file upload, whose header block may hold several lines, the parser yields the data exactly, or with the trimming as written |
| StoreLambda.UploadRequestFile | LambdaFuncs/store_video_toS3.py:50-62 | a base64 upload event with the standard content type, under "content-type" or "Content-Type", reaches the parser and yields the file |
| StoreLambda.StoredWithLineBreak | LambdaFuncs/store_video_toS3.py:37-40 | as written, the handler stores a well-formed upload's file with "\r\n" appended whenever the file does not end in "--" |
| StoreLambda.StoredExactly | LambdaFuncs/store_video_toS3.py:62-94 | with the corrected trimming the handler stores exactly the uploaded file and answers 200 |
| Gateway.Delivered | LambdaFuncs/novalight_model.py:274-278 | a proxy integration passes the handler's status and body on; a non-proxy one answers 200 with the whole response dictionary as JSON |
| Gateway.PayloadParsed | LambdaFuncs/novalight_model.py:274-278 | a handler's JSON payload reaches the client either as the object it parses or as the body string inside it |
| Gateway.ErrorReported | LambdaFuncs/novalight_model.py:280-287 | a caught exception reaches a proxy client as status 500 and a body it parses to {"error": str(e)}, a handler's own ValueError showing its message |
| Gateway.CredentialRecovered | LambdaFuncs/lambda_GetPresignedURL.py:32-41 | under either integration the client recovers exactly the URL and key the credential Lambda issued |
| Gateway.CredentialThroughProxy | LambdaFuncs/lambda_GetPresignedURL.py:32-41 | with a proxy integration, a credential payload the client parses back yields exactly the URL and key issued |
| Gateway.CredentialThroughEnvelope | FrontEnd/VideoUploadService.swift:100-111 | with a non-proxy integration, the credential pair is read out of the envelope's body string and is exactly the pair issued |
| Gateway.AnalysisRead | FrontEnd/VideoUploadService.swift:212-237 | under either integration, the analysis client reads Squat_analysis of any portable payload without a body of its own, whatever the status |
| Gateway.AnalysisRecovered | LambdaFuncs/novalight_model.py:274-278 | under either integration the analysis step succeeds exactly when the model's text is a string, and then with that text |
| Gateway.AnalysisErrorHidden | LambdaFuncs/novalight_model.py:280-287 | an error from the analysis Lambda reaches the client as "analysis result not found", and the server's message is lost |
| Gateway.PipelineDelivers | FrontEnd/VideoUploadService.swift:30-40 | against the two Lambdas, the pipeline gives the analysis text after exactly three requests, the last naming the issued key |
| Gateway.AdviceRecovered | LambdaFuncs/Squat_Text_Analysis.py:203-209 | under either integration the chat client shows exactly the advice the chat Lambda returned |
| Gateway.ChatErrorShown | FrontEnd/BedrockService.swift:91-96 | a chat-Lambda error fails with code -3 listing "error" through a proxy integration, and is shown as the advice through a non-proxy one |
| Gateway.ChatErrorThroughProxy | FrontEnd/BedrockService.swift:91-96 | through a proxy integration a chat-Lambda error fails with code -3 listing "error" |
| Gateway.ChatErrorThroughEnvelope | FrontEnd/BedrockService.swift:68-85 | through a non-proxy integration a chat-Lambda error is shown as the JSON text of {"error": text} |
| Gateway.StoredKeyAnalysedAt | LambdaFuncs/store_video_toS3.py:72-73 | the key a direct upload is stored under has its analysis stored at "squat_video_model_output/<seconds>_<timestamp>.json" |

## Left out

- `JSONSerialization`, `json.loads` and `json.dumps`, `String(data:encoding:)`, `URL(string:)`, `base64.b64decode` and `str(e)` for library exceptions are oracles, because they are library code. The one property assumed of them, parse after dump for portable objects, is a hypothesis of the `Gateway` lemmas.
- Gateway.AnalysisRecovered: covers only a portable analysis. A model reply holding a fraction or an integer beyond 2^53 - 1 may not be read back exactly, because the two JSON libraries round such numbers differently. The same holds for the statuses of `Gateway.PayloadParsed`, `Gateway.AnalysisRead`, `Gateway.ChatReads` and `Gateway.ChatErrorShown`, which must be safe integers. Every status the handlers use (200, 400, 500) is one.
- Float formatting (`%.1f`, `:.2f`) is an oracle, because it is floating point. For the same reason the `parseScore` arithmetic and `Double(_:)` are left out: number parsing is a parameter, and the quotient is computed on reals.
- URLSession, `DispatchQueue` and the completion-handler threading are left out, because they are concurrency and I/O. Each request is one scripted outcome, and the requests are sequenced.
- boto3 (S3 `head_object`, `put_object`, STS, Bedrock `invoke_model` and `retrieve_and_generate`) is left out, because these are foreign services. Each call is recorded in the trace, and its answer or exception is scripted. `head_object` on a key that is not a string, and `retrieve_and_generate` on a question that is not a string, are not recorded, because boto3 rejects such a parameter before sending anything. The handlers catch that rejection like any other exception.
- `datetime` is a parameter: seconds for the upload key, a timestamp string for the result key. Logging with `print` is left out.
- The prompt texts and the model parameters are left out, because they are configuration. The request the model receives is recorded as its model id, S3 URI and bucket owner.
- ContentView's views, state, score persistence and temporary files are left out, because they are UI and I/O. So are CameraService, CameraPreview, cameraApp and the presigned-URL Lambda. The presigned-URL Lambda's answer appears only as the fixture `Gateway.PresignResponse`. APIConfig is not part of this model.
- Strings are sequences of Unicode scalars, whereas Swift's `String` operations work on grapheme clusters. So `hasPrefix("- ")`, `dropFirst(2)` and `contains` can differ from the model when a combining mark follows, as in "- \u{301}x", where Swift sees no "- " prefix. Only the scalar reading is modelled.
- Lower-casing is modelled for ASCII letters only. Every word searched case-insensitively is ASCII ("incorrect", "valgus", "error", "video" and the refusal phrases). The one way this could matter is a non-ASCII character whose lower case is ASCII, such as the Kelvin sign.
- The headers of a multipart part are searched as bytes. `decode("utf-8", errors="ignore")` could join two ASCII runs by dropping invalid bytes between them, and that splicing is not modelled.
- Python's built-in exception texts (`TypeError`, `KeyError`, ...) are represented by their class. Only the handlers' own `ValueError` messages are spelled out.
- BedrockService.PickAnswer: the code -3 description is modelled as the set of keys present, not their ", "-joined text, because Swift's dictionary key order is unspecified.
- ContentView.StripEmphasis: states that no "__" remains and that no character is introduced, not the exact text. Removing "**" first can leave a new "**" behind (for example "*__*"), so "no emphasis remains" would not hold.
- ContentView.ScoreToken: states only a necessary condition for a token. The exact token for the format the prompt asks for is stated by ContentView.ScoreOfStandardReply and ContentView.ZeroTotalUnscored.
- StoreLambda.TrimClosing: states prefix and length bounds rather than the two exact cases. The exact cases for a file part are stated by StoreLambda.TrimmedAsWritten.
- StoreLambda.Boundary: states only that the boundary is non-empty. The exact value for the standard content type is stated by StoreLambda.StandardBoundary.
- NovaLambda.ResultKey: states only the case where nothing is replaced. The generated-key case is stated by NovaLambda.ResultKeyOfUploadKey.

## Findings

| source | as written | input that shows it | evidently intended | confidence | as-written member | corrected member |
|---|---|---|---|---|---|---|
| LambdaFuncs/novalight_model.py:246-255 | the size ValueError is raised inside the `try` whose own `except` logs it and carries on | an `s3Key` whose `head_object` reports a ContentLength over 1 GiB; the video is still analysed and answered 200 | refuse videos over the 1 GiB limit with the size error, before the model is called | not executed | NovaLambda.OversizedVideoAnalyzed | NovaLambda.LimitRefusesOversized |
| LambdaFuncs/store_video_toS3.py:37-40 | the trim tests for "\r\n--\r\n" and "--\r\n" at the end of the data. After a split on "--boundary" a file part ends in "\r\n" instead, so the line break stays. Data that itself ends in "--" loses 3 or 5 bytes | the body "--b\r\nContent-Disposition: form-data; name=\"video\"; filename=\"v.mp4\"\r\n\r\nabc\r\n--b--\r\n" stores "abc\r\n" | store exactly the bytes of the file, dropping only the line break that belongs to the next delimiter | not executed | StoreLambda.StoredWithLineBreak | StoreLambda.StoredExactly |

=== FILE: bedrock_service.dfy ===
/**
 * The chat client (`BedrockService.sendMessage`): posts `{"message": m}` and
 * reads the answer out of whatever envelope comes back.
 */
module BedrockService {
  import opened Wrappers
  import opened Text
  import opened Json
  import opened Foundation
  import opened Http

  const Domain := "BedrockService"

  /** The fields probed for the answer, in the order the client probes them. */
  const AnswerFields := ["code", "response", "body", "message"]

  /** The JSON body the client posts. */
  function MessageBody(message: string): Json {
    JObj(map["message" := JStr(message)])
  }

  /**
   * What a string-valued `body` yields: the string `message` of the JSON object
   * it holds, or else the `body` text itself, verbatim.
   */
  function BodyAnswer(env: Env, bodyText: string): string {
    match ParseObjectText(env, bodyText)
    case Some(inner) =>
      (match StringField(inner, "message")
       case Some(m) => m
       case None => bodyText)
    case None => bodyText
  }

  /**
   * The answer read from a response that parsed to a JSON object: the first of
   * `code`, `response`, `body`, `message` that holds a string wins, and a `body`
   * string is re-read for its own `message`. Values that are not strings (an
   * object-valued `body`, say) are passed over. With none of them the failure
   * lists the keys that were present.
   */
  function PickAnswer(env: Env, json: map<string, Json>): (r: Result<string, Failure>)
    ensures match FirstStringField(json, AnswerFields)
            case None => r == Failure(MissingFields(Domain, -3, json.Keys))
            case Some((key, text)) => r == Success(if key == "body" then BodyAnswer(env, text) else text)
  {
    if StringField(json, "code").Some? then
      Success(StringField(json, "code").value)
    else if StringField(json, "response").Some? then
      Success(StringField(json, "response").value)
    else if StringField(json, "body").Some? then
      Success(BodyAnswer(env, StringField(json, "body").value))
    else if StringField(json, "message").Some? then
      Success(StringField(json, "message").value)
    else
      Failure(MissingFields(Domain, -3, json.Keys))
  }

  /**
   * How the completion handler reads the bytes of a response. Bytes that are
   * not a JSON object come back as their UTF-8 text, whatever that text is
   * (the empty text included); only bytes that are not UTF-8 fail.
   */
  function InterpretResponse(env: Env, data: seq<byte>): (r: Result<string, Failure>)
    ensures ParseObject(env, data).Some? ==> r == PickAnswer(env, ParseObject(env, data).value)
    ensures ParseObject(env, data).None? && env.decodeUtf8(data).Some? ==>
              r == Success(env.decodeUtf8(data).value)
    ensures ParseObject(env, data).None? && env.decodeUtf8(data).None? ==>
              r == (if env.parseJson(data).None? then Failure(ParseError)
                    else Failure(AppError(Domain, -4, "Unable to parse response")))
  {
    match env.parseJson(data)
    case Some(JObj(json)) => PickAnswer(env, json)
    case Some(_) =>
      (match env.decodeUtf8(data)
       case Some(text) => Success(text)
       case None => Failure(AppError(Domain, -4, "Unable to parse response")))
    case None =>
      (match env.decodeUtf8(data)
       case Some(text) => Success(text)
       case None => Failure(ParseError))
  }

  /**
   * `sendMessage`: checks the URL, serialises the body, issues one POST whose
   * outcome is `outcome`, and interprets what came back. The HTTP status is
   * never consulted.
   */
  function SendMessage(env: Env, apiUrl: string, message: string, outcome: Outcome): (run: Run<string>)
    ensures !env.validUrl(apiUrl) ==> run == Run([], Failure(AppError(Domain, -1, "Invalid URL")))
    ensures env.validUrl(apiUrl) && env.serialize(MessageBody(message)).None? ==>
              run == Run([], Failure(SerializationError))
    ensures |run.calls| <= 1
    ensures |run.calls| == 1 <==> env.validUrl(apiUrl) && env.serialize(MessageBody(message)).Some?
    ensures |run.calls| == 1 ==>
              run.calls[0] == Request(POST, apiUrl, "application/json", env.serialize(MessageBody(message)))
    ensures |run.calls| == 1 && outcome.TransportFailed? ==>
              run.result == Failure(TransportError(outcome.cause))
    ensures |run.calls| == 1 && outcome.Completed? && outcome.data.None? ==>
              run.result == Failure(AppError(Domain, -2, "No data"))
    ensures |run.calls| == 1 && outcome.Completed? && outcome.data.Some? ==>
              run.result == InterpretResponse(env, outcome.data.value)
  {
    if !env.validUrl(apiUrl) then
      Run([], Failure(AppError(Domain, -1, "Invalid URL")))
    else
      match env.serialize(MessageBody(message))
      case None => Run([], Failure(SerializationError))
      case Some(body) =>
        var calls := [Request(POST, apiUrl, "application/json", Some(body))];
        match outcome
        case TransportFailed(cause) => Run(calls, Failure(TransportError(cause)))
        case Completed(_, None) => Run(calls, Failure(AppError(Domain, -2, "No data")))
        case Completed(_, Some(data)) => Run(calls, InterpretResponse(env, data))
  }
}

=== FILE: content_view.dfy ===
/**
 * The two pure helpers of the chat screen: `formatAIOutput`, which tidies a
 * reply line by line before it is shown, and `parseScore`, which reads the
 * "SQUAT SCORE: gained/total" token out of a reply and turns it into a
 * percentage.
 */
module ContentView {
  import opened Wrappers
  import opened Seqs
  import opened Text

  /** Put in front of a line that mentions a mistake. */
  const Flag := "\U{1F6A9} "

  /** Replaces a leading "- ". */
  const Bullet := "\U{2022} "

  /** The header put above an analysis before it is formatted. */
  const ReportHeader := "Your professional Squat report is ready!"

  const ScoreMarker := "SQUAT SCORE:"

  /** Removes the markdown emphasis pairs `**` and then `__`. */
  function StripEmphasis(l: string): (r: string)
    ensures !Contains(r, "__")
    ensures forall c :: c in r ==> c in l
  {
    ReplaceAllDoubleGone(ReplaceAll(l, "**", ""), '_');
    ReplaceAll(ReplaceAll(l, "**", ""), "__", "")
  }

  /** A line that starts with "- " gets a bullet instead. */
  function Bulleted(l: string): (r: string)
    ensures StartsWith(l, "- ") ==> StartsWith(r, Bullet) && r[|Bullet|..] == l[2..]
    ensures !StartsWith(l, "- ") ==> r == l
    ensures !Contains(l, "__") ==> !Contains(r, "__")
  {
    if StartsWith(l, "- ") then
      assert !Contains(l, "__") ==> !Contains(Bullet + l[2..], "__") by {
        if !Contains(l, "__") {
          NotContainsSlice(l, "__", 2, |l|);
          assert l[2..|l|] == l[2..];
          NoMarkerPair(Bullet);
          NoPairConcat(Bullet, l[2..], '_');
        }
      }
      Bullet + l[2..]
    else l
  }

  lemma NoMarkerPair(s: string)
    requires '_' !in s
    ensures !Contains(s, "__")
  {
    forall i | 0 <= i <= |s|
      ensures !OccursAt(s, "__", i)
    {
      if i + 2 <= |s| {
        assert s[i..i + 2][0] == s[i];
        assert s[i] in s;
      }
    }
  }

  /** The line mentions an incorrect movement, knee valgus or an error, in any ASCII case. */
  predicate MentionsMistake(l: string) {
    var lower := AsciiLower(l);
    Contains(lower, "incorrect") || Contains(lower, "valgus") || Contains(lower, "error")
  }

  /** Lines with only blanks in them. */
  predicate IsBlankLine(line: string) {
    forall c :: c in line ==> IsBlank(c)
  }

  /**
   * The text of a line once it is trimmed of blanks, stripped of emphasis
   * markers and bulleted: no "__" is left, it never starts with "- ", and it
   * is empty exactly when nothing but blanks and markers was there.
   */
  function Cleaned(line: string): (r: string)
    ensures !Contains(r, "__")
    ensures !StartsWith(r, "- ")
    ensures r == "" <==> StripEmphasis(Trim(line, IsBlank)) == ""
  {
    var stripped := StripEmphasis(Trim(line, IsBlank));
    assert StartsWith(stripped, "- ") ==> Bulleted(stripped)[0] == Bullet[0];
    Bulleted(stripped)
  }

  /** Cleaning brings in no character but the bullet's. */
  lemma CleanedChars(line: string)
    ensures forall c :: c in Cleaned(line) ==> c in line || c in Bullet
  {
    var stripped := StripEmphasis(Trim(line, IsBlank));
    var r := Cleaned(line);
    if StartsWith(stripped, "- ") {
      var tail := stripped[2..];
      assert r == Bullet + tail by {
        assert r == r[..|Bullet|] + r[|Bullet|..];
      }
      forall c | c in tail
        ensures c in line
      {
        var i :| 0 <= i < |tail| && tail[i] == c;
        assert c == stripped[i + 2];
        assert c in stripped;
      }
    } else {
      assert r == stripped;
    }
  }

  /**
   * One line of `formatAIOutput`: a line of blanks becomes empty; any other
   * line is cleaned and flagged when it then mentions a mistake.
   */
  function FormatLine(line: string): (r: string)
    ensures IsBlankLine(line) ==> r == ""
  {
    var l := Trim(line, IsBlank);
    if |l| == 0 then ""
    else
      var body := Bulleted(StripEmphasis(l));
      if MentionsMistake(body) then Flag + body else body
  }

  /**
   * What a formatted line is: the cleaned line, with the flag in front exactly
   * when it mentions a mistake; whatever follows the flag is never a "- "
   * item; and the line is empty exactly when only blanks and emphasis markers
   * were there (a line such as "  ****  " included).
   */
  lemma FormatLineMeaning(line: string)
    ensures FormatLine(line) == Flag + Cleaned(line) <==> MentionsMistake(Cleaned(line))
    ensures !MentionsMistake(Cleaned(line)) ==> FormatLine(line) == Cleaned(line)
    ensures !StartsWith(FormatLine(line), "- ")
    ensures MentionsMistake(Cleaned(line)) ==> !StartsWith(FormatLine(line)[|Flag|..], "- ")
    ensures FormatLine(line) == "" <==> StripEmphasis(Trim(line, IsBlank)) == ""
  {
    var l := Trim(line, IsBlank);
    var body := Cleaned(line);
    if |l| == 0 {
      assert l == [];
      assert StripEmphasis(l) == "";
      assert body == "";
      assert !MentionsMistake(body) by {
        assert AsciiLower(body) == [];
      }
    } else {
      assert body == Bulleted(StripEmphasis(l));
      if MentionsMistake(body) {
        assert (Flag + body)[|Flag|..] == body;
        assert (Flag + body)[0] == Flag[0];
      } else {
        assert |body| < |Flag + body|;
      }
    }
  }

  /** No "__" survives formatting, the flag included. */
  lemma FormatLineUnmarked(line: string)
    ensures !Contains(FormatLine(line), "__")
  {
    FormatLineMeaning(line);
    if MentionsMistake(Cleaned(line)) {
      NoMarkerPair(Flag);
      NoPairConcat(Flag, Cleaned(line), '_');
    }
  }

  /** Every character of a formatted line comes from the line, the flag or the bullet. */
  lemma FormatLineChars(line: string)
    ensures forall c :: c in FormatLine(line) ==> c in line || c in Flag || c in Bullet
  {
    FormatLineMeaning(line);
    CleanedChars(line);
  }

  /** Formatting adds no line break to a line that had none. */
  lemma FormatLineNoNewline(line: string)
    requires forall i :: 0 <= i < |line| ==> !IsNewline(line[i])
    ensures forall i :: 0 <= i < |FormatLine(line)| ==> !IsNewline(FormatLine(line)[i])
  {
    var r := FormatLine(line);
    FormatLineChars(line);
    MarkersHaveNoNewline();
    forall i | 0 <= i < |r|
      ensures !IsNewline(r[i])
    {
      assert r[i] in r;
      if r[i] in line {
        var j :| 0 <= j < |line| && line[j] == r[i];
      } else if r[i] in Flag {
        var j :| 0 <= j < |Flag| && Flag[j] == r[i];
      } else {
        var j :| 0 <= j < |Bullet| && Bullet[j] == r[i];
      }
    }
  }

  lemma MarkersHaveNoNewline()
    ensures forall i :: 0 <= i < |Flag| ==> !IsNewline(Flag[i])
    ensures forall i :: 0 <= i < |Bullet| ==> !IsNewline(Bullet[i])
  {
  }

  /** The lines `formatAIOutput` works on: the pieces between newline characters. */
  function Lines(text: string): (r: seq<string>)
    ensures |r| >= 1
    ensures forall k, i :: 0 <= k < |r| && 0 <= i < |r[k]| ==> !IsNewline(r[k][i])
  {
    SplitWhere(text, IsNewline)
  }

  function FormatLines(lines: seq<string>): (r: seq<string>)
    ensures |r| == |lines|
    ensures forall k :: 0 <= k < |r| ==> r[k] == FormatLine(lines[k])
  {
    seq(|lines|, k requires 0 <= k < |lines| => FormatLine(lines[k]))
  }

  /**
   * `formatAIOutput`: every line is formatted on its own and the lines are
   * joined again with "\n", so the output has exactly one line per input line,
   * in order, the empty ones included.
   */
  function FormatAIOutput(text: string): (r: string)
    ensures Lines(r) == FormatLines(Lines(text))
  {
    var lines := Lines(text);
    var formatted := FormatLines(lines);
    forall k | 0 <= k < |formatted|
      ensures forall i :: 0 <= i < |formatted[k]| ==> !IsNewline(formatted[k][i])
    {
      FormatLineNoNewline(lines[k]);
    }
    SplitWhereJoin(formatted, '\n', IsNewline);
    Join(formatted, "\n")
  }

  /** Two newlines after a line without one: that line, an empty line, then the rest's lines. */
  lemma {:induction false} LinesAfterHeader(header: string, rest: string)
    requires forall i :: 0 <= i < |header| ==> !IsNewline(header[i])
    ensures Lines(header + "\n\n" + rest) == [header, ""] + Lines(rest)
  {
    var tail: string := [] + ['\n'] + rest;
    assert header + "\n\n" + rest == header + ['\n'] + tail;
    SplitWhereConcat(header, '\n', tail, IsNewline);
    SplitWhereConcat([], '\n', rest, IsNewline);
    SplitWhereNone(header, IsNewline);
  }

  /**
   * What the chat shows for an analysis: the header, an empty line and the
   * analysis, formatted together, so the header and the empty line come first
   * and every line of the analysis follows, formatted on its own.
   */
  function FormatReport(analysis: string): (r: string)
    ensures Lines(r) == FormatLines([ReportHeader, ""] + Lines(analysis))
  {
    HeaderHasNoNewline();
    LinesAfterHeader(ReportHeader, analysis);
    FormatAIOutput(ReportHeader + "\n\n" + analysis)
  }

  lemma HeaderHasNoNewline()
    ensures forall i :: 0 <= i < |ReportHeader| ==> !IsNewline(ReportHeader[i])
  {
  }

  lemma PlainLineKept(h: string)
    requires |h| > 0 && !IsBlank(h[0]) && !IsBlank(h[|h| - 1])
    requires '*' !in h && '_' !in h && h[0] != '-'
    requires !MentionsMistake(h)
    ensures FormatLine(h) == h
  {
    assert h[0] in h;
    assert !IsBlankLine(h);
    PlainBody(h);
  }

  /** A trimmed line without markers or a leading '-' is its own cleaned body. */
  lemma PlainBody(h: string)
    requires |h| > 0 && !IsBlank(h[0]) && !IsBlank(h[|h| - 1])
    requires '*' !in h && '_' !in h && h[0] != '-'
    ensures Cleaned(h) == h
  {
    TrimKeeps(h, IsBlank);
    PlainLineUnmarked(h);
    assert !StartsWith(h, "- ");
  }

  /** A line without '*' or '_' has no emphasis to strip. */
  lemma PlainLineUnmarked(h: string)
    requires '*' !in h && '_' !in h
    ensures StripEmphasis(h) == h
  {
    ReplaceAllNoStart(h, "**", "");
    ReplaceAllNoStart(h, "__", "");
  }

  lemma HeaderKept()
    ensures FormatLine(ReportHeader) == ReportHeader
  {
    HeaderNotFlagged();
    PlainLineKept(ReportHeader);
  }

  /**
   * No letter of the line lower-cases to 'c' or 'v', and no two neighbouring
   * letters both lower-case to 'r': it cannot contain "incorrect", "valgus"
   * or "error" in any case.
   */
  predicate Unflaggable(s: string) {
    forall i | 0 <= i < |s| ::
      && LowerChar(s[i]) != 'c' && LowerChar(s[i]) != 'v'
      && (i + 1 < |s| ==> !(LowerChar(s[i]) == 'r' && LowerChar(s[i + 1]) == 'r'))
  }

  lemma NotFlaggedByLetters(s: string)
    requires Unflaggable(s)
    ensures !MentionsMistake(s)
  {
    var lower := AsciiLower(s);
    assert 'c' !in lower && 'v' !in lower by {
      forall i | 0 <= i < |lower|
        ensures lower[i] != 'c' && lower[i] != 'v'
      {
      }
    }
    NotMentioned(lower, "incorrect", 'c');
    NotMentioned(lower, "valgus", 'v');
    forall i | 0 <= i <= |lower|
      ensures !OccursAt(lower, "error", i)
    {
      if i + 5 <= |lower| {
        assert !(lower[i + 1] == 'r' && lower[i + 2] == 'r');
      }
    }
  }

  /** Two unflaggable pieces stay unflaggable when the first does not end in an 'r'. */
  lemma UnflaggableAppend(a: string, b: string)
    requires Unflaggable(a) && Unflaggable(b)
    requires |a| > 0 && LowerChar(a[|a| - 1]) != 'r'
    ensures Unflaggable(a + b)
  {
    var s := a + b;
    forall i | 0 <= i < |s|
      ensures LowerChar(s[i]) != 'c' && LowerChar(s[i]) != 'v'
      ensures i + 1 < |s| ==> !(LowerChar(s[i]) == 'r' && LowerChar(s[i + 1]) == 'r')
    {
      if i + 1 < |a| {
        assert s[i] == a[i] && s[i + 1] == a[i + 1];
      } else if i + 1 == |a| {
        assert s[i] == a[i];
      } else if i + 1 < |s| {
        assert s[i] == b[i - |a|] && s[i + 1] == b[i + 1 - |a|];
      } else {
        assert s[i] == b[i - |a|];
      }
    }
  }

  lemma HeaderWords()
    ensures ReportHeader == "Your " + "professional " + "Squat " + "report " + "is " + "ready!"
  {
  }

  lemma ShortWordsUnflaggable()
    ensures Unflaggable("Your ") && Unflaggable("Squat ") && Unflaggable("is ") && Unflaggable("ready!")
  {
  }

  lemma LongWordsUnflaggable()
    ensures Unflaggable("professional ") && Unflaggable("report ")
  {
  }

  lemma HeaderNotFlagged()
    ensures !MentionsMistake(ReportHeader)
  {
    HeaderWords();
    ShortWordsUnflaggable();
    LongWordsUnflaggable();
    var w1 := "Your " + "professional ";
    UnflaggableAppend("Your ", "professional ");
    var w2 := w1 + "Squat ";
    UnflaggableAppend(w1, "Squat ");
    var w3 := w2 + "report ";
    UnflaggableAppend(w2, "report ");
    var w4 := w3 + "is ";
    UnflaggableAppend(w3, "is ");
    UnflaggableAppend(w4, "ready!");
    NotFlaggedByLetters(ReportHeader);
  }

  lemma NotMentioned(s: string, word: string, c: char)
    requires c in word && c !in s
    ensures !Contains(s, word)
  {
    if Contains(s, word) {
      ContainsElements(s, word);
    }
  }

  /** The report shows the header unchanged, an empty line, then each analysis line formatted. */
  lemma ReportLines(analysis: string)
    ensures Lines(FormatReport(analysis)) == [ReportHeader, ""] + FormatLines(Lines(analysis))
  {
    ConcatLines([ReportHeader, ""], Lines(analysis));
    PairLines(ReportHeader);
    HeaderKept();
    EmptyLineKept();
  }

  /** Formatting works line by line, so it distributes over concatenation. */
  lemma ConcatLines(a: seq<string>, b: seq<string>)
    ensures FormatLines(a + b) == FormatLines(a) + FormatLines(b)
  {
    var x := FormatLines(a + b);
    var y := FormatLines(a) + FormatLines(b);
    forall k | 0 <= k < |x|
      ensures x[k] == y[k]
    {
      if k < |a| {
        assert (a + b)[k] == a[k];
      } else {
        assert (a + b)[k] == b[k - |a|];
      }
    }
  }

  lemma PairLines(h: string)
    ensures FormatLines([h, ""]) == [FormatLine(h), FormatLine("")]
  {
    var lines := [h, ""];
    var x := FormatLines(lines);
    assert x[0] == FormatLine(lines[0]) && x[1] == FormatLine(lines[1]);
    PairOf(x, FormatLine(h), FormatLine(""));
  }

  lemma EmptyLineKept()
    ensures FormatLine("") == ""
  {
    assert IsBlankLine("");
  }

  predicate IsScoreSeparator(c: char) {
    IsWhiteSpace(c) || c == '\n'
  }

  predicate IsSlash(c: char) {
    c == '/'
  }

  /** The first whitespace-delimited token after the first "SQUAT SCORE:", if any. */
  function ScoreToken(text: string): (r: Option<string>)
    ensures r.Some? ==> Contains(text, ScoreMarker) && |r.value| > 0
    ensures r.Some? ==> forall i :: 0 <= i < |r.value| ==> !IsScoreSeparator(r.value[i])
  {
    match IndexOf(text, ScoreMarker)
    case None => None
    case Some(i) =>
      var tokens := Fields(text[i + |ScoreMarker|..], IsScoreSeparator);
      if |tokens| == 0 then None else Some(tokens[0])
  }

  /**
   * The number a score token stands for: two pieces around '/', each read by
   * `parseNumber` (Swift's `Double(_:)`) after trimming blanks, with a
   * positive total, give gained / total * 100.
   */
  function ScoreFraction(token: string, parseNumber: string -> Option<real>): (r: Option<real>)
    ensures r.Some? ==> '/' in token
    // Not exactly two non-empty pieces around '/' ("52", "1/2/3", "/5"): no score.
    ensures |Fields(token, IsSlash)| != 2 ==> r.None?
    ensures |Fields(token, IsSlash)| == 2 ==>
              var gained := parseNumber(Trim(Fields(token, IsSlash)[0], IsBlank));
              var total := parseNumber(Trim(Fields(token, IsSlash)[1], IsBlank));
              // A score exactly when both pieces read as numbers and the total is positive ...
              && (r.Some? <==> gained.Some? && total.Some? && total.value > 0.0)
              // ... so a total of zero or less gives none ...
              && (total.Some? && total.value <= 0.0 ==> r.None?)
              // ... and the score is the percentage gained of total.
              && (r.Some? ==> r.value == gained.value / total.value * 100.0)
  {
    var parts := Fields(token, IsSlash);
    if |parts| != 2 then None
    else
      assert '/' in token by {
        if '/' !in token {
          forall i | 0 <= i < |token|
            ensures !IsSlash(token[i])
          {
            assert token[i] in token;
          }
          FieldsNoSeparator(token, IsSlash);
        }
      }
      var gained := parseNumber(Trim(parts[0], IsBlank));
      var total := parseNumber(Trim(parts[1], IsBlank));
      if gained.Some? && total.Some? && total.value > 0.0 then Some(gained.value / total.value * 100.0)
      else None
  }

  /** `parseScore`: the fraction after the first "SQUAT SCORE:" as a percentage. */
  function ParseScore(text: string, parseNumber: string -> Option<real>): (r: Option<real>)
    ensures !Contains(text, ScoreMarker) ==> r.None?
    ensures r.Some? ==> ScoreToken(text).Some? && '/' in ScoreToken(text).value
    // The score is the first token's, and only its: nothing later in the text is consulted.
    ensures ScoreToken(text).None? ==> r.None?
    ensures ScoreToken(text).Some? ==> r == ScoreFraction(ScoreToken(text).value, parseNumber)
  {
    match ScoreToken(text)
    case None => None
    case Some(token) => ScoreFraction(token, parseNumber)
  }

  /** The marker's only ':' is its last character, so no occurrence can overlap a later one. */
  lemma MarkerColonLast()
    ensures |ScoreMarker| == 12 && ScoreMarker[11] == ':'
    ensures forall t | 0 <= t < 11 :: ScoreMarker[t] != ':'
  {
  }

  /** Text free of the marker followed by the marker: its first occurrence is right there. */
  lemma FirstMarker(prefix: string, tail: string)
    requires !Contains(prefix, ScoreMarker)
    ensures IndexOf(prefix + ScoreMarker + tail, ScoreMarker) == Some(|prefix|)
  {
    var m := ScoreMarker;
    var text := prefix + m + tail;
    MarkerColonLast();
    assert text[|prefix|..|prefix| + |m|] == m;
    assert OccursAt(text, m, |prefix|);
    forall j | 0 <= j < |prefix|
      ensures !OccursAt(text, m, j)
    {
      if j + |m| <= |prefix| {
        assert text[j..j + |m|] == prefix[j..j + |m|];
        assert !OccursAt(prefix, m, j);
      } else if j + |m| <= |text| {
        assert text[j..j + |m|][11] == text[j + 11] == m[j + 11 - |prefix|];
      }
    }
  }

  /**
   * A reply that states its score in the prompt's format, "SQUAT SCORE: n/d",
   * with the marker's first appearance there, scores n / d * 100.
   */
  lemma {:induction false} ScoreOfStandardReply(prefix: string, gained: string, total: string, rest: string,
                                               parseNumber: string -> Option<real>)
    requires !Contains(prefix, ScoreMarker)
    requires |gained| > 0 && |total| > 0
    requires forall i :: 0 <= i < |gained| ==> IsDigit(gained[i])
    requires forall i :: 0 <= i < |total| ==> IsDigit(total[i])
    requires |rest| == 0 || IsScoreSeparator(rest[0])
    requires parseNumber(gained).Some? && parseNumber(total).Some? && parseNumber(total).value > 0.0
    ensures ParseScore(prefix + ScoreMarker + " " + gained + "/" + total + rest, parseNumber)
            == Some(parseNumber(gained).value / parseNumber(total).value * 100.0)
  {
    var token := gained + "/" + total;
    var text := prefix + ScoreMarker + " " + token + rest;
    assert prefix + ScoreMarker + " " + gained + "/" + total + rest == text;
    FractionHasNoSeparator(gained, total);
    ScoreTokenOf(prefix, token, rest);
    DigitsSlashDigits(gained, total);
    TrimKeeps(gained, IsBlank);
    TrimKeeps(total, IsBlank);
    FractionValue(gained, total, parseNumber);
  }

  /** A reply in the prompt's format whose total reads as zero or less has no score, rather than a division by zero. */
  lemma ZeroTotalUnscored(prefix: string, gained: string, total: string, rest: string,
                          parseNumber: string -> Option<real>)
    requires !Contains(prefix, ScoreMarker)
    requires |gained| > 0 && |total| > 0
    requires forall i :: 0 <= i < |gained| ==> IsDigit(gained[i])
    requires forall i :: 0 <= i < |total| ==> IsDigit(total[i])
    requires |rest| == 0 || IsScoreSeparator(rest[0])
    requires parseNumber(total).Some? && parseNumber(total).value <= 0.0
    ensures ParseScore(prefix + ScoreMarker + " " + gained + "/" + total + rest, parseNumber) == None
  {
    var token := gained + "/" + total;
    var text := prefix + ScoreMarker + " " + token + rest;
    assert prefix + ScoreMarker + " " + gained + "/" + total + rest == text;
    FractionHasNoSeparator(gained, total);
    ScoreTokenOf(prefix, token, rest);
    DigitsSlashDigits(gained, total);
    TrimKeeps(total, IsBlank);
  }

  lemma FractionHasNoSeparator(gained: string, total: string)
    requires forall i :: 0 <= i < |gained| ==> IsDigit(gained[i])
    requires forall i :: 0 <= i < |total| ==> IsDigit(total[i])
    ensures forall i :: 0 <= i < |gained + "/" + total| ==> !IsScoreSeparator((gained + "/" + total)[i])
  {
  }

  lemma FractionValue(gained: string, total: string, parseNumber: string -> Option<real>)
    requires Fields(gained + "/" + total, IsSlash) == [gained, total]
    requires Trim(gained, IsBlank) == gained && Trim(total, IsBlank) == total
    requires parseNumber(gained).Some? && parseNumber(total).Some? && parseNumber(total).value > 0.0
    ensures ScoreFraction(gained + "/" + total, parseNumber)
            == Some(parseNumber(gained).value / parseNumber(total).value * 100.0)
  {
    var parts := Fields(gained + "/" + total, IsSlash);
    assert parts[0] == gained && parts[1] == total;
  }

  lemma ScoreTokenOf(prefix: string, token: string, rest: string)
    requires !Contains(prefix, ScoreMarker)
    requires |token| > 0 && forall i :: 0 <= i < |token| ==> !IsScoreSeparator(token[i])
    requires |rest| == 0 || IsScoreSeparator(rest[0])
    ensures ScoreToken(prefix + ScoreMarker + " " + token + rest) == Some(token)
  {
    var text := prefix + ScoreMarker + (" " + token + rest);
    assert prefix + ScoreMarker + " " + token + rest == text;
    FirstMarker(prefix, " " + token + rest);
    assert text[|prefix| + |ScoreMarker|..] == " " + token + rest;
    TokenFirst(token, rest);
  }

  /** The token is followed by a separator or nothing, so it is the first field after the blank. */
  lemma TokenFirst(token: string, rest: string)
    requires |token| > 0 && forall i :: 0 <= i < |token| ==> !IsScoreSeparator(token[i])
    requires |rest| == 0 || IsScoreSeparator(rest[0])
    ensures var f := Fields(" " + token + rest, IsScoreSeparator); |f| > 0 && f[0] == token
  {
    assert " " + token + rest == [] + [' '] + (token + rest);
    SplitWhereConcat([], ' ', token + rest, IsScoreSeparator);
    SplitWhereNone(token, IsScoreSeparator);
    var more: seq<string>;
    if |rest| == 0 {
      assert token + rest == token;
      more := [];
    } else {
      assert token + rest == token + [rest[0]] + rest[1..];
      SplitWhereConcat(token, rest[0], rest[1..], IsScoreSeparator);
      more := SplitWhere(rest[1..], IsScoreSeparator);
    }
    assert SplitWhere(" " + token + rest, IsScoreSeparator) == [[]] + ([token] + more);
    DropEmptyFront(token, more);
  }

  /** "n/d" with digit strings n and d splits at the slash into n and d. */
  lemma DigitsSlashDigits(gained: string, total: string)
    requires |gained| > 0 && |total| > 0
    requires forall i :: 0 <= i < |gained| ==> IsDigit(gained[i])
    requires forall i :: 0 <= i < |total| ==> IsDigit(total[i])
    ensures Fields(gained + "/" + total, IsSlash) == [gained, total]
  {
    SplitWhereConcat(gained, '/', total, IsSlash);
    SplitWhereNone(gained, IsSlash);
    SplitWhereNone(total, IsSlash);
    DropEmptyFront(gained, [total]);
    DropEmptyFront(total, []);
  }
}

=== FILE: foundation.dfy ===
/**
 * The Foundation services the Swift client calls and whose internals are not
 * part of this model, gathered as the fields of one environment value.
 */
module Foundation {
  import opened Wrappers
  import opened Text
  import opened Json

  datatype Env = Env(
    /** `JSONSerialization.jsonObject(with:)`; `None` when it throws. */
    parseJson: seq<byte> -> Option<Json>,
    /** `String(data:encoding: .utf8)`; `None` for bytes that are not UTF-8. */
    decodeUtf8: seq<byte> -> Option<string>,
    /** `JSONSerialization.data(withJSONObject:)`; `None` when it throws. */
    serialize: Json -> Option<seq<byte>>,
    /** `URL(string:) != nil`. */
    validUrl: string -> bool,
    /** `String(format: "%.1f", Double(n) / 1024 / 1024)`. */
    formatMegabytes: nat -> string)

  /** `try? JSONSerialization.jsonObject(with: data) as? [String: Any]`. */
  function ParseObject(env: Env, data: seq<byte>): Option<map<string, Json>> {
    match env.parseJson(data)
    case Some(JObj(fields)) => Some(fields)
    case _ => None
  }

  /** `s.data(using: .utf8)` followed by `ParseObject`: a string that holds a JSON object. */
  function ParseObjectText(env: Env, s: string): Option<map<string, Json>> {
    ParseObject(env, Utf8Encode(s))
  }
}

=== FILE: gateway.dfy ===
/**
 * How the handlers' responses reach the Swift client through API Gateway, and
 * what the client makes of them. With a proxy integration the client gets the
 * handler's status and its `body` string; without one it gets status 200 and
 * the whole response dictionary as JSON, so the payload arrives as a JSON
 * string inside `body`. The client's field cascades exist to read both.
 */
module Gateway {
  import opened Wrappers
  import opened Text
  import opened Json
  import opened Foundation
  import opened Http
  import opened Python
  import BedrockService
  import VideoUploadService
  import NovaLambda
  import StoreLambda

  datatype Integration = Proxy | NonProxy

  /** The response dictionary as JSON, as a non-proxy integration passes it on. */
  function ResponseObject(response: LambdaResponse): Json {
    JObj(map["statusCode" := JNum(response.statusCode as real),
             "headers" := JObj(map k | k in response.headers :: JStr(response.headers[k])),
             "body" := JStr(response.body)])
  }

  /** What the client's request completes with. */
  function Delivered(penv: PyEnv, integration: Integration, response: LambdaResponse): (outcome: Outcome)
    ensures integration == Proxy ==>
              outcome == Completed(Some(response.statusCode), Some(Utf8Encode(response.body)))
    ensures integration == NonProxy ==>
              outcome == Completed(Some(200), Some(Utf8Encode(penv.dumps(ResponseObject(response)))))
  {
    match integration
    case Proxy => Completed(Some(response.statusCode), Some(Utf8Encode(response.body)))
    case NonProxy => Completed(Some(200), Some(Utf8Encode(penv.dumps(ResponseObject(response)))))
  }

  /**
   * The client's JSON parser reads back every portable object the handlers'
   * `json.dumps` writes. Only objects: `JSONSerialization.jsonObject(with:)`
   * without `.fragmentsAllowed` rejects a bare string or number. Only portable
   * values: their numbers are safe integers, so the assumption asks for a
   * printer and parser on a countable set of values, as real ones are.
   */
  ghost predicate Interoperable(env: Env, penv: PyEnv) {
    forall j: Json | j.JObj? && Portable(j) :: env.parseJson(Utf8Encode(penv.dumps(j))) == Some(j)
  }

  /** The response dictionary of a safe status is portable whatever its headers and body. */
  lemma ResponseObjectPortable(response: LambdaResponse)
    requires IsSafeInteger(response.statusCode)
    ensures Portable(ResponseObject(response))
  {
    var n := response.statusCode as real;
    assert n.Floor == response.statusCode;
  }

  /** The credential Lambda's answer: `{"presignedUrl": url, "s3Key": key}` with status 200. */
  function PresignResponse(penv: PyEnv, url: string, key: string): LambdaResponse {
    JsonResponse(penv, 200, map["presignedUrl" := JStr(url), "s3Key" := JStr(key)])
  }

  /** The payload a `JsonResponse` carries reaches the client as the object it parses, or inside its `body`. */
  lemma PayloadParsed(env: Env, penv: PyEnv, integration: Integration, status: int, payload: map<string, Json>)
    requires Interoperable(env, penv) && IsSafeInteger(status) && Portable(JObj(payload))
    ensures var outcome := Delivered(penv, integration, JsonResponse(penv, status, payload));
            && outcome.Completed? && outcome.data.Some?
            && (integration == Proxy ==> ParseObject(env, outcome.data.value) == Some(payload))
            && (integration == NonProxy ==>
                  var json := ParseObject(env, outcome.data.value);
                  && json.Some? && StringField(json.value, "body") == Some(penv.dumps(JObj(payload)))
                  && ParseObjectText(env, json.value["body"].str) == Some(payload))
  {
    var response := JsonResponse(penv, status, payload);
    ResponseObjectPortable(response);
    assert env.parseJson(Utf8Encode(penv.dumps(JObj(payload)))) == Some(JObj(payload));
    assert env.parseJson(Utf8Encode(penv.dumps(ResponseObject(response)))) == Some(ResponseObject(response));
  }

  /** Whatever `json.dumps` writes for an object, the client parses back to that object. */
  lemma ObjectParsed(env: Env, penv: PyEnv, fields: map<string, Json>)
    requires Interoperable(env, penv) && Portable(JObj(fields))
    ensures ParseObject(env, Utf8Encode(penv.dumps(JObj(fields)))) == Some(fields)
  {
    assert env.parseJson(Utf8Encode(penv.dumps(JObj(fields)))) == Some(JObj(fields));
  }

  /** The object the client parses out of a delivered `JsonResponse`: the payload itself, or the whole envelope. */
  function Envelope(penv: PyEnv, integration: Integration, status: int, payload: map<string, Json>): map<string, Json> {
    match integration
    case Proxy => payload
    case NonProxy => ResponseObject(JsonResponse(penv, status, payload)).fields
  }

  /** A delivered `JsonResponse` completes with a status and data that parse to its envelope. */
  lemma Received(env: Env, penv: PyEnv, integration: Integration, status: int, payload: map<string, Json>)
    requires Interoperable(env, penv) && IsSafeInteger(status) && Portable(JObj(payload))
    ensures var outcome := Delivered(penv, integration, JsonResponse(penv, status, payload));
            && outcome.Completed? && outcome.status.Some? && outcome.data.Some?
            && env.parseJson(outcome.data.value) == Some(JObj(Envelope(penv, integration, status, payload)))
  {
    var response := JsonResponse(penv, status, payload);
    if integration == Proxy {
      assert env.parseJson(Utf8Encode(penv.dumps(JObj(payload)))) == Some(JObj(payload));
    } else {
      ResponseObjectPortable(response);
      assert env.parseJson(Utf8Encode(penv.dumps(ResponseObject(response)))) == Some(ResponseObject(response));
    }
  }

  /** Under either integration the client recovers exactly the pair the credential Lambda issued. */
  lemma CredentialRecovered(env: Env, penv: PyEnv, ep: VideoUploadService.Endpoints, integration: Integration,
                            url: string, key: string)
    requires Interoperable(env, penv) && env.validUrl(ep.presignedUrlApi)
    ensures VideoUploadService.RequestCredential(env, ep, Delivered(penv, integration, PresignResponse(penv, url, key))).result
            == Success(VideoUploadService.Credential(url, key))
  {
    var payload := map["presignedUrl" := JStr(url), "s3Key" := JStr(key)];
    ObjectParsed(env, penv, payload);
    if integration == NonProxy {
      var response := PresignResponse(penv, url, key);
      ResponseObjectPortable(response);
      ObjectParsed(env, penv, ResponseObject(response).fields);
      CredentialThroughEnvelope(env, penv, ep, url, key);
    } else {
      CredentialThroughProxy(env, penv, ep, url, key);
    }
  }

  /** With a proxy integration the credential payload is the object the client parses. */
  lemma CredentialThroughProxy(env: Env, penv: PyEnv, ep: VideoUploadService.Endpoints, url: string, key: string)
    requires env.validUrl(ep.presignedUrlApi)
    requires var payload := map["presignedUrl" := JStr(url), "s3Key" := JStr(key)];
             ParseObjectText(env, penv.dumps(JObj(payload))) == Some(payload)
    ensures VideoUploadService.RequestCredential(env, ep, Delivered(penv, Proxy, PresignResponse(penv, url, key))).result
            == Success(VideoUploadService.Credential(url, key))
  {
    var payload := map["presignedUrl" := JStr(url), "s3Key" := JStr(key)];
    CredentialFromObject(env, ep, Utf8Encode(penv.dumps(JObj(payload))), payload);
    assert VideoUploadService.CredentialSource(env, payload) == payload;
  }

  /** With a non-proxy integration the credential payload is read out of the envelope the client parses. */
  lemma CredentialThroughEnvelope(env: Env, penv: PyEnv, ep: VideoUploadService.Endpoints, url: string, key: string)
    requires env.validUrl(ep.presignedUrlApi)
    requires var payload := map["presignedUrl" := JStr(url), "s3Key" := JStr(key)];
             ParseObjectText(env, penv.dumps(JObj(payload))) == Some(payload)
    requires var envelope := ResponseObject(PresignResponse(penv, url, key)).fields;
             ParseObjectText(env, penv.dumps(JObj(envelope))) == Some(envelope)
    ensures VideoUploadService.RequestCredential(env, ep, Delivered(penv, NonProxy, PresignResponse(penv, url, key))).result
            == Success(VideoUploadService.Credential(url, key))
  {
    var payload := map["presignedUrl" := JStr(url), "s3Key" := JStr(key)];
    var envelope := ResponseObject(PresignResponse(penv, url, key)).fields;
    CredentialFromObject(env, ep, Utf8Encode(penv.dumps(JObj(envelope))), envelope);
    EnvelopeCredential(env, penv, payload);
  }

  /** A 200 answer whose data parses to an object hands that object to the credential extraction. */
  lemma CredentialFromObject(env: Env, ep: VideoUploadService.Endpoints, data: seq<byte>, fields: map<string, Json>)
    requires env.validUrl(ep.presignedUrlApi) && ParseObject(env, data) == Some(fields)
    ensures VideoUploadService.RequestCredential(env, ep, Completed(Some(200), Some(data))).result
            == VideoUploadService.ExtractCredential(env, fields)
  {
  }

  /** Through the envelope, the credential pair is read out of the `body` string, which holds the payload. */
  lemma EnvelopeCredential(env: Env, penv: PyEnv, payload: map<string, Json>)
    requires ParseObjectText(env, penv.dumps(JObj(payload))) == Some(payload)
    ensures VideoUploadService.CredentialSource(env, Envelope(penv, NonProxy, 200, payload)) == payload
  {
    assert StringField(Envelope(penv, NonProxy, 200, payload), "body") == Some(penv.dumps(JObj(payload)));
  }

  /** The analysis Lambda's 200 answer. */
  function AnalysisResponse(penv: PyEnv, analysis: Json, resultKey: string): LambdaResponse {
    JsonResponse(penv, 200, NovaLambda.SuccessPayload(analysis, resultKey))
  }

  /** The analysis client reads `Squat_analysis` of a delivered payload that has no `body` of its own. */
  lemma AnalysisRead(env: Env, penv: PyEnv, ep: VideoUploadService.Endpoints, s3Key: string,
                     integration: Integration, status: int, payload: map<string, Json>)
    requires Interoperable(env, penv) && env.validUrl(ep.videoAnalysisApi) && "body" !in payload
    requires IsSafeInteger(status) && Portable(JObj(payload))
    ensures VideoUploadService.Analyze(env, ep, s3Key, Delivered(penv, integration, JsonResponse(penv, status, payload))).result
            == VideoUploadService.FoundAnalysis(StringField(payload, "Squat_analysis"))
  {
    ObjectParsed(env, penv, payload);
    if integration == NonProxy {
      var response := JsonResponse(penv, status, payload);
      ResponseObjectPortable(response);
      ObjectParsed(env, penv, ResponseObject(response).fields);
      AnalysisThroughEnvelope(env, penv, ep, s3Key, status, payload);
    } else {
      AnalysisThroughProxy(env, penv, ep, s3Key, status, payload);
    }
  }

  /** With a proxy integration the analysis payload is the object the client parses. */
  lemma AnalysisThroughProxy(env: Env, penv: PyEnv, ep: VideoUploadService.Endpoints, s3Key: string,
                             status: int, payload: map<string, Json>)
    requires env.validUrl(ep.videoAnalysisApi) && "body" !in payload
    requires ParseObjectText(env, penv.dumps(JObj(payload))) == Some(payload)
    ensures VideoUploadService.Analyze(env, ep, s3Key, Delivered(penv, Proxy, JsonResponse(penv, status, payload))).result
            == VideoUploadService.FoundAnalysis(StringField(payload, "Squat_analysis"))
  {
    AnalysisFromObject(env, ep, s3Key, status, Utf8Encode(penv.dumps(JObj(payload))), payload);
  }

  /** With a non-proxy integration the analysis payload is read out of the envelope the client parses. */
  lemma AnalysisThroughEnvelope(env: Env, penv: PyEnv, ep: VideoUploadService.Endpoints, s3Key: string,
                                status: int, payload: map<string, Json>)
    requires env.validUrl(ep.videoAnalysisApi)
    requires ParseObjectText(env, penv.dumps(JObj(payload))) == Some(payload)
    requires var envelope := ResponseObject(JsonResponse(penv, status, payload)).fields;
             ParseObjectText(env, penv.dumps(JObj(envelope))) == Some(envelope)
    ensures VideoUploadService.Analyze(env, ep, s3Key, Delivered(penv, NonProxy, JsonResponse(penv, status, payload))).result
            == VideoUploadService.FoundAnalysis(StringField(payload, "Squat_analysis"))
  {
    var envelope := ResponseObject(JsonResponse(penv, status, payload)).fields;
    AnalysisFromObject(env, ep, s3Key, 200, Utf8Encode(penv.dumps(JObj(envelope))), envelope);
    EnvelopeAnalysis(env, penv, status, payload);
  }

  /** An answer whose data parses to an object hands that object to the analysis extraction, whatever its status. */
  lemma AnalysisFromObject(env: Env, ep: VideoUploadService.Endpoints, s3Key: string, status: int,
                           data: seq<byte>, fields: map<string, Json>)
    requires env.validUrl(ep.videoAnalysisApi) && ParseObject(env, data) == Some(fields)
    ensures VideoUploadService.Analyze(env, ep, s3Key, Completed(Some(status), Some(data))).result
            == VideoUploadService.ExtractAnalysis(env, fields)
  {
  }

  /** Through the envelope, the analysis is read out of the `body` string, which holds the payload. */
  lemma EnvelopeAnalysis(env: Env, penv: PyEnv, status: int, payload: map<string, Json>)
    requires ParseObjectText(env, penv.dumps(JObj(payload))) == Some(payload)
    ensures VideoUploadService.ExtractAnalysis(env, Envelope(penv, NonProxy, status, payload))
            == VideoUploadService.FoundAnalysis(StringField(payload, "Squat_analysis"))
  {
    assert StringField(Envelope(penv, NonProxy, status, payload), "body") == Some(penv.dumps(JObj(payload)));
  }

  /**
   * Under either integration the client's analysis step succeeds exactly when
   * the model's extracted text is a string, and then with that string.
   */
  lemma AnalysisRecovered(env: Env, penv: PyEnv, ep: VideoUploadService.Endpoints, s3Key: string,
                          integration: Integration, analysis: Json, resultKey: string)
    requires Interoperable(env, penv) && env.validUrl(ep.videoAnalysisApi) && Portable(analysis)
    ensures var result := VideoUploadService.Analyze(env, ep, s3Key, Delivered(penv, integration, AnalysisResponse(penv, analysis, resultKey))).result;
            && (result.Success? <==> analysis.JStr?)
            && (analysis.JStr? ==> result == Success(analysis.str))
  {
    var payload := NovaLambda.SuccessPayload(analysis, resultKey);
    assert "body" !in payload && payload["Squat_analysis"] == analysis;
    AnalysisRead(env, penv, ep, s3Key, integration, 200, payload);
  }

  /**
   * A caught exception reaches a proxy client as status 500 and a body it parses
   * to `{"error": str(e)}`; a handler's own `ValueError` shows its message.
   */
  lemma ErrorReported(env: Env, penv: PyEnv, e: PyException)
    requires Interoperable(env, penv)
    ensures var outcome := Delivered(penv, Proxy, ErrorResponse(penv, e));
            && outcome.Completed? && outcome.status == Some(500) && outcome.data.Some?
            && ParseObject(env, outcome.data.value) == Some(map["error" := JStr(Str(penv, e))])
            && (e.ValueError? ==> ParseObject(env, outcome.data.value) == Some(map["error" := JStr(e.message)]))
  {
    ObjectParsed(env, penv, map["error" := JStr(Str(penv, e))]);
  }

  /**
   * An error from the analysis Lambda reaches the client as "analysis result
   * not found": the server's own message is not shown.
   */
  lemma AnalysisErrorHidden(env: Env, penv: PyEnv, ep: VideoUploadService.Endpoints, s3Key: string,
                            integration: Integration, e: PyException)
    requires Interoperable(env, penv) && env.validUrl(ep.videoAnalysisApi)
    ensures VideoUploadService.Analyze(env, ep, s3Key, Delivered(penv, integration, ErrorResponse(penv, e))).result
            == VideoUploadService.FoundAnalysis(None)
  {
    AnalysisRead(env, penv, ep, s3Key, integration, 500, map["error" := JStr(Str(penv, e))]);
  }

  /**
   * The whole pipeline against the two Lambdas: the credential pair issued,
   * a transfer answered 200 and a 200 analysis give the analysis text,
   * after exactly three requests, the last naming the issued key.
   */
  lemma PipelineDelivers(env: Env, penv: PyEnv, ep: VideoUploadService.Endpoints, integration: Integration,
                         video: seq<byte>, url: string, key: string, analysis: string, resultKey: string,
                         transferData: Option<seq<byte>>)
    requires Interoperable(env, penv)
    requires env.validUrl(ep.presignedUrlApi) && env.validUrl(url) && env.validUrl(ep.videoAnalysisApi)
    requires |video| <= VideoUploadService.MaxVideoBytes
    ensures var run := VideoUploadService.UploadAndAnalyze(
                         env, ep, Some(video),
                         VideoUploadService.Script(
                           Delivered(penv, integration, PresignResponse(penv, url, key)),
                           Completed(Some(200), transferData),
                           Delivered(penv, integration, AnalysisResponse(penv, JStr(analysis), resultKey))));
            && run.result == Success(analysis)
            && run.calls == [VideoUploadService.CredentialRequest(ep),
                             VideoUploadService.TransferRequest(VideoUploadService.Credential(url, key), video),
                             VideoUploadService.AnalysisRequest(env, ep, key)]
  {
    CredentialRecovered(env, penv, ep, integration, url, key);
    AnalysisRecovered(env, penv, ep, key, integration, JStr(analysis), resultKey);
  }

  /** The chat Lambda's answer. */
  function AdviceResponse(penv: PyEnv, advice: string): LambdaResponse {
    JsonResponse(penv, 200, map["message" := JStr(advice)])
  }

  /** What the chat client makes of a `JsonResponse`: the field cascade over its envelope. */
  lemma ChatReads(env: Env, penv: PyEnv, apiUrl: string, message: string, integration: Integration,
                  status: int, payload: map<string, Json>)
    requires Interoperable(env, penv) && env.validUrl(apiUrl) && env.serialize(BedrockService.MessageBody(message)).Some?
    requires IsSafeInteger(status) && Portable(JObj(payload))
    ensures BedrockService.SendMessage(env, apiUrl, message, Delivered(penv, integration, JsonResponse(penv, status, payload))).result
            == BedrockService.PickAnswer(env, Envelope(penv, integration, status, payload))
  {
    if integration == NonProxy {
      var response := JsonResponse(penv, status, payload);
      var envelope := ResponseObject(response).fields;
      ResponseObjectPortable(response);
      ObjectParsed(env, penv, envelope);
      AnswerFromObject(env, apiUrl, message, Some(200), Utf8Encode(penv.dumps(JObj(envelope))), envelope);
    } else {
      ObjectParsed(env, penv, payload);
      AnswerFromObject(env, apiUrl, message, Some(status), Utf8Encode(penv.dumps(JObj(payload))), payload);
    }
  }

  /** Data that parses to an object is answered by the field cascade over that object, whatever the status. */
  lemma AnswerFromObject(env: Env, apiUrl: string, message: string, status: Option<int>,
                         data: seq<byte>, fields: map<string, Json>)
    requires env.validUrl(apiUrl) && env.serialize(BedrockService.MessageBody(message)).Some?
    requires ParseObject(env, data) == Some(fields)
    ensures BedrockService.SendMessage(env, apiUrl, message, Completed(status, Some(data))).result
            == BedrockService.PickAnswer(env, fields)
  {
  }

  /** The envelope of a non-proxy integration answers with its `body`, read for its own `message`. */
  lemma EnvelopeAnswer(env: Env, penv: PyEnv, status: int, payload: map<string, Json>)
    requires ParseObjectText(env, penv.dumps(JObj(payload))) == Some(payload)
    ensures BedrockService.PickAnswer(env, Envelope(penv, NonProxy, status, payload))
            == Success(match StringField(payload, "message")
                       case Some(m) => m
                       case None => penv.dumps(JObj(payload)))
  {
    var fields := Envelope(penv, NonProxy, status, payload);
    assert StringField(fields, "code").None? && StringField(fields, "response").None?;
    assert StringField(fields, "body") == Some(penv.dumps(JObj(payload)));
  }

  /** Under either integration the chat client shows exactly the advice the chat Lambda returned. */
  lemma AdviceRecovered(env: Env, penv: PyEnv, apiUrl: string, message: string, integration: Integration, advice: string)
    requires Interoperable(env, penv) && env.validUrl(apiUrl) && env.serialize(BedrockService.MessageBody(message)).Some?
    ensures BedrockService.SendMessage(env, apiUrl, message, Delivered(penv, integration, AdviceResponse(penv, advice))).result
            == Success(advice)
  {
    var payload := map["message" := JStr(advice)];
    ChatReads(env, penv, apiUrl, message, integration, 200, payload);
    if integration == NonProxy {
      ObjectParsed(env, penv, payload);
      EnvelopeAnswer(env, penv, 200, payload);
      assert StringField(payload, "message") == Some(advice);
    } else {
      AdvicePayloadPicked(env, advice);
    }
  }

  /** A bare `{"message": text}` is answered with that text. */
  lemma AdvicePayloadPicked(env: Env, advice: string)
    ensures BedrockService.PickAnswer(env, map["message" := JStr(advice)]) == Success(advice)
  {
    var payload := map["message" := JStr(advice)];
    assert StringField(payload, "code").None? && StringField(payload, "response").None?;
    assert StringField(payload, "body").None? && StringField(payload, "message") == Some(advice);
  }

  /**
   * An error answer of the chat Lambda (400 or 500, `{"error": text}`): with a
   * proxy integration the client fails listing the one key present; without
   * one it shows the error's JSON text as if it were the advice.
   */
  lemma ChatErrorShown(env: Env, penv: PyEnv, apiUrl: string, message: string, integration: Integration,
                       status: int, error: string)
    requires Interoperable(env, penv) && env.validUrl(apiUrl) && env.serialize(BedrockService.MessageBody(message)).Some?
    requires IsSafeInteger(status)
    ensures var payload := map["error" := JStr(error)];
            var result := BedrockService.SendMessage(env, apiUrl, message, Delivered(penv, integration, JsonResponse(penv, status, payload))).result;
            && (integration == Proxy ==> result == Failure(MissingFields(BedrockService.Domain, -3, {"error"})))
            && (integration == NonProxy ==> result == Success(penv.dumps(JObj(payload))))
  {
    if integration == Proxy {
      ChatErrorThroughProxy(env, penv, apiUrl, message, status, error);
    } else {
      ChatErrorThroughEnvelope(env, penv, apiUrl, message, status, error);
    }
  }

  /** With a proxy integration the chat client finds none of its fields in `{"error": text}`. */
  lemma ChatErrorThroughProxy(env: Env, penv: PyEnv, apiUrl: string, message: string, status: int, error: string)
    requires Interoperable(env, penv) && env.validUrl(apiUrl) && env.serialize(BedrockService.MessageBody(message)).Some?
    requires IsSafeInteger(status)
    ensures BedrockService.SendMessage(env, apiUrl, message, Delivered(penv, Proxy, JsonResponse(penv, status, map["error" := JStr(error)]))).result
            == Failure(MissingFields(BedrockService.Domain, -3, {"error"}))
  {
    ChatReads(env, penv, apiUrl, message, Proxy, status, map["error" := JStr(error)]);
    ErrorPayloadPicked(env, error);
  }

  /** With a non-proxy integration the chat client shows the JSON text of `{"error": text}`. */
  lemma ChatErrorThroughEnvelope(env: Env, penv: PyEnv, apiUrl: string, message: string, status: int, error: string)
    requires Interoperable(env, penv) && env.validUrl(apiUrl) && env.serialize(BedrockService.MessageBody(message)).Some?
    requires IsSafeInteger(status)
    ensures var payload := map["error" := JStr(error)];
            BedrockService.SendMessage(env, apiUrl, message, Delivered(penv, NonProxy, JsonResponse(penv, status, payload))).result
            == Success(penv.dumps(JObj(payload)))
  {
    var payload := map["error" := JStr(error)];
    ChatReads(env, penv, apiUrl, message, NonProxy, status, payload);
    ObjectParsed(env, penv, payload);
    EnvelopeAnswer(env, penv, status, payload);
    assert StringField(payload, "message").None?;
  }

  /** A bare `{"error": text}` holds none of the answer fields. */
  lemma ErrorPayloadPicked(env: Env, error: string)
    ensures BedrockService.PickAnswer(env, map["error" := JStr(error)])
            == Failure(MissingFields(BedrockService.Domain, -3, {"error"}))
  {
    var payload := map["error" := JStr(error)];
    assert StringField(payload, "code").None? && StringField(payload, "response").None?;
    assert StringField(payload, "body").None? && StringField(payload, "message").None?;
    assert payload.Keys == {"error"};
  }

  /** The key the upload Lambda stores a video under gets its analysis stored next to the other analyses. */
  lemma StoredKeyAnalysedAt(seconds: nat, timestamp: string)
    ensures NovaLambda.ResultKey(StoreLambda.UploadKey(seconds), timestamp)
            == NovaLambda.OutputPrefix + NatToString(seconds) + "_" + timestamp + ".json"
  {
    assert StoreLambda.UploadKey(seconds) == NovaLambda.UploadPrefix + NatToString(seconds) + ".mp4";
    NovaLambda.ResultKeyOfUploadKey(NatToString(seconds), timestamp);
  }
}

=== FILE: http.dfy ===
/**
 * The requests the client issues, the scripted outcome of each, and the
 * failures its completion handlers report.
 */
module Http {
  import opened Wrappers
  import opened Text

  datatype Method = POST | PUT

  datatype Request = Request(verb: Method, url: string, contentType: string, body: Option<seq<byte>>)

  /**
   * What `URLSession.dataTask` hands the completion handler: an error, or a
   * response (`status` is `None` when it is not an `HTTPURLResponse`) with
   * optional data.
   */
  datatype Outcome =
    | TransportFailed(cause: string)
    | Completed(status: Option<int>, data: Option<seq<byte>>)

  datatype Failure =
    /** An `NSError(domain:code:userInfo:)` built by the client itself. */
    | AppError(domain: string, code: int, description: string)
    /** The chat client's code -3 error, whose description lists the keys that were present. */
    | MissingFields(domain: string, code: int, available: set<string>)
    /** An error handed over by `URLSession`. */
    | TransportError(cause: string)
    /** The error thrown by `JSONSerialization.jsonObject(with:)`. */
    | ParseError
    /** The error thrown by `JSONSerialization.data(withJSONObject:)`. */
    | SerializationError

  /** The requests an operation issued, in order, and what it reported. */
  datatype Run<T> = Run(calls: seq<Request>, result: Result<T, Failure>)
}

=== FILE: json.dfy ===
/**
 * JSON values as both sides of the system see them after parsing: Foundation's
 * `[String: Any]` trees on the client and Python dictionaries in the handlers.
 */
module Json {
  import opened Wrappers

  datatype Json =
    | JNull
    | JBool(b: bool)
    | JNum(n: real)
    | JStr(str: string)
    | JArr(items: seq<Json>)
    | JObj(fields: map<string, Json>)

  /** 2^53 - 1: the largest integer JSON implementations agree on exactly (section 6 of RFC 8259). */
  const MaxSafeInteger: int := 0x1F_FFFF_FFFF_FFFF

  predicate IsSafeInteger(n: int) {
    -MaxSafeInteger <= n <= MaxSafeInteger
  }

  /**
   * A value every JSON implementation writes and reads back unchanged: its
   * numbers are integers within the safe range, as the handlers' own numbers
   * (status codes) are. A real with a fraction need not survive a round trip
   * through a parser that reads numbers as binary floating point.
   */
  predicate Portable(j: Json) {
    match j
    case JNum(n) => n == n.Floor as real && IsSafeInteger(n.Floor)
    case JArr(items) => forall i :: 0 <= i < |items| ==> Portable(items[i])
    case JObj(fields) => forall k :: k in fields ==> Portable(fields[k])
    case _ => true
  }

  /** Swift's `obj[key] as? String`. */
  function StringField(obj: map<string, Json>, key: string): Option<string> {
    if key in obj && obj[key].JStr? then Some(obj[key].str) else None
  }

  /** Swift's `obj[key] as? [String: Any]`. */
  function ObjectField(obj: map<string, Json>, key: string): Option<map<string, Json>> {
    if key in obj && obj[key].JObj? then Some(obj[key].fields) else None
  }

  /**
   * The first key of `keys` whose value in `obj` is a string, with that string:
   * a priority list scanned in order, first match wins.
   */
  function FirstStringField(obj: map<string, Json>, keys: seq<string>): (r: Option<(string, string)>)
    ensures r.Some? ==> r.value.0 in keys && StringField(obj, r.value.0) == Some(r.value.1)
    ensures r.None? <==> forall k :: k in keys ==> StringField(obj, k).None?
    ensures r.Some? ==> exists i :: 0 <= i < |keys| && keys[i] == r.value.0
                                    && forall j :: 0 <= j < i ==> StringField(obj, keys[j]).None?
    decreases |keys|
  {
    if |keys| == 0 then None
    else match StringField(obj, keys[0])
      case Some(s) => Some((keys[0], s))
      case None =>
        var rest := FirstStringField(obj, keys[1..]);
        assert rest.Some? ==> exists i :: 0 <= i < |keys| && keys[i] == rest.value.0
                                          && forall j :: 0 <= j < i ==> StringField(obj, keys[j]).None? by {
          if rest.Some? {
            var i :| 0 <= i < |keys[1..]| && keys[1..][i] == rest.value.0
                     && forall j :: 0 <= j < i ==> StringField(obj, keys[1..][j]).None?;
            assert keys[i + 1] == rest.value.0;
            forall j | 0 <= j < i + 1
              ensures StringField(obj, keys[j]).None?
            {
              if j > 0 {
                assert keys[j] == keys[1..][j - 1];
              }
            }
          }
        }
        rest
  }
}

=== FILE: nova_lambda.dfy ===
/**
 * The video-analysis Lambda (`novalight_model.py`): reads `s3Key` from the
 * request, probes the object's size, asks Nova Lite to analyse the video in
 * place through its S3 URI, stores the analysis next to the video and answers
 * with `{"Squat_analysis": ..., "result_s3_key": ...}`.
 */
module NovaLambda {
  import opened Wrappers
  import opened Seqs
  import opened Text
  import opened Json
  import opened Python

  const ModelId := "us.amazon.nova-lite-v1:0"

  /** The largest video the size probe is meant to let through: 1 GiB. */
  const MaxVideoSize: nat := 1024 * 1024 * 1024

  const UploadPrefix := "squat_video/"
  const OutputPrefix := "squat_video_model_output/"

  /** The AWS requests the handler issues, in order. */
  datatype AwsCall =
    | HeadObject(bucket: string, key: string)
    | GetCallerIdentity
    | InvokeModel(modelId: string, uri: string, bucketOwner: string)
    | PutObject(bucket: string, key: string, document: Json, contentType: string)

  /**
   * What AWS answers: the object's `ContentLength` (None when `head_object`
   * raises), the caller's account (None when STS raises), the parsed model
   * response or the exception invoking, reading or parsing it raised, and
   * the exception `put_object` raised, if any.
   */
  datatype Script = Script(
    head: Option<int>,
    account: Option<string>,
    invoke: PyResult<Json>,
    put: Option<PyException>
  )

  datatype Run = Run(calls: seq<AwsCall>, response: LambdaResponse)

  const MissingKeyMessage := "请求必须包含 's3Key' 字段"

  /** The text of the size error, with the size in MB to two decimals. */
  function TooLargeMessage(penv: PyEnv, size: int): string {
    "视频文件太大: " + penv.formatMB2(size) + " MB，最大限制: 1024 MB"
  }

  function S3Uri(bucket: string, key: string): string {
    "s3://" + bucket + "/" + key
  }

  /** Where the analysis of `key` is stored: the folder renamed, ".mp4" replaced by "_<timestamp>.json". */
  function ResultKey(key: string, timestamp: string): (r: string)
    ensures !Contains(key, UploadPrefix) && !Contains(key, ".mp4") ==> r == key
  {
    var renamed := ReplaceAll(key, UploadPrefix, OutputPrefix);
    assert !Contains(key, UploadPrefix) && !Contains(key, ".mp4") ==>
             ReplaceAll(renamed, ".mp4", "_" + timestamp + ".json") == key by {
      if !Contains(key, UploadPrefix) && !Contains(key, ".mp4") {
        ReplaceAllAbsent(key, UploadPrefix, OutputPrefix);
        ReplaceAllAbsent(key, ".mp4", "_" + timestamp + ".json");
      }
    }
    ReplaceAll(renamed, ".mp4", "_" + timestamp + ".json")
  }

  /**
   * `invoke_nova_video_analysis` after the call: the extracted text, or a
   * `ValueError` quoting the whole response when neither shape matched.
   */
  function ExtractModelText(penv: PyEnv, mr: Json): (r: PyResult<Json>)
    ensures OutputContentText(mr) == Ok(None) ==>
              r == Raise(ValueError("无法解析响应: " + penv.dumpsNonAscii(mr)))
    ensures OutputContentText(mr).Ok? && OutputContentText(mr).value.Some? ==>
              r == Ok(OutputContentText(mr).value.value)
    ensures OutputContentText(mr).Raise? ==> r == Raise(OutputContentText(mr).error)
  {
    match OutputContentText(mr)
    case Ok(Some(text)) => Ok(text)
    case Ok(None) => Raise(ValueError("无法解析响应: " + penv.dumpsNonAscii(mr)))
    case Raise(e) => Raise(e)
  }

  /**
   * A Nova reply yields its first content item's text as the analysis, whatever
   * other keys it carries.
   */
  lemma NovaReplyExtracted(penv: PyEnv, top: map<string, Json>, output: map<string, Json>,
                           message: map<string, Json>, item: map<string, Json>, more: seq<Json>, text: Json)
    ensures var reply := JObj(top["output" := JObj(output["message" :=
                           JObj(message["content" := JArr([JObj(item["text" := text])] + more)])])]);
            ExtractModelText(penv, reply) == Ok(text)
  {
    NovaResponseText(top, output, message, item, more, text);
  }

  /** A dict reply of neither shape is reported with the whole reply in its message. */
  lemma UnrecognisedReplyRaises(penv: PyEnv, fields: map<string, Json>)
    requires "output" !in fields && "text" !in fields
    ensures ExtractModelText(penv, JObj(fields))
            == Raise(ValueError("无法解析响应: " + penv.dumpsNonAscii(JObj(fields))))
  {
    NeitherShape(fields);
  }

  /** The `s3Key` of the request body: parse errors and a falsy key raise before any AWS call. */
  function RequestedKey(penv: PyEnv, event: map<string, Json>): (r: PyResult<Json>)
    ensures r.Ok? ==> Truthy(r.value)
    ensures Loads(penv, EventBody(event)).Raise? ==> r == Raise(Loads(penv, EventBody(event)).error)
    // A parsed dict: its truthy `s3Key`, or the "missing key" error when it is absent or falsy.
    ensures Loads(penv, EventBody(event)).Ok? && Loads(penv, EventBody(event)).value.JObj? ==>
              var f := Loads(penv, EventBody(event)).value.fields;
              r == (if "s3Key" in f && Truthy(f["s3Key"]) then Ok(f["s3Key"]) else Raise(ValueError(MissingKeyMessage)))
    // A body that parses to anything but a dict has no `.get`.
    ensures Loads(penv, EventBody(event)).Ok? && !Loads(penv, EventBody(event)).value.JObj? ==>
              r == Raise(AttributeError)
  {
    var body :- Loads(penv, EventBody(event));
    var key :- Get(body, "s3Key", JNull);
    if Truthy(key) then Ok(key) else Raise(ValueError(MissingKeyMessage))
  }

  /** The stored document: `{"video_s3_key", "analysis", "timestamp"}`. */
  function StoredDocument(key: string, analysis: Json, timestamp: string): Json {
    JObj(map["video_s3_key" := JStr(key), "analysis" := analysis, "timestamp" := JStr(timestamp)])
  }

  /** The success payload. */
  function SuccessPayload(analysis: Json, resultKey: string): map<string, Json> {
    map["Squat_analysis" := analysis, "result_s3_key" := JStr(resultKey)]
  }

  /**
   * The handler, with the size probe either ignored, as the source behaves,
   * or enforced, as it evidently means to (`enforceLimit`). A key that is not
   * a string still reaches the model, through its `str()` form, before
   * `replace` fails on it.
   */
  function HandleCore(penv: PyEnv, bucket: string, event: map<string, Json>, timestamp: string,
                      script: Script, enforceLimit: bool): (run: Run)
    ensures RequestedKey(penv, event).Raise? ==>
              run == Run([], ErrorResponse(penv, RequestedKey(penv, event).error))
    ensures run.response.statusCode == 200 || run.response.statusCode == 500
    ensures |run.calls| <= 4
    ensures run.response.statusCode == 200 <==>
              && RequestedKey(penv, event).Ok? && RequestedKey(penv, event).value.JStr?
              && !(enforceLimit && script.head.Some? && script.head.value > MaxVideoSize)
              && script.invoke.Ok? && ExtractModelText(penv, script.invoke.value).Ok?
              && script.put.None?
    ensures run.response.statusCode == 200 ==>
              var key := RequestedKey(penv, event).value.str;
              var analysis := ExtractModelText(penv, script.invoke.value).value;
              && run.response == JsonResponse(penv, 200, SuccessPayload(analysis, ResultKey(key, timestamp)))
              && run.calls == [HeadObject(bucket, key), GetCallerIdentity,
                               InvokeModel(ModelId, S3Uri(bucket, key), if script.account.Some? then script.account.value else ""),
                               PutObject(bucket, ResultKey(key, timestamp), StoredDocument(key, analysis, timestamp), "application/json")]
    // Once the key is read, the refused video and each later exception, with its own `{"error": str(e)}`.
    ensures RequestedKey(penv, event).Ok? ==>
              var key := RequestedKey(penv, event).value;
              && (enforceLimit && key.JStr? && script.head.Some? && script.head.value > MaxVideoSize ==>
                    run.response == ErrorResponse(penv, ValueError(TooLargeMessage(penv, script.head.value))))
              && (!(enforceLimit && key.JStr? && script.head.Some? && script.head.value > MaxVideoSize) ==>
                    && (script.invoke.Raise? ==> run.response == ErrorResponse(penv, script.invoke.error))
                    && (script.invoke.Ok? && ExtractModelText(penv, script.invoke.value).Raise? ==>
                          run.response == ErrorResponse(penv, ExtractModelText(penv, script.invoke.value).error))
                    && (script.invoke.Ok? && ExtractModelText(penv, script.invoke.value).Ok? && !key.JStr? ==>
                          run.response == ErrorResponse(penv, AttributeError))
                    && (key.JStr? && script.invoke.Ok? && ExtractModelText(penv, script.invoke.value).Ok? && script.put.Some? ==>
                          run.response == ErrorResponse(penv, script.put.value)))
  {
    match RequestedKey(penv, event)
    case Raise(e) => Run([], ErrorResponse(penv, e))
    case Ok(key) => WithKey(penv, bucket, key, timestamp, script, enforceLimit)
  }

  /** The handler once the key was read: the size probe, the model call and what follows. */
  function WithKey(penv: PyEnv, bucket: string, key: Json, timestamp: string,
                   script: Script, enforceLimit: bool): (run: Run)
    ensures run.response.statusCode == 200 || run.response.statusCode == 500
    ensures |run.calls| <= 4
    ensures run.response.statusCode == 200 <==>
              && key.JStr? && !(enforceLimit && script.head.Some? && script.head.value > MaxVideoSize)
              && script.invoke.Ok? && ExtractModelText(penv, script.invoke.value).Ok?
              && script.put.None?
    ensures run.response.statusCode == 200 ==>
              var analysis := ExtractModelText(penv, script.invoke.value).value;
              && run.response == JsonResponse(penv, 200, SuccessPayload(analysis, ResultKey(key.str, timestamp)))
              && run.calls == [HeadObject(bucket, key.str), GetCallerIdentity,
                               InvokeModel(ModelId, S3Uri(bucket, key.str), if script.account.Some? then script.account.value else ""),
                               PutObject(bucket, ResultKey(key.str, timestamp), StoredDocument(key.str, analysis, timestamp), "application/json")]
    // The refused oversized video, and each exception after the model call, with its own `{"error": str(e)}`.
    ensures enforceLimit && key.JStr? && script.head.Some? && script.head.value > MaxVideoSize ==>
              run == Run([HeadObject(bucket, key.str)], ErrorResponse(penv, ValueError(TooLargeMessage(penv, script.head.value))))
    ensures !(enforceLimit && key.JStr? && script.head.Some? && script.head.value > MaxVideoSize) ==>
              && (script.invoke.Raise? ==> run.response == ErrorResponse(penv, script.invoke.error))
              && (script.invoke.Ok? && ExtractModelText(penv, script.invoke.value).Raise? ==>
                    run.response == ErrorResponse(penv, ExtractModelText(penv, script.invoke.value).error))
              && (script.invoke.Ok? && ExtractModelText(penv, script.invoke.value).Ok? && !key.JStr? ==>
                    run.response == ErrorResponse(penv, AttributeError))
              && (key.JStr? && script.invoke.Ok? && ExtractModelText(penv, script.invoke.value).Ok? && script.put.Some? ==>
                    run.response == ErrorResponse(penv, script.put.value))
  {
    var keyText := if key.JStr? then key.str else penv.show(key);
    var probe := if key.JStr? then [HeadObject(bucket, key.str)] else [];
    if enforceLimit && key.JStr? && script.head.Some? && script.head.value > MaxVideoSize then
      Run(probe, ErrorResponse(penv, ValueError(TooLargeMessage(penv, script.head.value))))
    else
      var owner := if script.account.Some? then script.account.value else "";
      var invoked := probe + [GetCallerIdentity, InvokeModel(ModelId, S3Uri(bucket, keyText), owner)];
      AfterModel(penv, bucket, key, timestamp, script, invoked)
  }

  /** The handler once the model was called: extraction, the stored document and the answer. */
  function AfterModel(penv: PyEnv, bucket: string, key: Json, timestamp: string, script: Script,
                      invoked: seq<AwsCall>): (run: Run)
    ensures run.response.statusCode == 200 || run.response.statusCode == 500
    ensures |invoked| <= |run.calls| <= |invoked| + 1 && run.calls[..|invoked|] == invoked
    ensures run.response.statusCode == 200 <==>
              key.JStr? && script.invoke.Ok? && ExtractModelText(penv, script.invoke.value).Ok? && script.put.None?
    ensures run.response.statusCode == 200 ==>
              var analysis := ExtractModelText(penv, script.invoke.value).value;
              && run.response == JsonResponse(penv, 200, SuccessPayload(analysis, ResultKey(key.str, timestamp)))
              && run.calls == invoked + [PutObject(bucket, ResultKey(key.str, timestamp),
                                                   StoredDocument(key.str, analysis, timestamp), "application/json")]
    // Each exception after the model call is answered with its own `{"error": str(e)}`.
    ensures script.invoke.Raise? ==> run == Run(invoked, ErrorResponse(penv, script.invoke.error))
    ensures script.invoke.Ok? && ExtractModelText(penv, script.invoke.value).Raise? ==>
              run == Run(invoked, ErrorResponse(penv, ExtractModelText(penv, script.invoke.value).error))
    ensures script.invoke.Ok? && ExtractModelText(penv, script.invoke.value).Ok? && !key.JStr? ==>
              run == Run(invoked, ErrorResponse(penv, AttributeError))
    ensures key.JStr? && script.invoke.Ok? && ExtractModelText(penv, script.invoke.value).Ok? && script.put.Some? ==>
              run.response == ErrorResponse(penv, script.put.value)
  {
    match script.invoke
    case Raise(e) => Run(invoked, ErrorResponse(penv, e))
    case Ok(mr) =>
      match ExtractModelText(penv, mr)
      case Raise(e) => Run(invoked, ErrorResponse(penv, e))
      case Ok(analysis) =>
        if !key.JStr? then Run(invoked, ErrorResponse(penv, AttributeError))
        else
          var resultKey := ResultKey(key.str, timestamp);
          var stored := invoked + [PutObject(bucket, resultKey, StoredDocument(key.str, analysis, timestamp), "application/json")];
          match script.put
          case Some(e) => Run(stored, ErrorResponse(penv, e))
          case None => Run(stored, JsonResponse(penv, 200, SuccessPayload(analysis, resultKey)))
  }

  /** `lambda_handler` as written: the size error is caught by the probe's own handler. */
  function Handle(penv: PyEnv, bucket: string, event: map<string, Json>, timestamp: string, script: Script): Run {
    HandleCore(penv, bucket, event, timestamp, script, false)
  }

  /** `lambda_handler` with the 1 GiB limit enforced. */
  function HandleWithSizeLimit(penv: PyEnv, bucket: string, event: map<string, Json>, timestamp: string,
                               script: Script): Run {
    HandleCore(penv, bucket, event, timestamp, script, true)
  }

  /** The size probe's answer makes no difference to the handler as written. */
  lemma SizeProbeIgnored(penv: PyEnv, bucket: string, event: map<string, Json>, timestamp: string,
                         script: Script, head: Option<int>)
    ensures Handle(penv, bucket, event, timestamp, script) == Handle(penv, bucket, event, timestamp, script.(head := head))
  {
  }

  /** As written, a video over the 1 GiB limit is still sent to the model and analysed. */
  lemma OversizedVideoAnalyzed(penv: PyEnv, bucket: string, event: map<string, Json>, timestamp: string,
                               script: Script)
    requires RequestedKey(penv, event).Ok? && RequestedKey(penv, event).value.JStr?
    requires script.head.Some? && script.head.value > MaxVideoSize
    requires script.invoke.Ok? && ExtractModelText(penv, script.invoke.value).Ok? && script.put.None?
    ensures Handle(penv, bucket, event, timestamp, script).response.statusCode == 200
    ensures Handle(penv, bucket, event, timestamp, script).calls[2].InvokeModel?
  {
  }

  /** With the limit enforced, an oversized video is refused after the probe, before the model is called. */
  lemma LimitRefusesOversized(penv: PyEnv, bucket: string, event: map<string, Json>, timestamp: string,
                              script: Script)
    requires RequestedKey(penv, event).Ok? && RequestedKey(penv, event).value.JStr?
    requires script.head.Some? && script.head.value > MaxVideoSize
    ensures HandleWithSizeLimit(penv, bucket, event, timestamp, script)
            == Run([HeadObject(bucket, RequestedKey(penv, event).value.str)],
                   ErrorResponse(penv, ValueError(TooLargeMessage(penv, script.head.value))))
  {
  }

  /** With the limit enforced, everything else behaves as written. */
  lemma LimitChangesNothingElse(penv: PyEnv, bucket: string, event: map<string, Json>, timestamp: string,
                                script: Script)
    requires !(script.head.Some? && script.head.value > MaxVideoSize)
    ensures HandleWithSizeLimit(penv, bucket, event, timestamp, script) == Handle(penv, bucket, event, timestamp, script)
  {
  }

  /**
   * The key the upload Lambdas generate, "squat_video/<seconds>.mp4", gets its
   * analysis stored at "squat_video_model_output/<seconds>_<timestamp>.json".
   */
  lemma ResultKeyOfUploadKey(seconds: string, timestamp: string)
    requires forall i :: 0 <= i < |seconds| ==> IsDigit(seconds[i])
    ensures ResultKey(UploadPrefix + seconds + ".mp4", timestamp)
            == OutputPrefix + seconds + "_" + timestamp + ".json"
  {
    var stamped := "_" + timestamp + ".json";
    NoLetterS(seconds);
    NoDot(seconds);
    RenameAndStamp(UploadPrefix, OutputPrefix, seconds, ".mp4", stamped);
    AppendThree(OutputPrefix + seconds, "_", timestamp, ".json");
  }

  /** Replacing the folder once and then the extension once. */
  lemma RenameAndStamp(folder: string, renamed: string, name: string, ext: string, stamped: string)
    requires |folder| > 0 && |ext| > 0
    requires folder[0] !in name + ext && ext[0] !in renamed + name
    ensures ReplaceAll(ReplaceAll(folder + name + ext, folder, renamed), ext, stamped) == renamed + name + stamped
  {
    assert folder + name + ext == folder + (name + ext);
    ReplaceAllPrefixOnce(folder, renamed, name + ext);
    assert renamed + (name + ext) == (renamed + name) + ext;
    ReplaceAllSuffixOnce(renamed + name, ext, stamped);
  }

  lemma NoLetterS(seconds: string)
    requires forall i :: 0 <= i < |seconds| ==> IsDigit(seconds[i])
    ensures UploadPrefix[0] !in seconds + ".mp4"
  {
    var name := seconds + ".mp4";
    forall i | 0 <= i < |name|
      ensures name[i] != 's'
    {
      if i < |seconds| {
        assert name[i] == seconds[i];
      }
    }
  }

  lemma NoDot(seconds: string)
    requires forall i :: 0 <= i < |seconds| ==> IsDigit(seconds[i])
    ensures ".mp4"[0] !in OutputPrefix + seconds
  {
    var renamed := OutputPrefix + seconds;
    forall i | 0 <= i < |renamed|
      ensures renamed[i] != '.'
    {
      if i >= |OutputPrefix| {
        assert renamed[i] == seconds[i - |OutputPrefix|];
      }
    }
  }
}

=== FILE: python.dfy ===
/**
 * The slice of Python the Lambda handlers rely on: truthiness, `in`, `[]` and
 * `.get` on parsed JSON, the exceptions they raise, and the proxy-response
 * dictionary every handler returns. Library calls whose text the handlers
 * only pass along (`json.dumps`, `json.loads`, `str(e)`, `base64.b64decode`,
 * float formatting) are the fields of `PyEnv`.
 */
module Python {
  import opened Wrappers
  import opened Seqs
  import opened Text
  import opened Json

  /** The exceptions the handlers can meet; only a `ValueError`'s text is built by the handlers. */
  datatype PyException =
    | ValueError(message: string)
    | TypeError
    | AttributeError
    | KeyError
    | DecodeError
    | ServiceError

  /** A value or a raised exception. */
  datatype PyResult<+T> = Ok(value: T) | Raise(error: PyException) {
    predicate IsFailure() {
      Raise?
    }

    function PropagateFailure<U>(): PyResult<U>
      requires Raise?
    {
      Raise(error)
    }

    function Extract(): T
      requires Ok?
    {
      value
    }
  }

  /** The library functions, as given functions. */
  datatype PyEnv = PyEnv(
    loads: string -> Option<Json>,       // json.loads on a str; None when it raises
    dumps: Json -> string,               // json.dumps with the default ensure_ascii=True
    dumpsNonAscii: Json -> string,       // json.dumps(..., ensure_ascii=False)
    describe: PyException -> string,     // str(e) for the exceptions raised by Python or boto3
    show: Json -> string,                // str(v) of a parsed JSON value
    formatMB2: int -> string,            // f"{n / 1024 / 1024:.2f}"
    b64decode: string -> Option<seq<byte>> // base64.b64decode on a str; None when it raises
  )

  /** `str(e)`: a handler's own `ValueError` shows its message. */
  function Str(penv: PyEnv, e: PyException): (r: string)
    ensures e.ValueError? ==> r == e.message
  {
    match e
    case ValueError(m) => m
    case _ => penv.describe(e)
  }

  /** Python truthiness of a parsed JSON value. */
  predicate Truthy(v: Json) {
    match v
    case JNull => false
    case JBool(b) => b
    case JNum(n) => n != 0.0
    case JStr(s) => |s| > 0
    case JArr(items) => |items| > 0
    case JObj(fields) => |fields| > 0
  }

  /**
   * `key in v` for a string key: membership for a dict, substring for a str,
   * element equality for a list; numbers, booleans and None raise.
   */
  function In(key: string, v: Json): (r: PyResult<bool>)
    ensures v.JObj? ==> r == Ok(key in v.fields)
    ensures v.JStr? ==> r == Ok(Contains(v.str, key))
    ensures v.JArr? ==> r == Ok(JStr(key) in v.items)
    ensures r.Raise? <==> v.JNull? || v.JBool? || v.JNum?
  {
    match v
    case JObj(fields) => Ok(key in fields)
    case JStr(s) => Ok(Contains(s, key))
    case JArr(items) => Ok(JStr(key) in items)
    case _ => Raise(TypeError)
  }

  /** `v[key]` for a string key: a dict lookup; any other value raises. */
  function Index(v: Json, key: string): (r: PyResult<Json>)
    ensures r.Ok? <==> v.JObj? && key in v.fields
    ensures r.Ok? ==> r.value == v.fields[key]
    ensures v.JObj? && key !in v.fields ==> r == Raise(KeyError)
  {
    match v
    case JObj(fields) => if key in fields then Ok(fields[key]) else Raise(KeyError)
    case _ => Raise(TypeError)
  }

  /** `v.get(key, default)`: only a dict has `get`. */
  function Get(v: Json, key: string, default: Json): (r: PyResult<Json>)
    ensures r.Raise? <==> !v.JObj?
    ensures v.JObj? && key in v.fields ==> r == Ok(v.fields[key])
    ensures v.JObj? && key !in v.fields ==> r == Ok(default)
  {
    match v
    case JObj(fields) => Ok(if key in fields then fields[key] else default)
    case _ => Raise(AttributeError)
  }

  /** `json.loads(x)`: a str is parsed, anything else is a type error. */
  function Loads(penv: PyEnv, x: Json): (r: PyResult<Json>)
    ensures x.JStr? && penv.loads(x.str).Some? ==> r == Ok(penv.loads(x.str).value)
    ensures x.JStr? && penv.loads(x.str).None? ==> r == Raise(DecodeError)
    ensures !x.JStr? ==> r == Raise(TypeError)
  {
    match x
    case JStr(s) => (match penv.loads(s) case Some(j) => Ok(j) case None => Raise(DecodeError))
    case _ => Raise(TypeError)
  }

  /** `event.get("body", "{}")` on the proxy event. */
  function EventBody(event: map<string, Json>): (r: Json)
    ensures "body" in event ==> r == event["body"]
    ensures "body" !in event ==> r == JStr("{}")
  {
    if "body" in event then event["body"] else JStr("{}")
  }

  /** The dictionary a handler returns to API Gateway. */
  datatype LambdaResponse = LambdaResponse(statusCode: int, headers: map<string, string>, body: string)

  /** The headers every handler sends. */
  const JsonHeaders: map<string, string> :=
    map["Content-Type" := "application/json", "Access-Control-Allow-Origin" := "*"]

  /** A response whose body is `json.dumps` of a dictionary. */
  function JsonResponse(penv: PyEnv, status: int, payload: map<string, Json>): (r: LambdaResponse)
    ensures r.statusCode == status && r.headers == JsonHeaders
    ensures r.body == penv.dumps(JObj(payload))
  {
    LambdaResponse(status, JsonHeaders, penv.dumps(JObj(payload)))
  }

  /**
   * The 500 response of a caught exception: `{"error": str(e)}` with the JSON
   * and CORS headers. A handler's own `ValueError` carries its message verbatim.
   */
  function ErrorResponse(penv: PyEnv, e: PyException): (r: LambdaResponse)
    ensures r.statusCode == 500 && r.headers == JsonHeaders
    ensures r.headers["Content-Type"] == "application/json" && r.headers["Access-Control-Allow-Origin"] == "*"
    ensures r.body == penv.dumps(JObj(map["error" := JStr(Str(penv, e))]))
    ensures e.ValueError? ==> r.body == penv.dumps(JObj(map["error" := JStr(e.message)]))
    ensures !e.ValueError? ==> r.body == penv.dumps(JObj(map["error" := JStr(penv.describe(e))]))
  {
    JsonResponse(penv, 500, map["error" := JStr(Str(penv, e))])
  }

  /**
   * The text-extraction cascade both Bedrock handlers apply to a model
   * response: `output.message.content[0]` (its `text` when it is a dict
   * holding one, itself when it is a str), else a top-level `text`.
   * `Ok(None)` means neither shape matched; a `Raise` is the exception the
   * probing itself raises on values of the wrong type.
   */
  function OutputContentText(mr: Json): (r: PyResult<Option<Json>>)
    ensures mr.JNull? || mr.JBool? || mr.JNum? ==> r.Raise?
    // The reply Nova gives: the first content item answers, whatever other keys sit beside it.
    ensures NovaContent(mr).Some? && |NovaContent(mr).value| > 0 && IsAnswerItem(NovaContent(mr).value[0]) ==>
              r == Ok(Some(ItemText(NovaContent(mr).value[0])))
    // Every dict whose `output` branch finds no answer falls through to the top-level "text".
    ensures mr.JObj? && OutputFallsThrough(mr.fields) ==>
              r == Ok(if "text" in mr.fields then Some(mr.fields["text"]) else None)
  {
    match In("output", mr)
    case Raise(e) => Raise(e)
    case Ok(hasOutput) =>
      var fromOutput := if hasOutput then ContentText(mr) else Ok(None);
      if fromOutput.Raise? || fromOutput.value.Some? then fromOutput
      else
        match In("text", mr)
        case Raise(e) => Raise(e)
        case Ok(hasText) => if hasText then TopLevelText(mr) else Ok(None)
  }

  /** `output.message.content` when `output` and `message` are dicts and `content` is a list. */
  function NovaContent(mr: Json): Option<seq<Json>> {
    if mr.JObj? && "output" in mr.fields && mr.fields["output"].JObj?
       && "message" in mr.fields["output"].fields && mr.fields["output"].fields["message"].JObj?
       && "content" in mr.fields["output"].fields["message"].fields
       && mr.fields["output"].fields["message"].fields["content"].JArr?
    then Some(mr.fields["output"].fields["message"].fields["content"].items)
    else None
  }

  /** A content item the cascade answers with: a dict holding "text", or a str. */
  predicate IsAnswerItem(item: Json) {
    (item.JObj? && "text" in item.fields) || item.JStr?
  }

  /** What the cascade answers with for such an item. */
  function ItemText(item: Json): Json
    requires IsAnswerItem(item)
  {
    if item.JObj? then item.fields["text"] else item
  }

  /**
   * The `output` branch of a dict response yields nothing without raising:
   * there is no `output`; or it is a dict without `message`; or `message` is
   * a dict without `content`; or `content` is not a non-empty list; or its
   * first item is neither a dict holding "text" nor a str.
   */
  predicate OutputFallsThrough(fields: map<string, Json>) {
    "output" !in fields
    || (fields["output"].JObj?
        && var output := fields["output"].fields;
        || "message" !in output
        || (output["message"].JObj?
            && var message := output["message"].fields;
            || "content" !in message
            || !(message["content"].JArr? && |message["content"].items| > 0)
            || !IsAnswerItem(message["content"].items[0])))
  }

  /** `mr["text"]`, once `"text" in mr` held. */
  function TopLevelText(mr: Json): (r: PyResult<Option<Json>>)
    ensures mr.JObj? && "text" in mr.fields ==> r == Ok(Some(mr.fields["text"]))
    ensures !mr.JObj? ==> r == Raise(TypeError)
  {
    match Index(mr, "text")
    case Ok(t) => Ok(Some(t))
    case Raise(e) => Raise(e)
  }

  /** The `output` branch of the cascade. */
  function ContentText(mr: Json): PyResult<Option<Json>> {
    var output :- Get(mr, "output", JObj(map[]));
    var hasMessage :- In("message", output);
    if !hasMessage then Ok(None)
    else
      var message :- Index(output, "message");
      var hasContent :- In("content", message);
      if !hasContent then Ok(None)
      else
        var content :- Index(message, "content");
        if Truthy(content) && content.JArr? then
          var first := content.items[0];
          if first.JObj? && "text" in first.fields then Ok(Some(first.fields["text"]))
          else if first.JStr? then Ok(Some(first))
          else Ok(None)
        else Ok(None)
  }

  /**
   * A Nova reply yields the text of its first content item, whatever other
   * keys (`role`, `stopReason`, `usage`, ...) sit beside `output`, `message`,
   * `content` and `text`, and whatever items follow the first.
   */
  lemma NovaResponseText(top: map<string, Json>, output: map<string, Json>, message: map<string, Json>,
                         item: map<string, Json>, more: seq<Json>, text: Json)
    ensures var reply := JObj(top["output" := JObj(output["message" :=
                           JObj(message["content" := JArr([JObj(item["text" := text])] + more)])])]);
            OutputContentText(reply) == Ok(Some(text))
  {
    var first := JObj(item["text" := text]);
    var reply := JObj(top["output" := JObj(output["message" :=
                   JObj(message["content" := JArr([first] + more)])])]);
    assert NovaContent(reply) == Some([first] + more);
    assert ([first] + more)[0] == first;
  }

  /** A flat `{"text": t}` response yields `t`. */
  lemma FlatResponseText(t: Json)
    ensures OutputContentText(JObj(map["text" := t])) == Ok(Some(t))
  {
  }

  /** A dict response with neither shape yields nothing and raises nothing. */
  lemma NeitherShape(fields: map<string, Json>)
    requires "output" !in fields && "text" !in fields
    ensures OutputContentText(JObj(fields)) == Ok(None)
  {
  }
}

=== FILE: seqs.dfy ===
/**
 * Sequence operations that both the Swift client and the Python handlers use on
 * strings and byte strings: substring search, replace-all, split and join.
 * Each is written once, generically, with the contract the call sites rely on.
 */
module Seqs {
  import opened Wrappers

  predicate StartsWith<T(==)>(s: seq<T>, p: seq<T>) {
    |p| <= |s| && s[..|p|] == p
  }

  predicate EndsWith<T(==)>(s: seq<T>, p: seq<T>) {
    |p| <= |s| && s[|s| - |p|..] == p
  }

  /** `p` occurs in `s` starting at index `i`. */
  predicate OccursAt<T(==)>(s: seq<T>, p: seq<T>, i: int) {
    0 <= i && i + |p| <= |s| && s[i..i + |p|] == p
  }

  /** Python's `p in s` and Swift's `s.contains(p)`, stated by its meaning. */
  predicate Contains<T(==)>(s: seq<T>, p: seq<T>) {
    exists i | 0 <= i <= |s| :: OccursAt(s, p, i)
  }

  lemma OccursInTail<T>(s: seq<T>, p: seq<T>, j: int)
    requires |s| > 0 && OccursAt(s[1..], p, j)
    ensures OccursAt(s, p, j + 1)
  {
    assert s[j + 1..j + 1 + |p|] == s[1..][j..j + |p|];
  }

  lemma NotOccursInTail<T>(s: seq<T>, p: seq<T>, j: int)
    requires |s| > 0 && 0 < j && !OccursAt(s[1..], p, j - 1)
    ensures !OccursAt(s, p, j)
  {
    if j + |p| <= |s| {
      assert s[1..][j - 1..j - 1 + |p|] == s[j..j + |p|];
    }
  }

  lemma OccursInSlice<T>(s: seq<T>, p: seq<T>, lo: int, hi: int, j: int)
    requires 0 <= lo <= hi <= |s| && OccursAt(s[lo..hi], p, j)
    ensures OccursAt(s, p, lo + j)
  {
    forall k | 0 <= k < |p|
      ensures s[lo + j + k] == p[k]
    {
      assert s[lo..hi][j..j + |p|][k] == p[k];
    }
    assert s[lo + j..lo + j + |p|] == p;
  }

  /** Index of the first occurrence of `p` in `s`: Python's `find`, Swift's `range(of:)`. */
  function IndexOf<T(==)>(s: seq<T>, p: seq<T>): (r: Option<nat>)
    ensures r.None? <==> !Contains(s, p)
    ensures r.Some? ==> OccursAt(s, p, r.value)
    ensures r.Some? ==> forall j :: 0 <= j < r.value ==> !OccursAt(s, p, j)
    decreases |s|
  {
    if StartsWith(s, p) then
      assert OccursAt(s, p, 0);
      Some(0)
    else if |s| == 0 then
      None
    else
      match IndexOf(s[1..], p)
      case None =>
        forall j | 0 < j <= |s|
          ensures !OccursAt(s, p, j)
        {
          NotOccursInTail(s, p, j);
        }
        None
      case Some(i) =>
        OccursInTail(s, p, i);
        forall j | 0 < j < i + 1
          ensures !OccursAt(s, p, j)
        {
          NotOccursInTail(s, p, j);
        }
        Some(i + 1)
  }

  /**
   * Replaces every non-overlapping occurrence of `p`, scanning left to right and
   * never rescanning replaced text: Python's `str.replace` and Swift's
   * `replacingOccurrences(of:with:)` for a non-empty pattern.
   */
  function ReplaceAll<T(==)>(s: seq<T>, p: seq<T>, r: seq<T>): (res: seq<T>)
    requires |p| > 0
    ensures forall x :: x in res ==> x in s || x in r
    decreases |s|
  {
    if StartsWith(s, p) then r + ReplaceAll(s[|p|..], p, r)
    else if |s| == 0 then []
    else [s[0]] + ReplaceAll(s[1..], p, r)
  }

  /** Without an occurrence of the pattern there is nothing to replace. */
  lemma {:induction false} ReplaceAllAbsent<T>(s: seq<T>, p: seq<T>, r: seq<T>)
    requires |p| > 0 && !Contains(s, p)
    ensures ReplaceAll(s, p, r) == s
    decreases |s|
  {
    assert !OccursAt(s, p, 0);
    if |s| > 0 {
      forall j | 0 <= j <= |s[1..]|
        ensures !OccursAt(s[1..], p, j)
      {
        if OccursAt(s[1..], p, j) {
          OccursInTail(s, p, j);
        }
      }
      ReplaceAllAbsent(s[1..], p, r);
    }
  }

  /** A leading segment that cannot start an occurrence is copied unchanged. */
  lemma {:induction false} ReplaceAllSkips<T>(a: seq<T>, t: seq<T>, p: seq<T>, r: seq<T>)
    requires |p| > 0 && p[0] !in a
    ensures ReplaceAll(a + t, p, r) == a + ReplaceAll(t, p, r)
    decreases |a|
  {
    if |a| > 0 {
      assert a[0] in a;
      ReplaceAllCopies(a + t, p, r);
      assert (a + t)[1..] == a[1..] + t;
      NotInTail(a, p[0]);
      ReplaceAllSkips(a[1..], t, p, r);
      ConsAppend(a, ReplaceAll(t, p, r));
    } else {
      assert a + t == t;
    }
  }

  lemma NotInTail<T>(a: seq<T>, x: T)
    requires |a| > 0 && x !in a
    ensures x !in a[1..]
  {
    assert forall k | 0 <= k < |a| - 1 :: a[1..][k] == a[k + 1];
  }

  lemma ConsAppend<T>(a: seq<T>, b: seq<T>)
    requires |a| > 0
    ensures [a[0]] + (a[1..] + b) == a + b
  {
  }

  /** A first element that cannot start the pattern is copied, and scanning goes on after it. */
  lemma ReplaceAllCopies<T>(s: seq<T>, p: seq<T>, r: seq<T>)
    requires |p| > 0 && |s| > 0 && s[0] != p[0]
    ensures ReplaceAll(s, p, r) == [s[0]] + ReplaceAll(s[1..], p, r)
  {
    assert !StartsWith(s, p);
  }

  /** An occurrence at the front is replaced and scanning resumes after it. */
  lemma ReplaceAllFront<T>(t: seq<T>, p: seq<T>, r: seq<T>)
    requires |p| > 0
    ensures ReplaceAll(p + t, p, r) == r + ReplaceAll(t, p, r)
  {
    assert (p + t)[..|p|] == p;
    assert (p + t)[|p|..] == t;
  }

  /** A sequence none of whose elements starts `p` is left unchanged. */
  lemma ReplaceAllNoStart<T>(a: seq<T>, p: seq<T>, r: seq<T>)
    requires |p| > 0 && p[0] !in a
    ensures ReplaceAll(a, p, r) == a
  {
    ReplaceAllSkips(a, [], p, r);
    assert a + [] == a;
  }

  /** A pattern in front of a tail that cannot start another is replaced exactly once. */
  lemma ReplaceAllPrefixOnce<T>(p: seq<T>, r: seq<T>, tail: seq<T>)
    requires |p| > 0 && p[0] !in tail
    ensures ReplaceAll(p + tail, p, r) == r + tail
  {
    ReplaceAllFront(tail, p, r);
    ReplaceAllNoStart(tail, p, r);
  }

  /** A pattern after a head that cannot start another is replaced exactly once. */
  lemma ReplaceAllSuffixOnce<T>(head: seq<T>, p: seq<T>, r: seq<T>)
    requires |p| > 0 && p[0] !in head
    ensures ReplaceAll(head + p, p, r) == head + r
  {
    ReplaceAllSkips(head, p, p, r);
    ReplaceAllFront([], p, r);
    assert p + [] == p;
    assert r + [] == r;
  }

  /** Deleting a doubled element keeps the first element when it is not that element. */
  lemma ReplaceAllDoubleHead<T>(s: seq<T>, c: T)
    requires |s| > 0 && s[0] != c
    ensures |ReplaceAll(s, [c, c], [])| > 0 && ReplaceAll(s, [c, c], [])[0] == s[0]
  {
  }

  /** After deleting every `cc` pair left to right, no `cc` pair remains. */
  lemma {:induction false} ReplaceAllDoubleGone<T>(s: seq<T>, c: T)
    ensures !Contains(ReplaceAll(s, [c, c], []), [c, c])
    decreases |s|
  {
    var p := [c, c];
    if StartsWith(s, p) {
      ReplaceAllDoubleGone(s[2..], c);
      assert ReplaceAll(s, p, []) == ReplaceAll(s[2..], p, []);
    } else if |s| > 0 {
      var rest := ReplaceAll(s[1..], p, []);
      ReplaceAllDoubleGone(s[1..], c);
      assert ReplaceAll(s, p, []) == [s[0]] + rest;
      if s[0] == c {
        if |s| == 1 {
          assert s[1..] == [];
        } else {
          assert s[1] != c by {
            assert s[..2] == [s[0], s[1]];
          }
          ReplaceAllDoubleHead(s[1..], c);
        }
      }
      PrependNoDouble(s[0], rest, c);
    }
  }

  /** An element put in front of a sequence without a `cc` pair starts none unless it is `c` before a `c`. */
  lemma PrependNoDouble<T>(x: T, rest: seq<T>, c: T)
    requires !Contains(rest, [c, c])
    requires x == c ==> |rest| == 0 || rest[0] != c
    ensures !Contains([x] + rest, [c, c])
  {
    var res := [x] + rest;
    forall j | 0 <= j <= |res|
      ensures !OccursAt(res, [c, c], j)
    {
      if j + 2 <= |res| {
        assert res[j..j + 2] == [res[j], res[j + 1]];
        if j > 0 {
          assert rest[j - 1..j + 1] == [rest[j - 1], rest[j]];
          assert !OccursAt(rest, [c, c], j - 1);
        }
      }
    }
  }

  /** A slice has no occurrence its sequence lacks. */
  lemma NotContainsSlice<T>(s: seq<T>, p: seq<T>, lo: int, hi: int)
    requires 0 <= lo <= hi <= |s| && !Contains(s, p)
    ensures !Contains(s[lo..hi], p)
  {
    if Contains(s[lo..hi], p) {
      var j :| 0 <= j <= |s[lo..hi]| && OccursAt(s[lo..hi], p, j);
      OccursInSlice(s, p, lo, hi, j);
    }
  }

  /** Every element of an occurring pattern is an element of the sequence. */
  lemma ContainsElements<T>(s: seq<T>, p: seq<T>)
    requires Contains(s, p)
    ensures forall x :: x in p ==> x in s
  {
    var i :| 0 <= i <= |s| && OccursAt(s, p, i);
    forall x | x in p
      ensures x in s
    {
      var k :| 0 <= k < |p| && p[k] == x;
      assert s[i..i + |p|][k] == s[i + k];
    }
  }

  /** Gluing two sequences without a `cc` pair creates none when the first does not end in `c`. */
  lemma NoPairConcat<T>(a: seq<T>, b: seq<T>, c: T)
    requires !Contains(a, [c, c]) && !Contains(b, [c, c])
    requires |a| == 0 || a[|a| - 1] != c
    ensures !Contains(a + b, [c, c])
  {
    var s := a + b;
    forall i | 0 <= i <= |s|
      ensures !OccursAt(s, [c, c], i)
    {
      if i + 2 <= |s| {
        assert s[i..i + 2] == [s[i], s[i + 1]];
        if i + 2 <= |a| {
          assert a[i..i + 2] == [a[i], a[i + 1]];
          assert !OccursAt(a, [c, c], i);
        } else if i >= |a| {
          assert b[i - |a|..i - |a| + 2] == [b[i - |a|], b[i - |a| + 1]];
          assert !OccursAt(b, [c, c], i - |a|);
        }
      }
    }
  }

  /** Appending three pieces one by one is appending them joined. */
  lemma AppendThree<T>(a: seq<T>, b: seq<T>, c: seq<T>, d: seq<T>)
    ensures a + (b + c + d) == a + b + c + d
  {
  }

  /** A sequence of two elements is the display of them. */
  lemma PairOf<T>(x: seq<T>, a: T, b: T)
    requires |x| == 2 && x[0] == a && x[1] == b
    ensures x == [a, b]
  {
  }

  /** Concatenates `parts` with `sep` between neighbours: Python's `sep.join`, Swift's `joined(separator:)`. */
  function Join<T>(parts: seq<seq<T>>, sep: seq<T>): seq<T>
    decreases |parts|
  {
    if |parts| == 0 then []
    else if |parts| == 1 then parts[0]
    else parts[0] + sep + Join(parts[1..], sep)
  }

  lemma FirstOccurrencePrefix<T>(s: seq<T>, p: seq<T>, i: nat)
    requires |p| > 0 && OccursAt(s, p, i)
    requires forall j :: 0 <= j < i ==> !OccursAt(s, p, j)
    ensures !Contains(s[..i], p)
  {
    if Contains(s[..i], p) {
      var j :| 0 <= j <= |s[..i]| && OccursAt(s[..i], p, j);
      OccursInSlice(s, p, 0, i, j);
    }
  }

  /** Python's `s.split(sep)` for a non-empty separator. */
  function SplitOn<T(==)>(s: seq<T>, sep: seq<T>): (parts: seq<seq<T>>)
    requires |sep| > 0
    ensures |parts| >= 1
    ensures Join(parts, sep) == s
    ensures forall k :: 0 <= k < |parts| ==> !Contains(parts[k], sep)
    decreases |s|
  {
    match IndexOf(s, sep)
    case None => [s]
    case Some(i) =>
      FirstOccurrencePrefix(s, sep, i);
      var rest := SplitOn(s[i + |sep|..], sep);
      assert s == s[..i] + sep + s[i + |sep|..];
      [s[..i]] + rest
  }

  /** Number of elements of `s` satisfying `isSep`. */
  function CountWhere<T>(s: seq<T>, isSep: T -> bool): nat
    decreases |s|
  {
    if |s| == 0 then 0
    else (if isSep(s[0]) then 1 else 0) + CountWhere(s[1..], isSep)
  }

  /**
   * Splits at every element satisfying `isSep`, keeping empty pieces: Swift's
   * `components(separatedBy:)` with a character set.
   */
  function SplitWhere<T>(s: seq<T>, isSep: T -> bool): (parts: seq<seq<T>>)
    ensures |parts| == CountWhere(s, isSep) + 1
    ensures forall k, i :: 0 <= k < |parts| && 0 <= i < |parts[k]| ==> !isSep(parts[k][i])
    decreases |s|
  {
    if |s| == 0 then [[]]
    else
      var rest := SplitWhere(s[1..], isSep);
      if isSep(s[0]) then [[]] + rest
      else
        assert forall i :: 0 < i < |[s[0]] + rest[0]| ==> ([s[0]] + rest[0])[i] == rest[0][i - 1];
        [[s[0]] + rest[0]] + rest[1..]
  }

  /** Splitting at one separator element splits each side independently. */
  lemma {:induction false} SplitWhereConcat<T>(a: seq<T>, e: T, b: seq<T>, isSep: T -> bool)
    requires isSep(e)
    ensures SplitWhere(a + [e] + b, isSep) == SplitWhere(a, isSep) + SplitWhere(b, isSep)
    decreases |a|
  {
    if |a| == 0 {
      assert a + [e] + b == [e] + b;
      assert ([e] + b)[1..] == b;
    } else {
      assert (a + [e] + b)[0] == a[0];
      assert (a + [e] + b)[1..] == a[1..] + [e] + b;
      SplitWhereConcat(a[1..], e, b, isSep);
    }
  }

  /** A piece without separators splits to itself. */
  lemma {:induction false} SplitWhereNone<T>(a: seq<T>, isSep: T -> bool)
    requires forall i :: 0 <= i < |a| ==> !isSep(a[i])
    ensures SplitWhere(a, isSep) == [a]
    decreases |a|
  {
    if |a| > 0 {
      SplitWhereNone(a[1..], isSep);
      assert [a[0]] + a[1..] == a;
    }
  }

  /** Joining separator-free pieces with one separator element and splitting again gives the pieces back. */
  lemma {:induction false} SplitWhereJoin<T>(parts: seq<seq<T>>, e: T, isSep: T -> bool)
    requires isSep(e) && |parts| >= 1
    requires forall k, i :: 0 <= k < |parts| && 0 <= i < |parts[k]| ==> !isSep(parts[k][i])
    ensures SplitWhere(Join(parts, [e]), isSep) == parts
    decreases |parts|
  {
    SplitWhereNone(parts[0], isSep);
    if |parts| > 1 {
      SplitWhereJoin(parts[1..], e, isSep);
      SplitWhereConcat(parts[0], e, Join(parts[1..], [e]), isSep);
      assert parts == [parts[0]] + parts[1..];
    }
  }

  /** Drops the empty pieces, keeping the order of the others. */
  function DropEmpty<T>(parts: seq<seq<T>>): (r: seq<seq<T>>)
    ensures forall k :: 0 <= k < |r| ==> |r[k]| > 0
    ensures forall k :: 0 <= k < |r| ==> r[k] in parts
    decreases |parts|
  {
    if |parts| == 0 then []
    else if |parts[0]| == 0 then DropEmpty(parts[1..])
    else [parts[0]] + DropEmpty(parts[1..])
  }

  /**
   * Non-empty maximal runs of elements not satisfying `isSep`: Swift's
   * `split(whereSeparator:)` with its default of omitting empty subsequences.
   */
  function Fields<T>(s: seq<T>, isSep: T -> bool): (r: seq<seq<T>>)
    ensures forall k :: 0 <= k < |r| ==> |r[k]| > 0
    ensures forall k, i :: 0 <= k < |r| && 0 <= i < |r[k]| ==> !isSep(r[k][i])
  {
    DropEmpty(SplitWhere(s, isSep))
  }

  /** A sequence without separator elements has at most one field. */
  lemma FieldsNoSeparator<T>(s: seq<T>, isSep: T -> bool)
    requires forall i :: 0 <= i < |s| ==> !isSep(s[i])
    ensures |Fields(s, isSep)| <= 1
  {
    SplitWhereNone(s, isSep);
    assert [s][1..] == [];
    assert Fields(s, isSep) == DropEmpty([s]);
  }

  /** Leading empty pieces are dropped and a non-empty one is kept. */
  lemma DropEmptyFront<T>(a: seq<T>, rest: seq<seq<T>>)
    ensures DropEmpty([[]] + rest) == DropEmpty(rest)
    ensures |a| > 0 ==> DropEmpty([a] + rest) == [a] + DropEmpty(rest)
  {
    assert ([[]] + rest)[1..] == rest;
    assert ([a] + rest)[1..] == rest;
  }

  /** Removes the longest prefix of elements satisfying `strip`. */
  function TrimStart<T>(s: seq<T>, strip: T -> bool): (r: seq<T>)
    ensures |r| <= |s| && r == s[|s| - |r|..]
    ensures forall i :: 0 <= i < |s| - |r| ==> strip(s[i])
    ensures |r| > 0 ==> !strip(r[0])
    decreases |s|
  {
    if |s| > 0 && strip(s[0]) then TrimStart(s[1..], strip) else s
  }

  /** Removes the longest suffix of elements satisfying `strip`. */
  function TrimEnd<T>(s: seq<T>, strip: T -> bool): (r: seq<T>)
    ensures |r| <= |s| && r == s[..|r|]
    ensures forall i :: |r| <= i < |s| ==> strip(s[i])
    ensures |r| > 0 ==> !strip(r[|r| - 1])
    decreases |s|
  {
    if |s| > 0 && strip(s[|s| - 1]) then TrimEnd(s[..|s| - 1], strip) else s
  }

  lemma TrimBothEnds<T>(s: seq<T>, strip: T -> bool)
    ensures var r := TrimEnd(TrimStart(s, strip), strip);
      && (|r| == 0 <==> forall x :: x in s ==> strip(x))
      && (forall x :: x in r ==> x in s)
  {
    var front := TrimStart(s, strip);
    var r := TrimEnd(front, strip);
    var a := |s| - |front|;
    assert forall x :: x in r ==> x in front;
    assert forall x :: x in front ==> x in s;
    if |r| == 0 {
      forall x | x in s
        ensures strip(x)
      {
        var i :| 0 <= i < |s| && s[i] == x;
      }
    }
    if |front| > 0 {
      assert front[0] == s[a];
    }
  }

  /** A stripped element before a sequence whose ends are kept is all that trimming removes. */
  lemma TrimDropsFront<T>(x: T, s: seq<T>, strip: T -> bool)
    requires strip(x) && |s| > 0 && !strip(s[0]) && !strip(s[|s| - 1])
    ensures Trim([x] + s, strip) == s
  {
    assert ([x] + s)[1..] == s;
    assert TrimStart(s, strip) == s;
    assert TrimStart([x] + s, strip) == s;
    assert TrimEnd(s, strip) == s;
  }

  /** Removes elements satisfying `strip` from both ends: Python's `strip`, Swift's `trimmingCharacters(in:)`. */
  function Trim<T>(s: seq<T>, strip: T -> bool): (r: seq<T>)
    ensures |r| == 0 <==> forall x :: x in s ==> strip(x)
    ensures |r| > 0 ==> !strip(r[0]) && !strip(r[|r| - 1])
    ensures forall x :: x in r ==> x in s
  {
    TrimBothEnds(s, strip);
    TrimEnd(TrimStart(s, strip), strip)
  }

  /** Trimming a sequence whose ends are kept changes nothing. */
  lemma TrimKeeps<T>(s: seq<T>, strip: T -> bool)
    requires |s| > 0 ==> !strip(s[0]) && !strip(s[|s| - 1])
    ensures Trim(s, strip) == s
  {
    assert TrimStart(s, strip) == s;
    assert TrimEnd(s, strip) == s;
  }

  /**
   * The first result `f` gives along `xs`: a loop that returns from the first
   * element that matches.
   */
  function FirstSome<T, U>(xs: seq<T>, f: T -> Option<U>): (r: Option<U>)
    ensures r.None? <==> forall k :: 0 <= k < |xs| ==> f(xs[k]).None?
    ensures r.Some? ==> exists k :: 0 <= k < |xs| && f(xs[k]) == r && forall j :: 0 <= j < k ==> f(xs[j]).None?
    decreases |xs|
  {
    if |xs| == 0 then None
    else if f(xs[0]).Some? then f(xs[0])
    else
      var r := FirstSome(xs[1..], f);
      FirstSomeShift(xs, f, r);
      r
  }

  lemma FirstSomeShift<T, U>(xs: seq<T>, f: T -> Option<U>, r: Option<U>)
    requires |xs| > 0 && f(xs[0]).None?
    requires r.None? <==> forall k :: 0 <= k < |xs| - 1 ==> f(xs[1..][k]).None?
    requires r.Some? ==> exists k :: 0 <= k < |xs| - 1 && f(xs[1..][k]) == r && forall j :: 0 <= j < k ==> f(xs[1..][j]).None?
    ensures r.None? <==> forall k :: 0 <= k < |xs| ==> f(xs[k]).None?
    ensures r.Some? ==> exists k :: 0 <= k < |xs| && f(xs[k]) == r && forall j :: 0 <= j < k ==> f(xs[j]).None?
  {
    assert forall k :: 1 <= k < |xs| ==> xs[k] == xs[1..][k - 1];
    if r.Some? {
      var k :| 0 <= k < |xs| - 1 && f(xs[1..][k]) == r && forall j :: 0 <= j < k ==> f(xs[1..][j]).None?;
      assert f(xs[k + 1]) == r;
      assert forall j :: 0 <= j < k + 1 ==> f(xs[j]).None?;
    }
  }

  /** An occurrence in either half is an occurrence in the whole. */
  lemma ContainsConcat<T>(a: seq<T>, b: seq<T>, p: seq<T>)
    ensures Contains(a, p) ==> Contains(a + b, p)
    ensures Contains(b, p) ==> Contains(a + b, p)
  {
    if Contains(a, p) {
      var i :| 0 <= i <= |a| && OccursAt(a, p, i);
      assert (a + b)[i..i + |p|] == a[i..i + |p|];
      assert OccursAt(a + b, p, i);
    }
    if Contains(b, p) {
      var i :| 0 <= i <= |b| && OccursAt(b, p, i);
      assert (a + b)[|a| + i..|a| + i + |p|] == b[i..i + |p|];
      assert OccursAt(a + b, p, |a| + i);
    }
  }

  /**
   * `p` is first found right after `a` when `a` does not contain it and ends
   * with an element `p` lacks, so no occurrence can straddle the seam.
   */
  lemma FirstOccurrenceAfter<T>(a: seq<T>, p: seq<T>, tail: seq<T>, x: T)
    requires |a| > 0 && a[|a| - 1] == x && x !in p && !Contains(a, p)
    ensures IndexOf(a + p + tail, p) == Some(|a|)
  {
    var s := a + p + tail;
    assert s[|a|..|a| + |p|] == p;
    assert OccursAt(s, p, |a|);
    forall j | 0 <= j < |a|
      ensures !OccursAt(s, p, j)
    {
      if j + |p| <= |a| {
        assert !OccursAt(a, p, j);
        assert a[j..j + |p|] == s[j..j + |p|];
      } else if j + |p| <= |s| {
        assert s[j..j + |p|][|a| - 1 - j] == x;
      }
    }
  }

  /** Splitting at a first occurrence found after `a` yields `a`, then the pieces of the rest. */
  lemma SplitOnFirst<T>(a: seq<T>, sep: seq<T>, b: seq<T>)
    requires |sep| > 0 && IndexOf(a + sep + b, sep) == Some(|a|)
    ensures SplitOn(a + sep + b, sep) == [a] + SplitOn(b, sep)
  {
    var s := a + sep + b;
    assert s[..|a|] == a;
    assert s[|a| + |sep|..] == b;
  }

  /** A sequence led by the separator splits into an empty piece and the pieces of the rest. */
  lemma SplitOnLeading<T>(sep: seq<T>, b: seq<T>)
    requires |sep| > 0
    ensures SplitOn(sep + b, sep) == [[]] + SplitOn(b, sep)
  {
    assert StartsWith(sep + b, sep);
    assert [] + sep + b == sep + b;
    SplitOnFirst([], sep, b);
  }

  /** `d m d tail` splits at both `d`s when neither `m` nor `tail` holds `d` and `m`'s last element is not in `d`. */
  lemma SplitOnEnclosed<T>(d: seq<T>, m: seq<T>, tail: seq<T>)
    requires |d| > 0 && |m| > 0 && m[|m| - 1] !in d
    requires !Contains(m, d) && !Contains(tail, d)
    ensures SplitOn(d + m + d + tail, d) == [[], m, tail]
  {
    assert d + m + d + tail == d + (m + d + tail);
    SplitOnLeading(d, m + d + tail);
    FirstOccurrenceAfter(m, d, tail, m[|m| - 1]);
    SplitOnFirst(m, d, tail);
    assert SplitOn(tail, d) == [tail];
  }

  /** Appending the same sequence to both sides does not change whether one ends with the other. */
  lemma EndsWithAppend<T>(s: seq<T>, p: seq<T>, q: seq<T>)
    ensures EndsWith(s + q, p + q) <==> EndsWith(s, p)
  {
    if |p| <= |s| {
      var x := s[|s| - |p|..];
      assert (s + q)[|s + q| - |p + q|..] == x + q;
      assert (x + q)[..|x|] == x && (p + q)[..|p|] == p;
    }
  }

  /** A sequence without the element `x` does not contain `[x]`. */
  lemma NotContainsElement<T>(s: seq<T>, x: T)
    requires x !in s
    ensures !Contains(s, [x])
  {
    forall j | 0 <= j <= |s|
      ensures !OccursAt(s, [x], j)
    {
      if j + 1 <= |s| {
        assert s[j..j + 1][0] == s[j];
      }
    }
  }

  /** When the first element gives nothing and the second gives a result, that result is the first. */
  lemma FirstSomeSecond<T, U>(xs: seq<T>, f: T -> Option<U>)
    requires |xs| >= 2 && f(xs[0]).None? && f(xs[1]).Some?
    ensures FirstSome(xs, f) == f(xs[1])
  {
    assert xs[1..][0] == xs[1];
  }
}

=== FILE: store_lambda.dfy ===
/**
 * The direct-upload Lambda (`store_video_toS3.py`): pulls the video out of a
 * `multipart/form-data` request body, checks it against the 15 MiB limit and
 * stores it under "squat_video/<seconds>.mp4".
 */
module StoreLambda {
  import opened Wrappers
  import opened Seqs
  import opened Text
  import opened Json
  import opened Python

  /** The largest video the handler stores: 15 MiB. */
  const MaxVideoSize: nat := 15 * 1024 * 1024

  const FormData := "multipart/form-data"
  const BoundaryKey := "boundary="

  /** "\r\n" */
  const CrLf: seq<byte> := [13, 10]
  /** "\r\n\r\n", the end of a part's headers. */
  const HeaderEnd: seq<byte> := [13, 10, 13, 10]
  /** "\r\n--\r\n" */
  const CrLfDashesCrLf: seq<byte> := [13, 10, 45, 45, 13, 10]
  /** "--\r\n" */
  const DashesCrLf: seq<byte> := [45, 45, 13, 10]

  /** "Content-Disposition" */
  const Disposition: seq<byte> := [67, 111, 110, 116, 101, 110, 116, 45, 68, 105, 115, 112, 111, 115, 105, 116, 105, 111, 110]
  /** "filename=" */
  const FilenameMarker: seq<byte> := [102, 105, 108, 101, 110, 97, 109, 101, 61]
  /** "video" */
  const VideoWord: seq<byte> := [118, 105, 100, 101, 111]

  const ParseFailedMessage :=
    "无法解析 multipart/form-data，请确保 Content-Type 为 multipart/form-data 并包含视频文件"

  predicate IsQuote(c: char) {
    c == '"'
  }

  /** The boundary one `;`-separated parameter names: once stripped it starts with "boundary=", and the rest is stripped of quotes. */
  function BoundaryValue(param: string): (r: Option<string>)
    ensures r.Some? <==> StartsWith(Trim(param, IsPySpace), BoundaryKey)
    ensures r.Some? ==> |r.value| == 0 || (!IsQuote(r.value[0]) && !IsQuote(r.value[|r.value| - 1]))
  {
    var p := Trim(param, IsPySpace);
    if StartsWith(p, BoundaryKey) then Some(Trim(p[|BoundaryKey|..], IsQuote)) else None
  }

  /** The boundary of a content type, when it names a non-empty one. */
  function Boundary(contentType: string): (r: Option<string>)
    ensures r.Some? ==> |r.value| > 0
  {
    match FirstSome(SplitOn(contentType, ";"), BoundaryValue)
    case Some(b) => if |b| > 0 then Some(b) else None
    case None => None
  }

  /** Python's `data[:-n]`: everything but the last `n` elements, or nothing. */
  function DropLast(data: seq<byte>, n: nat): (r: seq<byte>)
    ensures |r| == if |data| >= n then |data| - n else 0
    ensures r == data[..|r|]
  {
    if |data| >= n then data[..|data| - n] else []
  }

  /** The source's trimming of a part's content: 7 bytes after "\r\n--\r\n", else 5 after "--\r\n". */
  function TrimClosing(data: seq<byte>): (r: seq<byte>)
    ensures |r| <= |data| && r == data[..|r|]
    ensures !EndsWith(data, DashesCrLf) ==> r == data
    ensures EndsWith(data, DashesCrLf) ==> |r| == 0 || |r| + 5 <= |data|
  {
    if EndsWith(data, CrLfDashesCrLf) then
      assert EndsWith(data, DashesCrLf) by {
        assert data[|data| - 4..] == data[|data| - 6..][2..];
      }
      DropLast(data, 7)
    else if EndsWith(data, DashesCrLf) then DropLast(data, 5)
    else data
  }

  /** The content of a part up to the line break that belongs to the next delimiter. */
  function DropDelimiterCrLf(data: seq<byte>): (r: seq<byte>)
    ensures EndsWith(data, CrLf) ==> r + CrLf == data
    ensures !EndsWith(data, CrLf) ==> r == data
  {
    if EndsWith(data, CrLf) then data[..|data| - 2] else data
  }

  /**
   * The file a part carries, if it is a video file part: it names a
   * Content-Disposition, its headers end with a blank line, and they hold
   * "filename=" and, in any ASCII case, "video". `exact` chooses the
   * trimming: the source's (false) or the line break before the next
   * delimiter (true).
   */
  function PartFile(part: seq<byte>, exact: bool): (r: Option<seq<byte>>)
    ensures r.Some? ==> Contains(part, Disposition) && Contains(part, HeaderEnd)
    ensures r.Some? ==>
              var he := IndexOf(part, HeaderEnd).value;
              && Contains(part[..he], FilenameMarker)
              && Contains(AsciiLowerBytes(part[..he]), VideoWord)
              && r.value == (if exact then DropDelimiterCrLf(part[he + 4..]) else TrimClosing(part[he + 4..]))
  {
    if !Contains(part, Disposition) then None
    else
      match IndexOf(part, HeaderEnd)
      case None => None
      case Some(he) =>
        var headers := part[..he];
        var data := part[he + 4..];
        if Contains(headers, FilenameMarker) && Contains(AsciiLowerBytes(headers), VideoWord) then
          Some(if exact then DropDelimiterCrLf(data) else TrimClosing(data))
        else None
  }

  /** The first video file among the parts, as `PartFile` reads them. */
  function FirstFile(parts: seq<seq<byte>>, exact: bool): (r: Option<seq<byte>>)
    ensures r.None? <==> forall k :: 0 <= k < |parts| ==> PartFile(parts[k], exact).None?
    ensures r.Some? ==> exists k :: 0 <= k < |parts| && PartFile(parts[k], exact) == r
  {
    FirstSome(parts, part => PartFile(part, exact))
  }

  /** The delimiter a boundary opens each part with: "--" and the boundary, UTF-8 encoded. */
  function Delimiter(boundary: string): (r: seq<byte>)
    ensures |r| >= 2
  {
    Utf8Encode("--" + boundary)
  }

  /**
   * `parse_multipart(body, content_type)`. `body` is None when the request
   * body is not bytes; such a body raises once a boundary was found, as
   * does a content type that passed the "in" test without being a str.
   */
  function ParseMultipart(body: Option<seq<byte>>, contentType: Json, exact: bool): (r: PyResult<Option<seq<byte>>>)
    ensures !Truthy(contentType) ==> r == Ok(None)
    ensures contentType.JStr? && !Contains(contentType.str, FormData) ==> r == Ok(None)
    ensures contentType.JStr? && |contentType.str| > 0 && Contains(contentType.str, FormData) ==>
              match Boundary(contentType.str)
              case None => r == Ok(None)
              case Some(b) =>
                r == if body.None? then Raise(AttributeError) else Ok(FirstFile(SplitOn(body.value, Delimiter(b)), exact))
  {
    if !Truthy(contentType) then Ok(None)
    else
      match In(FormData, contentType)
      case Raise(e) => Raise(e)
      case Ok(found) =>
        if !found then Ok(None)
        else if !contentType.JStr? then Raise(AttributeError)
        else
          match Boundary(contentType.str)
          case None => Ok(None)
          case Some(b) =>
            if body.None? then Raise(AttributeError)
            else Ok(FirstFile(SplitOn(body.value, Delimiter(b)), exact))
  }

  /** The request's content type: `content-type` if truthy, else `Content-Type`, else "". */
  function ContentType(event: map<string, Json>): (r: PyResult<Json>)
    ensures var headers := if "headers" in event then event["headers"] else JObj(map[]);
            && (!headers.JObj? ==> r == Raise(AttributeError))
            && (headers.JObj? && "content-type" in headers.fields && Truthy(headers.fields["content-type"]) ==>
                  r == Ok(headers.fields["content-type"]))
            // A missing or falsy lower-case entry falls back to "Content-Type", then to "".
            && (headers.JObj? && !("content-type" in headers.fields && Truthy(headers.fields["content-type"])) ==>
                  r == Ok(if "Content-Type" in headers.fields then headers.fields["Content-Type"] else JStr("")))
  {
    var headers := if "headers" in event then event["headers"] else JObj(map[]);
    var lower :- Get(headers, "content-type", JNull);
    if Truthy(lower) then Ok(lower) else Get(headers, "Content-Type", JStr(""))
  }

  /** The request body as bytes: base64-decoded when flagged, UTF-8 encoded when a str, else not bytes. */
  function RequestBody(penv: PyEnv, event: map<string, Json>): (r: PyResult<Option<seq<byte>>>)
    ensures var body := if "body" in event then event["body"] else JStr("");
            var base64 := "isBase64Encoded" in event && Truthy(event["isBase64Encoded"]);
            && (!base64 && body.JStr? ==> r == Ok(Some(Utf8Encode(body.str))))
            && (base64 && body.JStr? ==>
                  r == if penv.b64decode(body.str).Some? then Ok(penv.b64decode(body.str)) else Raise(DecodeError))
  {
    var body := if "body" in event then event["body"] else JStr("");
    var base64 := "isBase64Encoded" in event && Truthy(event["isBase64Encoded"]);
    if base64 then
      match body
      case JStr(s) => (match penv.b64decode(s) case Some(bytes) => Ok(Some(bytes)) case None => Raise(DecodeError))
      case _ => Raise(TypeError)
    else if body.JStr? then Ok(Some(Utf8Encode(body.str)))
    else Ok(None)
  }

  /** The object key of an upload made at `seconds`. */
  function UploadKey(seconds: nat): string {
    "squat_video/" + NatToString(seconds) + ".mp4"
  }

  function TooLargeMessage(size: nat): string {
    "视频文件太大: " + NatToString(size) + " bytes，最大限制: " + NatToString(MaxVideoSize) + " bytes"
  }

  datatype AwsCall = PutObject(bucket: string, key: string, body: seq<byte>, contentType: string)

  datatype Run = Run(calls: seq<AwsCall>, response: LambdaResponse)

  /** The file the request carries, or the exception the handler meets on the way. */
  function RequestFile(penv: PyEnv, event: map<string, Json>, exact: bool): PyResult<Option<seq<byte>>> {
    var contentType :- ContentType(event);
    var body :- RequestBody(penv, event);
    ParseMultipart(body, contentType, exact)
  }

  /**
   * `lambda_handler`, with the source's trimming (`exact` false) or with the
   * file cut exactly at the delimiter's line break (`exact` true). `put` is
   * the exception `put_object` raises, if any.
   */
  function HandleCore(penv: PyEnv, bucket: string, event: map<string, Json>, seconds: nat,
                      put: Option<PyException>, exact: bool): (run: Run)
    ensures run.response.statusCode == 200 || run.response.statusCode == 500
    ensures |run.calls| <= 1
    ensures |run.calls| == 1 <==>
              RequestFile(penv, event, exact).Ok? && RequestFile(penv, event, exact).value.Some?
              && 0 < |RequestFile(penv, event, exact).value.value| <= MaxVideoSize
    ensures |run.calls| == 1 ==>
              run.calls[0] == PutObject(bucket, UploadKey(seconds), RequestFile(penv, event, exact).value.value, "video/mp4")
    ensures run.response.statusCode == 200 <==> |run.calls| == 1 && put.None?
    ensures run.response.statusCode == 200 ==>
              run.response == JsonResponse(penv, 200, map["s3Key" := JStr(UploadKey(seconds)), "message" := JStr("视频上传成功")])
    ensures RequestFile(penv, event, exact).Ok? && RequestFile(penv, event, exact).value.Some?
            && |RequestFile(penv, event, exact).value.value| > MaxVideoSize ==>
              run.response == ErrorResponse(penv, ValueError(TooLargeMessage(|RequestFile(penv, event, exact).value.value|)))
    ensures RequestFile(penv, event, exact).Ok? && (RequestFile(penv, event, exact).value.None?
                                                    || |RequestFile(penv, event, exact).value.value| == 0) ==>
              run.response == ErrorResponse(penv, ValueError(ParseFailedMessage))
    // A request that cannot be read, and a failed store, are answered with their own `{"error": str(e)}`.
    ensures RequestFile(penv, event, exact).Raise? ==>
              run == Run([], ErrorResponse(penv, RequestFile(penv, event, exact).error))
    ensures |run.calls| == 1 && put.Some? ==> run.response == ErrorResponse(penv, put.value)
  {
    match RequestFile(penv, event, exact)
    case Raise(e) => Run([], ErrorResponse(penv, e))
    case Ok(file) =>
      if file.None? || |file.value| == 0 then Run([], ErrorResponse(penv, ValueError(ParseFailedMessage)))
      else if |file.value| > MaxVideoSize then
        Run([], ErrorResponse(penv, ValueError(TooLargeMessage(|file.value|))))
      else
        var key := UploadKey(seconds);
        var calls := [PutObject(bucket, key, file.value, "video/mp4")];
        match put
        case Some(e) => Run(calls, ErrorResponse(penv, e))
        case None => Run(calls, JsonResponse(penv, 200, map["s3Key" := JStr(key), "message" := JStr("视频上传成功")]))
  }

  /** `lambda_handler` as written. */
  function Handle(penv: PyEnv, bucket: string, event: map<string, Json>, seconds: nat, put: Option<PyException>): Run {
    HandleCore(penv, bucket, event, seconds, put, false)
  }

  /** `lambda_handler` storing exactly the uploaded file. */
  function HandleExact(penv: PyEnv, bucket: string, event: map<string, Json>, seconds: nat, put: Option<PyException>): Run {
    HandleCore(penv, bucket, event, seconds, put, true)
  }

  /** The byte markers are the UTF-8 encodings of the texts the handler searches for. */
  lemma DispositionIsUtf8()
    ensures Disposition == Utf8Encode("Content-Disposition")
  {
    AsciiEncoding("Content-Disposition", Disposition);
  }

  lemma FilenameMarkerIsUtf8()
    ensures FilenameMarker == Utf8Encode("filename=")
  {
    AsciiEncoding("filename=", FilenameMarker);
  }

  lemma VideoWordIsUtf8()
    ensures VideoWord == Utf8Encode("video")
  {
    AsciiEncoding("video", VideoWord);
  }

  /** "--" */
  const Dashes: seq<byte> := [45, 45]
  /** "\r\n--" */
  const CrLfDashes: seq<byte> := [13, 10, 45, 45]

  /** The content type a client sends for boundary `b`: "multipart/form-data; boundary=" and `b`. */
  function FormDataType(b: string): string {
    FormData + "; " + BoundaryKey + b
  }

  /** One file part's text between two delimiters: its header line, a blank line, the data, the line break. */
  function FilePart(headers: seq<byte>, data: seq<byte>): seq<byte> {
    CrLf + headers + HeaderEnd + data + CrLf
  }

  /** A body holding one file part, laid out as section 5.1.1 of RFC 2046 lays it out, without preamble or epilogue. */
  function StandardBody(b: string, headers: seq<byte>, data: seq<byte>): seq<byte> {
    Delimiter(b) + FilePart(headers, data) + Delimiter(b) + DashesCrLf
  }

  /** "\r\n\r", the first three bytes of the blank line that ends a header block. */
  const CrLfCr: seq<byte> := [13, 10, 13]

  /**
   * A header block: non-empty, and no blank line starts inside it, so that the
   * part's first "\r\n\r\n" is the one that ends it. It may hold several
   * lines separated by "\r\n".
   */
  predicate IsHeaderBlock(headers: seq<byte>) {
    |headers| > 0 && !Contains(CrLf + headers + CrLfCr, HeaderEnd)
  }

  /** No blank line starts where a CR is not followed, two bytes on, by another CR. */
  lemma NoBlankLine(s: seq<byte>)
    requires forall j :: 0 <= j && j + 4 <= |s| ==> s[j] != 13 || s[j + 2] != 13
    ensures !Contains(s, HeaderEnd)
  {
    forall j | 0 <= j <= |s|
      ensures !OccursAt(s, HeaderEnd, j)
    {
      if j + 4 <= |s| {
        assert s[j..j + 4][0] == s[j] && s[j..j + 4][2] == s[j + 2];
      }
    }
  }

  /**
   * Two non-empty header lines without line breaks, such as a
   * Content-Disposition line followed by "Content-Type: video/mp4", make a
   * header block; so does one such line.
   */
  lemma HeaderLinesBlock(first: seq<byte>, second: seq<byte>)
    requires |first| > 0 && forall i :: 0 <= i < |first| ==> first[i] != 10 && first[i] != 13
    requires forall i :: 0 <= i < |second| ==> second[i] != 10 && second[i] != 13
    ensures IsHeaderBlock(first)
    ensures |second| > 0 ==> IsHeaderBlock(first + CrLf + second)
  {
    var n := |first|;
    var a := CrLf + first + CrLfCr;
    assert forall i :: 2 <= i < n + 2 ==> a[i] == first[i - 2];
    assert a[1] == 10;
    NoBlankLine(a);
    if |second| > 0 {
      var c := CrLf + (first + CrLf + second) + CrLfCr;
      assert forall i :: 2 <= i < n + 2 ==> c[i] == first[i - 2];
      assert forall i :: n + 4 <= i < n + 4 + |second| ==> c[i] == second[i - n - 4];
      assert c[1] == 10 && c[n + 3] == 10;
      NoBlankLine(c);
    }
  }

  /**
   * A well-formed upload: an ASCII boundary without line breaks or `;`, not
   * ending in a space or starting or ending with a quote; a header block of
   * one or more lines naming a Content-Disposition with a file name and the
   * word "video"; and a part that does not contain the delimiter.
   */
  predicate IsStandardUpload(b: string, headers: seq<byte>, data: seq<byte>) {
    && |b| > 0 && IsAscii(b)
    && (forall i :: 0 <= i < |b| ==> b[i] != '\r' && b[i] != '\n' && b[i] != ';')
    && !IsPySpace(b[|b| - 1]) && !IsQuote(b[0]) && !IsQuote(b[|b| - 1])
    && IsHeaderBlock(headers)
    && Contains(headers, Disposition) && Contains(headers, FilenameMarker)
    && Contains(AsciiLowerBytes(headers), VideoWord)
    && !Contains(FilePart(headers, data), Delimiter(b))
  }

  /** The delimiter of an ASCII boundary without line breaks holds neither CR nor LF. */
  lemma DelimiterBytes(b: string)
    requires IsAscii(b) && forall i :: 0 <= i < |b| ==> b[i] != '\r' && b[i] != '\n'
    ensures |Delimiter(b)| == |b| + 2
    ensures forall i :: 0 <= i < |Delimiter(b)| ==> Delimiter(b)[i] != 10 && Delimiter(b)[i] != 13
  {
    var t := "--" + b;
    forall i | 0 <= i < |t|
      ensures t[i] as int < 0x80 && t[i] != '\r' && t[i] != '\n'
    {
      if i >= 2 {
        assert t[i] == b[i - 2];
      }
    }
    assert IsAscii(t);
  }

  /** A standard body splits into the empty preamble, the file part and the closing "--\r\n". */
  lemma StandardParts(b: string, headers: seq<byte>, data: seq<byte>)
    requires |b| > 0 && IsAscii(b) && forall i :: 0 <= i < |b| ==> b[i] != '\r' && b[i] != '\n'
    requires !Contains(FilePart(headers, data), Delimiter(b))
    ensures SplitOn(StandardBody(b, headers, data), Delimiter(b)) == [[], FilePart(headers, data), DashesCrLf]
  {
    var d := Delimiter(b);
    var m := FilePart(headers, data);
    DelimiterBytes(b);
    assert m[|m| - 1] == 10;
    assert 10 !in d;
    forall j | 0 <= j <= |DashesCrLf|
      ensures !OccursAt(DashesCrLf, d, j)
    {
      if j + |d| <= |DashesCrLf| {
        assert DashesCrLf[j..j + |d|][2 - j] == 13;
      }
    }
    SplitOnEnclosed(d, m, DashesCrLf);
  }

  /** The headers of a file part end at the first blank line when they are a header block. */
  lemma HeadersEnd(headers: seq<byte>, rest: seq<byte>)
    requires IsHeaderBlock(headers)
    ensures IndexOf(CrLf + headers + HeaderEnd + rest, HeaderEnd) == Some(|headers| + 2)
  {
    var a := CrLf + headers;
    var s := a + HeaderEnd + rest;
    var w := a + CrLfCr;
    assert s[|a|..|a| + 4] == HeaderEnd;
    assert OccursAt(s, HeaderEnd, |a|);
    forall j | 0 <= j < |a|
      ensures !OccursAt(s, HeaderEnd, j)
    {
      assert !OccursAt(w, HeaderEnd, j);
      assert s[j..j + 4] == w[j..j + 4];
    }
  }

  /** What the headers hold, the header line of the part holds too. */
  lemma HeaderLineHolds(headers: seq<byte>, rest: seq<byte>)
    requires Contains(headers, Disposition) && Contains(headers, FilenameMarker)
    requires Contains(AsciiLowerBytes(headers), VideoWord)
    ensures Contains(CrLf + headers + rest, Disposition)
    ensures Contains(CrLf + headers, FilenameMarker)
    ensures Contains(AsciiLowerBytes(CrLf + headers), VideoWord)
  {
    ContainsConcat(CrLf, headers, Disposition);
    ContainsConcat(CrLf + headers, rest, Disposition);
    ContainsConcat(CrLf, headers, FilenameMarker);
    assert AsciiLowerBytes(CrLf + headers) == CrLf + AsciiLowerBytes(headers);
    ContainsConcat(CrLf, AsciiLowerBytes(headers), VideoWord);
  }

  /** The corrected trimming returns the data before the delimiter's line break. */
  lemma DropsDelimiterCrLf(data: seq<byte>)
    ensures DropDelimiterCrLf(data + CrLf) == data
  {
    assert EndsWith(data + CrLf, CrLf);
    var r := DropDelimiterCrLf(data + CrLf);
    assert r == (r + CrLf)[..|r|];
  }

  /** The file part of a well-formed upload yields its data: exactly, or with the source's trimming. */
  lemma FilePartFile(headers: seq<byte>, data: seq<byte>, exact: bool)
    requires IsHeaderBlock(headers)
    requires Contains(headers, Disposition) && Contains(headers, FilenameMarker)
    requires Contains(AsciiLowerBytes(headers), VideoWord)
    ensures PartFile(FilePart(headers, data), exact) == Some(if exact then data else TrimClosing(data + CrLf))
  {
    var rest := data + CrLf;
    var m := CrLf + headers + HeaderEnd + rest;
    var he := |headers| + 2;
    assert FilePart(headers, data) == m;
    PartHeaderLine(headers, rest);
    PartHeaderEnd(headers, rest);
    assert Contains(m, Disposition) && IndexOf(m, HeaderEnd) == Some(he);
    assert Contains(m[..he], FilenameMarker) && Contains(AsciiLowerBytes(m[..he]), VideoWord);
    assert m[he + 4..] == rest;
    PartFileAt(m, he, rest, exact);
    DropsDelimiterCrLf(data);
  }

  /** The header line of a part names the disposition, the file name and the video. */
  lemma PartHeaderLine(headers: seq<byte>, rest: seq<byte>)
    requires Contains(headers, Disposition) && Contains(headers, FilenameMarker)
    requires Contains(AsciiLowerBytes(headers), VideoWord)
    ensures var m := CrLf + headers + HeaderEnd + rest;
            && Contains(m, Disposition)
            && Contains(m[..|headers| + 2], FilenameMarker)
            && Contains(AsciiLowerBytes(m[..|headers| + 2]), VideoWord)
  {
    var m := CrLf + headers + HeaderEnd + rest;
    HeaderLineHolds(headers, HeaderEnd + rest);
    assert m == CrLf + headers + (HeaderEnd + rest);
    assert m[..|headers| + 2] == CrLf + headers;
  }

  /** The blank line after a header block is the first one, and the data follows it. */
  lemma PartHeaderEnd(headers: seq<byte>, rest: seq<byte>)
    requires IsHeaderBlock(headers)
    ensures var m := CrLf + headers + HeaderEnd + rest;
            IndexOf(m, HeaderEnd) == Some(|headers| + 2) && m[|headers| + 6..] == rest
  {
    HeadersEnd(headers, rest);
    assert (CrLf + headers + HeaderEnd + rest)[|headers| + 6..] == rest;
  }

  /** A part whose headers end at `he` and name a video file yields what follows them, trimmed. */
  lemma PartFileAt(part: seq<byte>, he: nat, data: seq<byte>, exact: bool)
    requires Contains(part, Disposition) && IndexOf(part, HeaderEnd) == Some(he)
    requires Contains(part[..he], FilenameMarker) && Contains(AsciiLowerBytes(part[..he]), VideoWord)
    requires part[he + 4..] == data
    ensures PartFile(part, exact) == Some(if exact then DropDelimiterCrLf(data) else TrimClosing(data))
  {
  }

  /**
   * The source's trimming of a file part's data: the line break before the
   * delimiter stays unless the data ends in "--", in which case three or five
   * bytes of the data go with it.
   */
  lemma TrimmedAsWritten(data: seq<byte>)
    ensures !EndsWith(data, Dashes) ==> TrimClosing(data + CrLf) == data + CrLf
    ensures EndsWith(data, Dashes) && !EndsWith(data, CrLfDashes) && |data| >= 3 ==>
              TrimClosing(data + CrLf) == data[..|data| - 3]
    ensures EndsWith(data, CrLfDashes) && |data| >= 5 ==> TrimClosing(data + CrLf) == data[..|data| - 5]
  {
    EndsWithAppend(data, Dashes, CrLf);
    EndsWithAppend(data, CrLfDashes, CrLf);
    assert Dashes + CrLf == DashesCrLf && CrLfDashes + CrLf == CrLfDashesCrLf;
  }

  lemma FormDataFacts()
    ensures forall i :: 0 <= i < |FormData| ==> FormData[i] != ';'
    ensures !IsPySpace(FormData[0]) && !IsPySpace(FormData[|FormData| - 1])
    ensures FormData[0] != BoundaryKey[0]
  {
  }

  lemma BoundaryKeyFacts()
    ensures forall i :: 0 <= i < |BoundaryKey| ==> BoundaryKey[i] != ';'
    ensures !IsPySpace(BoundaryKey[0])
  {
  }

  /** The standard content type holds the form-data type and splits at its one `;`. */
  lemma StandardTypeSplit(b: string)
    requires forall i :: 0 <= i < |b| ==> b[i] != ';'
    ensures Contains(FormDataType(b), FormData)
    ensures SplitOn(FormDataType(b), ";") == [FormData, " " + BoundaryKey + b]
  {
    var ct := FormDataType(b);
    var rest := " " + BoundaryKey + b;
    FormDataFacts();
    BoundaryKeyFacts();
    assert ct == FormData + ";" + rest;
    assert ct[..|FormData|] == FormData;
    assert OccursAt(ct, FormData, 0);
    assert ';' !in FormData;
    NotContainsElement(FormData, ';');
    FirstOccurrenceAfter(FormData, ";", rest, FormData[|FormData| - 1]);
    SplitOnFirst(FormData, ";", rest);
    forall i | 0 <= i < |rest|
      ensures rest[i] != ';'
    {
      if 1 <= i < 1 + |BoundaryKey| {
        assert rest[i] == BoundaryKey[i - 1];
      } else if i >= 1 + |BoundaryKey| {
        assert rest[i] == b[i - 1 - |BoundaryKey|];
      }
    }
    assert ';' !in rest;
    NotContainsElement(rest, ';');
    assert SplitOn(rest, ";") == [rest];
  }

  /** The media type itself names no boundary. */
  lemma FormDataNamesNoBoundary()
    ensures BoundaryValue(FormData) == None
  {
    FormDataFacts();
    TrimKeeps(FormData, IsPySpace);
  }

  /** The parameter " boundary=b" names `b`. */
  lemma BoundaryParameterNames(b: string)
    requires |b| > 0 && !IsPySpace(b[|b| - 1]) && !IsQuote(b[0]) && !IsQuote(b[|b| - 1])
    ensures BoundaryValue(" " + BoundaryKey + b) == Some(b)
  {
    var key := BoundaryKey + b;
    BoundaryKeyFacts();
    assert " " + BoundaryKey + b == [' '] + key;
    TrimDropsFront(' ', key, IsPySpace);
    assert key[..|BoundaryKey|] == BoundaryKey;
    assert key[|BoundaryKey|..] == b;
    TrimKeeps(b, IsQuote);
  }

  /** The standard content type names the form-data type and the boundary `b`. */
  lemma StandardBoundary(b: string)
    requires |b| > 0 && (forall i :: 0 <= i < |b| ==> b[i] != ';')
    requires !IsPySpace(b[|b| - 1]) && !IsQuote(b[0]) && !IsQuote(b[|b| - 1])
    ensures Contains(FormDataType(b), FormData)
    ensures Boundary(FormDataType(b)) == Some(b)
  {
    StandardTypeSplit(b);
    FormDataNamesNoBoundary();
    BoundaryParameterNames(b);
    FirstSomeSecond(SplitOn(FormDataType(b), ";"), BoundaryValue);
  }

  /** `parse_multipart` on a well-formed upload yields its data: exactly, or with the source's trimming. */
  lemma ParseStandardUpload(b: string, headers: seq<byte>, data: seq<byte>, exact: bool)
    requires IsStandardUpload(b, headers, data)
    ensures ParseMultipart(Some(StandardBody(b, headers, data)), JStr(FormDataType(b)), exact)
            == Ok(Some(if exact then data else TrimClosing(data + CrLf)))
  {
    StandardBoundary(b);
    StandardParts(b, headers, data);
    FilePartFile(headers, data, exact);
    SecondPartFile(FilePart(headers, data), exact);
    MultipartFound(StandardBody(b, headers, data), FormDataType(b), b, exact);
  }

  /** A form-data content type naming boundary `b` makes the parser look through the parts of the body. */
  lemma MultipartFound(body: seq<byte>, contentType: string, b: string, exact: bool)
    requires Contains(contentType, FormData) && Boundary(contentType) == Some(b)
    ensures ParseMultipart(Some(body), JStr(contentType), exact) == Ok(FirstFile(SplitOn(body, Delimiter(b)), exact))
  {
    assert |contentType| > 0;
  }

  /** Of the three parts of a one-file body, the file part is the first that yields a file. */
  lemma SecondPartFile(part: seq<byte>, exact: bool)
    requires PartFile(part, exact).Some?
    ensures FirstFile([[], part, DashesCrLf], exact) == PartFile(part, exact)
  {
    var parts: seq<seq<byte>> := [[], part, DashesCrLf];
    assert !Contains([], Disposition);
    FirstSomeSecond(parts, p => PartFile(p, exact));
  }

  /** The two spellings of the content-type header the handler reads. */
  predicate IsContentTypeName(name: string) {
    name == "content-type" || name == "Content-Type"
  }

  /**
   * A base64-encoded upload request with the standard content type for
   * boundary `b`, sent under header `name`.
   */
  function UploadEvent(name: string, b: string, encoded: string): map<string, Json> {
    map["headers" := JObj(map[name := JStr(FormDataType(b))]),
        "body" := JStr(encoded),
        "isBase64Encoded" := JBool(true)]
  }

  /** The handler finds the data of a well-formed upload: exactly, or with the source's trimming. */
  lemma UploadRequestFile(penv: PyEnv, name: string, b: string, headers: seq<byte>, data: seq<byte>, encoded: string, exact: bool)
    requires IsContentTypeName(name) && IsStandardUpload(b, headers, data)
    requires penv.b64decode(encoded) == Some(StandardBody(b, headers, data))
    ensures RequestFile(penv, UploadEvent(name, b, encoded), exact) == Ok(Some(if exact then data else TrimClosing(data + CrLf)))
  {
    var event := UploadEvent(name, b, encoded);
    assert |FormDataType(b)| > 0;
    assert ContentType(event) == Ok(JStr(FormDataType(b)));
    assert RequestBody(penv, event) == Ok(Some(StandardBody(b, headers, data)));
    ParseStandardUpload(b, headers, data, exact);
  }

  /**
   * As written, the handler stores a well-formed upload's file with the line
   * break of the closing delimiter appended, whenever the file does not end
   * in "--".
   */
  lemma StoredWithLineBreak(penv: PyEnv, name: string, bucket: string, b: string, headers: seq<byte>, data: seq<byte>,
                            encoded: string, seconds: nat)
    requires IsContentTypeName(name) && IsStandardUpload(b, headers, data)
    requires penv.b64decode(encoded) == Some(StandardBody(b, headers, data))
    requires !EndsWith(data, Dashes) && |data| + 2 <= MaxVideoSize
    ensures Handle(penv, bucket, UploadEvent(name, b, encoded), seconds, None).calls
            == [PutObject(bucket, UploadKey(seconds), data + CrLf, "video/mp4")]
    ensures data + CrLf != data
  {
    UploadRequestFile(penv, name, b, headers, data, encoded, false);
    TrimmedAsWritten(data);
    assert |data + CrLf| == |data| + 2;
  }

  /** With the line break cut, the handler stores exactly the uploaded file and answers 200. */
  lemma StoredExactly(penv: PyEnv, name: string, bucket: string, b: string, headers: seq<byte>, data: seq<byte>,
                      encoded: string, seconds: nat)
    requires IsContentTypeName(name) && IsStandardUpload(b, headers, data)
    requires penv.b64decode(encoded) == Some(StandardBody(b, headers, data))
    requires 0 < |data| <= MaxVideoSize
    ensures HandleExact(penv, bucket, UploadEvent(name, b, encoded), seconds, None)
            == Run([PutObject(bucket, UploadKey(seconds), data, "video/mp4")],
                   JsonResponse(penv, 200, map["s3Key" := JStr(UploadKey(seconds)), "message" := JStr("视频上传成功")]))
  {
    UploadRequestFile(penv, name, b, headers, data, encoded, true);
  }
}

=== FILE: text.dfy ===
/**
 * Characters, bytes and the character classes that Foundation and Python use
 * when they trim, split and lower-case text.  Strings are sequences of Unicode
 * scalar values; byte strings are sequences of `byte`.
 */
module Text {

  newtype byte = x: int | 0 <= x < 256

  /** Every character is in the 7-bit ASCII range. */
  predicate IsAscii(s: string) {
    forall i :: 0 <= i < |s| ==> s[i] as int < 0x80
  }

  /** The UTF-8 encoding of one scalar value. */
  function EncodeScalar(c: char): (r: seq<byte>)
    ensures 1 <= |r| <= 4
    ensures c as int < 0x80 ==> r == [c as int as byte]
    ensures c as int >= 0x80 ==> forall i :: 0 <= i < |r| ==> r[i] >= 0x80
  {
    var n := c as int;
    if n < 0x80 then [n as byte]
    else if n < 0x800 then [(0xC0 + n / 0x40) as byte, (0x80 + n % 0x40) as byte]
    else if n < 0x10000 then
      [(0xE0 + n / 0x1000) as byte, (0x80 + (n / 0x40) % 0x40) as byte, (0x80 + n % 0x40) as byte]
    else
      [(0xF0 + n / 0x40000) as byte, (0x80 + (n / 0x1000) % 0x40) as byte,
       (0x80 + (n / 0x40) % 0x40) as byte, (0x80 + n % 0x40) as byte]
  }

  /** Swift's `s.data(using: .utf8)` and Python's `s.encode()`: the UTF-8 bytes of `s`. */
  function Utf8Encode(s: string): (r: seq<byte>)
    ensures |s| <= |r| <= 4 * |s|
    ensures IsAscii(s) ==> |r| == |s| && forall i :: 0 <= i < |s| ==> r[i] == s[i] as int as byte
    decreases |s|
  {
    if |s| == 0 then [] else EncodeScalar(s[0]) + Utf8Encode(s[1..])
  }

  lemma {:induction false} Utf8EncodeConcat(a: string, b: string)
    ensures Utf8Encode(a + b) == Utf8Encode(a) + Utf8Encode(b)
    decreases |a|
  {
    if |a| > 0 {
      assert (a + b)[0] == a[0];
      assert (a + b)[1..] == a[1..] + b;
      Utf8EncodeConcat(a[1..], b);
    } else {
      assert a + b == b;
    }
  }

  /** An ASCII string encodes to its own code points, one byte each. */
  lemma AsciiEncoding(s: string, bytes: seq<byte>)
    requires IsAscii(s) && |bytes| == |s|
    requires forall i :: 0 <= i < |s| ==> bytes[i] == s[i] as int as byte
    ensures Utf8Encode(s) == bytes
  {
  }

  /** Foundation's `CharacterSet.newlines`. */
  predicate IsNewline(c: char) {
    var n := c as int;
    (0x0A <= n <= 0x0D) || n == 0x85 || n == 0x2028 || n == 0x2029
  }

  /** Foundation's `CharacterSet.whitespaces`: general category Zs and the tab. */
  predicate IsBlank(c: char) {
    var n := c as int;
    n == 0x09 || n == 0x20 || n == 0xA0 || n == 0x1680 || (0x2000 <= n <= 0x200A)
    || n == 0x202F || n == 0x205F || n == 0x3000
  }

  /** Swift's `Character.isWhitespace`: the Unicode White_Space property. */
  predicate IsWhiteSpace(c: char) {
    var n := c as int;
    (0x09 <= n <= 0x0D) || n == 0x20 || n == 0x85 || n == 0xA0 || n == 0x1680
    || (0x2000 <= n <= 0x200A) || n == 0x2028 || n == 0x2029 || n == 0x202F
    || n == 0x205F || n == 0x3000
  }

  /** Python's `str.isspace` for one character, the set `str.strip()` removes. */
  predicate IsPySpace(c: char) {
    var n := c as int;
    (0x09 <= n <= 0x0D) || (0x1C <= n <= 0x1F) || n == 0x20 || n == 0x85 || n == 0xA0
    || n == 0x1680 || (0x2000 <= n <= 0x200A) || n == 0x2028 || n == 0x2029
    || n == 0x202F || n == 0x205F || n == 0x3000
  }

  function LowerChar(c: char): char {
    if 'A' <= c <= 'Z' then (c as int + 32) as char else c
  }

  /** Lower-cases the ASCII letters and leaves every other character alone. */
  function AsciiLower(s: string): (r: string)
    ensures |r| == |s|
    ensures forall i :: 0 <= i < |s| ==> r[i] == LowerChar(s[i])
  {
    seq(|s|, i requires 0 <= i < |s| => LowerChar(s[i]))
  }

  function LowerByte(b: byte): byte {
    if 0x41 <= b <= 0x5A then b + 32 else b
  }

  /** Lower-cases the bytes of ASCII capital letters. */
  function AsciiLowerBytes(s: seq<byte>): (r: seq<byte>)
    ensures |r| == |s|
    ensures forall i :: 0 <= i < |s| ==> r[i] == LowerByte(s[i])
  {
    seq(|s|, i requires 0 <= i < |s| => LowerByte(s[i]))
  }

  predicate IsDigit(c: char) {
    '0' <= c <= '9'
  }

  /** Python's `str(n)` and Swift's `"\(n)"` for a non-negative integer. */
  function NatToString(n: nat): (r: string)
    ensures |r| > 0
    ensures forall i :: 0 <= i < |r| ==> IsDigit(r[i])
  {
    var d := ['0', '1', '2', '3', '4', '5', '6', '7', '8', '9'][n % 10];
    if n < 10 then [d] else NatToString(n / 10) + [d]
  }

  /** Python's `str(n)` and Swift's `"\(n)"` for any integer. */
  function IntToString(n: int): string {
    if n >= 0 then NatToString(n) else "-" + NatToString(-n)
  }
}

=== FILE: text_lambda.dfy ===
/**
 * The chat Lambda (`Squat_Text_Analysis.py`): answers a question from the
 * knowledge base through `retrieve_and_generate`, and falls back to asking
 * Nova Micro directly when that fails or its answer is empty or a refusal.
 */
module TextLambda {
  import opened Wrappers
  import opened Seqs
  import opened Text
  import opened Json
  import opened Python

  const ModelId := "us.amazon.nova-micro-v1:0"

  /** Phrases that mark a knowledge-base answer as a refusal, matched in lower case. */
  const RefusalPhrases := ["unable to assist", "sorry, i am unable", "cannot help", "not able to",
                           "i don't have", "i cannot", "i'm unable"]

  const UnparsedAnswer := "Unable to parse model response"

  /** The requests the handler issues, with what it sends as the question. */
  datatype AwsCall =
    | RetrieveAndGenerate(question: Json, knowledgeBaseId: string, modelArn: string)
    | InvokeModel(modelId: string, question: Json)

  /**
   * What AWS answers: the `retrieve_and_generate` response or the exception
   * it raised, and the parsed Nova response or the exception invoking,
   * reading or parsing it raised.
   */
  datatype Script = Script(rag: PyResult<Json>, direct: PyResult<Json>)

  datatype Run<T> = Run(calls: seq<AwsCall>, value: T)

  /** Only spaces, in Python's sense (`strip()` leaves nothing); the empty answer included. */
  predicate IsBlankAnswer(answer: string) {
    forall i :: 0 <= i < |answer| ==> IsPySpace(answer[i])
  }

  /** The lower-cased answer contains one of the refusal phrases. */
  predicate IsRefusal(answer: string) {
    exists k :: 0 <= k < |RefusalPhrases| && Contains(AsciiLower(answer), RefusalPhrases[k])
  }

  /** One citation can be logged: a dict whose `retrievedText`, if present, can be sliced. */
  predicate LoggableCitation(c: Json) {
    c.JObj? && ("retrievedText" in c.fields ==> c.fields["retrievedText"].JStr? || c.fields["retrievedText"].JArr?)
  }

  /** Logging the citations raises: they are truthy but not a list of loggable dicts. */
  predicate CitationsRaise(citations: Json) {
    Truthy(citations)
    && !(citations.JArr? && forall i :: 0 <= i < |citations.items| ==> LoggableCitation(citations.items[i]))
  }

  /**
   * A `retrieve_and_generate` response whose answer the handler keeps:
   * `output.text` is a str that is neither blank nor a refusal, and logging
   * its citations does not raise. Other keys (`sessionId`, ...) do not matter.
   */
  predicate IsUsableResponse(response: Json) {
    && response.JObj? && "output" in response.fields
    && response.fields["output"].JObj? && "text" in response.fields["output"].fields
    && response.fields["output"].fields["text"].JStr?
    && var answer := response.fields["output"].fields["text"].str;
    && !IsBlankAnswer(answer) && !IsRefusal(answer)
    && !CitationsRaise(if "citations" in response.fields then response.fields["citations"] else JArr([]))
  }

  /**
   * The knowledge-base answer the handler keeps, or None when it falls back:
   * `response['output']['text']` must be a str that is neither blank nor a
   * refusal, and logging the citations must not raise. Every other case,
   * a raised lookup included, falls back.
   */
  function RagAnswer(response: Json): (r: Option<string>)
    ensures r.Some? ==> !IsBlankAnswer(r.value) && !IsRefusal(r.value)
    ensures r.Some? ==> response.JObj? && "output" in response.fields
                        && response.fields["output"].JObj? && "text" in response.fields["output"].fields
                        && response.fields["output"].fields["text"] == JStr(r.value)
    ensures r.Some? ==> !CitationsRaise(Get(response, "citations", JArr([])).value)
    // The converse: every usable response, whatever else it holds, is kept.
    ensures r.Some? <==> IsUsableResponse(response)
  {
    match Index(response, "output")
    case Raise(_) => None
    case Ok(output) =>
      match Index(output, "text")
      case Raise(_) => None
      case Ok(answer) =>
        if !answer.JStr? || IsBlankAnswer(answer.str) || IsRefusal(answer.str) then None
        else if CitationsRaise(Get(response, "citations", JArr([])).value) then None
        else Some(answer.str)
  }

  /**
   * `generate_fitness_advice_fallback` after the call: the extracted text,
   * "Unable to parse model response" when neither shape matched, and the
   * empty string when anything raised.
   */
  function FallbackAnswer(direct: PyResult<Json>): (r: Json)
    ensures direct.Raise? ==> r == JStr("")
    ensures direct.Ok? && OutputContentText(direct.value) == Ok(None) ==> r == JStr(UnparsedAnswer)
    ensures direct.Ok? && OutputContentText(direct.value).Raise? ==> r == JStr("")
    ensures direct.Ok? && OutputContentText(direct.value).Ok? && OutputContentText(direct.value).value.Some? ==>
              r == OutputContentText(direct.value).value.value
  {
    match direct
    case Raise(_) => JStr("")
    case Ok(mr) =>
      match OutputContentText(mr)
      case Ok(Some(text)) => text
      case Ok(None) => JStr(UnparsedAnswer)
      case Raise(_) => JStr("")
  }

  /**
   * `generate_fitness_advice_with_rag`: the knowledge base first, the direct
   * model second. boto3 validates `input.text` as a str before sending, so a
   * question of any other type never reaches the knowledge base: the
   * validation error is caught and only the direct model is asked.
   */
  function GenerateAdvice(message: Json, knowledgeBaseId: string, modelArn: string, script: Script): (run: Run<Json>)
    ensures 1 <= |run.calls| <= 2
    ensures run.calls[0].RetrieveAndGenerate? <==> message.JStr?
    ensures message.JStr? ==> run.calls[0] == RetrieveAndGenerate(message, knowledgeBaseId, modelArn)
    ensures !message.JStr? ==> run == Run([InvokeModel(ModelId, message)], FallbackAnswer(script.direct))
    ensures message.JStr? ==> (|run.calls| == 2 <==> script.rag.Raise? || RagAnswer(script.rag.value).None?)
    ensures run.calls[0].RetrieveAndGenerate? && |run.calls| == 1 ==>
              run.value == JStr(RagAnswer(script.rag.value).value)
    ensures run.calls[|run.calls| - 1].InvokeModel? ==>
              run.calls[|run.calls| - 1] == InvokeModel(ModelId, message) && run.value == FallbackAnswer(script.direct)
  {
    if !message.JStr? then
      Run([InvokeModel(ModelId, message)], FallbackAnswer(script.direct))
    else
      var ask := RetrieveAndGenerate(message, knowledgeBaseId, modelArn);
      if script.rag.Ok? && RagAnswer(script.rag.value).Some? then
        Run([ask], JStr(RagAnswer(script.rag.value).value))
      else
        Run([ask, InvokeModel(ModelId, message)], FallbackAnswer(script.direct))
  }

  /** The question of the request: parse errors raise, a missing one is "". */
  function Question(penv: PyEnv, event: map<string, Json>): (r: PyResult<Json>)
    ensures Loads(penv, EventBody(event)).Raise? ==> r == Raise(Loads(penv, EventBody(event)).error)
    ensures Loads(penv, EventBody(event)).Ok? && Loads(penv, EventBody(event)).value.JObj? ==>
              var fields := Loads(penv, EventBody(event)).value.fields;
              r == Ok(if "message" in fields then fields["message"] else JStr(""))
  {
    var body :- Loads(penv, EventBody(event));
    Get(body, "message", JStr(""))
  }

  /** `lambda_handler`. */
  function Handle(penv: PyEnv, knowledgeBaseId: string, modelArn: string, event: map<string, Json>,
                  script: Script): (run: Run<LambdaResponse>)
    ensures run.value.statusCode in {200, 400, 500}
    ensures Question(penv, event).Raise? ==>
              run == Run([], ErrorResponse(penv, Question(penv, event).error))
    ensures run.value.statusCode == 400 <==> Question(penv, event).Ok? && !Truthy(Question(penv, event).value)
    ensures run.value.statusCode == 400 ==>
              run == Run([], JsonResponse(penv, 400, map["error" := JStr("Message is required")]))
    ensures Question(penv, event).Ok? && Truthy(Question(penv, event).value) ==>
              var advice := GenerateAdvice(Question(penv, event).value, knowledgeBaseId, modelArn, script);
              && run.calls == advice.calls
              && (Truthy(advice.value) ==> run.value == JsonResponse(penv, 200, map["message" := advice.value]))
              && (!Truthy(advice.value) ==>
                    run.value == JsonResponse(penv, 500, map["error" := JStr("Failed to generate advice")]))
  {
    match Question(penv, event)
    case Raise(e) => Run([], ErrorResponse(penv, e))
    case Ok(message) =>
      if !Truthy(message) then
        Run([], JsonResponse(penv, 400, map["error" := JStr("Message is required")]))
      else
        var advice := GenerateAdvice(message, knowledgeBaseId, modelArn, script);
        if Truthy(advice.value) then
          Run(advice.calls, JsonResponse(penv, 200, map["message" := advice.value]))
        else
          Run(advice.calls, JsonResponse(penv, 500, map["error" := JStr("Failed to generate advice")]))
  }

  /** A refusal phrase written in any ASCII case, anywhere in the answer, is detected. */
  lemma RefusalDetected(before: string, phrase: string, after: string, k: nat)
    requires k < |RefusalPhrases| && AsciiLower(phrase) == RefusalPhrases[k]
    ensures IsRefusal(before + phrase + after)
  {
    var s := before + phrase + after;
    var lower := AsciiLower(s);
    forall i | 0 <= i < |phrase|
      ensures lower[|before| + i] == AsciiLower(phrase)[i]
    {
      assert s[|before| + i] == phrase[i];
    }
    assert lower[|before|..|before| + |phrase|] == AsciiLower(phrase);
    assert OccursAt(lower, RefusalPhrases[k], |before|);
  }

  /** The knowledge base's answer, with no citations. */
  function RagResponse(answer: string): Json {
    JObj(map["output" := JObj(map["text" := JStr(answer)])])
  }

  /** A refusal from the knowledge base sends the question to the model directly, and its answer is used. */
  lemma RefusalFallsBack(question: string, knowledgeBaseId: string, modelArn: string, answer: string, direct: PyResult<Json>)
    requires IsRefusal(answer)
    ensures var run := GenerateAdvice(JStr(question), knowledgeBaseId, modelArn, Script(Ok(RagResponse(answer)), direct));
            && run.calls == [RetrieveAndGenerate(JStr(question), knowledgeBaseId, modelArn), InvokeModel(ModelId, JStr(question))]
            && run.value == FallbackAnswer(direct)
  {
  }

  /**
   * A usable knowledge-base answer is returned as the advice, with status 200
   * and no second request, whatever citations and session it comes with.
   */
  lemma UsableAnswerReturned(penv: PyEnv, knowledgeBaseId: string, modelArn: string, event: map<string, Json>,
                             response: Json, direct: PyResult<Json>)
    requires Question(penv, event).Ok? && Question(penv, event).value.JStr? && Truthy(Question(penv, event).value)
    requires IsUsableResponse(response)
    ensures var run := Handle(penv, knowledgeBaseId, modelArn, event, Script(Ok(response), direct));
            && run.calls == [RetrieveAndGenerate(Question(penv, event).value, knowledgeBaseId, modelArn)]
            && run.value == JsonResponse(penv, 200, map["message" := response.fields["output"].fields["text"]])
  {
    var answer := response.fields["output"].fields["text"].str;
    assert RagAnswer(response) == Some(answer);
    assert |answer| > 0;
  }

  /**
   * A truthy question that is not a str (`{"message": 5}`) never reaches the
   * knowledge base: the direct model is the one request, and its answer decides
   * between 200 and 500.
   */
  lemma NonStringQuestionSkipsKnowledgeBase(penv: PyEnv, knowledgeBaseId: string, modelArn: string,
                                            event: map<string, Json>, script: Script)
    requires Question(penv, event).Ok? && !Question(penv, event).value.JStr? && Truthy(Question(penv, event).value)
    ensures var run := Handle(penv, knowledgeBaseId, modelArn, event, script);
            var advice := FallbackAnswer(script.direct);
            && run.calls == [InvokeModel(ModelId, Question(penv, event).value)]
            && run.value == (if Truthy(advice) then JsonResponse(penv, 200, map["message" := advice])
                             else JsonResponse(penv, 500, map["error" := JStr("Failed to generate advice")]))
  {
  }

  /**
   * When the knowledge base and the model both raise, the handler answers
   * 500 "Failed to generate advice", after asking the model last.
   */
  lemma BothFail(penv: PyEnv, knowledgeBaseId: string, modelArn: string, event: map<string, Json>,
                 ragError: PyException, directError: PyException)
    requires Question(penv, event).Ok? && Truthy(Question(penv, event).value)
    ensures var run := Handle(penv, knowledgeBaseId, modelArn, event, Script(Raise(ragError), Raise(directError)));
            && run.calls[|run.calls| - 1] == InvokeModel(ModelId, Question(penv, event).value)
            && run.value == JsonResponse(penv, 500, map["error" := JStr("Failed to generate advice")])
  {
  }

  /** The direct model's Nova reply is the fallback advice, whatever other keys it carries. */
  lemma NovaReplyIsFallback(top: map<string, Json>, output: map<string, Json>,
                            message: map<string, Json>, item: map<string, Json>, more: seq<Json>, text: Json)
    ensures var reply := JObj(top["output" := JObj(output["message" :=
                           JObj(message["content" := JArr([JObj(item["text" := text])] + more)])])]);
            FallbackAnswer(Ok(reply)) == text
  {
    NovaResponseText(top, output, message, item, more, text);
  }

  /**
   * An answer with citations that each carry their retrieved text, and a
   * session id beside them, is usable when the answer is neither blank nor a refusal.
   */
  lemma CitedAnswerUsable(answer: string, texts: seq<string>, sessionId: string)
    requires !IsBlankAnswer(answer) && !IsRefusal(answer)
    ensures var citations := seq(|texts|, i requires 0 <= i < |texts| => JObj(map["retrievedText" := JStr(texts[i])]));
            IsUsableResponse(JObj(map["output" := JObj(map["text" := JStr(answer)]),
                                      "citations" := JArr(citations),
                                      "sessionId" := JStr(sessionId)]))
  {
  }
}

=== FILE: video_upload_service.dfy ===
/**
 * The upload pipeline (`VideoUploadService.uploadAndAnalyzeVideo`): a size
 * guard, then three dependent requests (credentials, transfer, analysis), each
 * run only when the one before it succeeded.
 */
module VideoUploadService {
  import opened Wrappers
  import opened Text
  import opened Json
  import opened Foundation
  import opened Http

  const Domain := "VideoUploadService"

  /** The largest video the client accepts: 1 GiB. */
  const MaxVideoBytes: nat := 1024 * 1024 * 1024

  /** The upload URL and object key handed out by the credential endpoint. */
  datatype Credential = Credential(presignedUrl: string, s3Key: string)

  /** The two configured endpoints. */
  datatype Endpoints = Endpoints(presignedUrlApi: string, videoAnalysisApi: string)

  /** The outcome each of the three requests would have, if it is issued. */
  datatype Script = Script(credentials: Outcome, transfer: Outcome, analysis: Outcome)

  function CredentialRequest(ep: Endpoints): Request {
    Request(POST, ep.presignedUrlApi, "application/json", None)
  }

  function TransferRequest(cred: Credential, video: seq<byte>): Request {
    Request(PUT, cred.presignedUrl, "video/mp4", Some(video))
  }

  /** The JSON body of the analysis request. */
  function AnalysisBody(s3Key: string): Json {
    JObj(map["s3Key" := JStr(s3Key)])
  }

  function AnalysisRequest(env: Env, ep: Endpoints, s3Key: string): Request {
    Request(POST, ep.videoAnalysisApi, "application/json", env.serialize(AnalysisBody(s3Key)))
  }

  /**
   * The object the credential fields are read from: a `body` string that
   * parses to an object, else a `body` object, else the response itself.
   */
  function CredentialSource(env: Env, json: map<string, Json>): (source: map<string, Json>)
    ensures StringField(json, "body").Some? && ParseObjectText(env, json["body"].str).Some? ==>
              source == ParseObjectText(env, json["body"].str).value
    ensures StringField(json, "body").Some? && ParseObjectText(env, json["body"].str).None? ==>
              source == json
    ensures ObjectField(json, "body").Some? ==> source == json["body"].fields
    ensures StringField(json, "body").None? && ObjectField(json, "body").None? ==> source == json
  {
    match StringField(json, "body")
    case Some(bodyText) =>
      (match ParseObjectText(env, bodyText)
       case Some(inner) => inner
       case None => json)
    case None =>
      (match ObjectField(json, "body")
       case Some(bodyObject) => bodyObject
       case None => json)
  }

  /** Reads the credential pair; both fields must be strings. */
  function ExtractCredential(env: Env, json: map<string, Json>): (r: Result<Credential, Failure>)
    ensures r.Success? <==>
              StringField(CredentialSource(env, json), "presignedUrl").Some?
              && StringField(CredentialSource(env, json), "s3Key").Some?
    ensures r.Success? ==>
              r.value == Credential(StringField(CredentialSource(env, json), "presignedUrl").value,
                                    StringField(CredentialSource(env, json), "s3Key").value)
    ensures r.Failure? ==> r.error == AppError(Domain, -7, "presignedUrl or s3Key not found")
  {
    var source := CredentialSource(env, json);
    match (StringField(source, "presignedUrl"), StringField(source, "s3Key"))
    case (Some(url), Some(key)) => Success(Credential(url, key))
    case _ => Failure(AppError(Domain, -7, "presignedUrl or s3Key not found"))
  }

  /** `getPresignedUrl`: one POST, which must come back 200 with a JSON object holding the pair. */
  function RequestCredential(env: Env, ep: Endpoints, outcome: Outcome): (run: Run<Credential>)
    ensures !env.validUrl(ep.presignedUrlApi) ==> run == Run([], Failure(AppError(Domain, -3, "Invalid URL")))
    ensures env.validUrl(ep.presignedUrlApi) ==> run.calls == [CredentialRequest(ep)]
    ensures outcome.Completed? && outcome.status.Some? && outcome.status.value != 200 && run.calls != [] ==>
              run.result == Failure(AppError(Domain, outcome.status.value,
                                             "HTTP error: " + IntToString(outcome.status.value)))
    ensures run.result.Success? ==>
              outcome.Completed? && outcome.status == Some(200) && outcome.data.Some?
              && ParseObject(env, outcome.data.value).Some?
              && run.result == ExtractCredential(env, ParseObject(env, outcome.data.value).value)
    // Each way the request can go, once it was issued.
    ensures env.validUrl(ep.presignedUrlApi) && outcome.TransportFailed? ==>
              run.result == Failure(TransportError(outcome.cause))
    ensures env.validUrl(ep.presignedUrlApi) && outcome.Completed? && outcome.status.None? ==>
              run.result == Failure(AppError(Domain, -4, "Invalid response"))
    ensures env.validUrl(ep.presignedUrlApi) && outcome == Completed(Some(200), None) ==>
              run.result == Failure(AppError(Domain, -5, "No data received"))
    ensures env.validUrl(ep.presignedUrlApi) && outcome.Completed? && outcome.status == Some(200) && outcome.data.Some? ==>
              && (env.parseJson(outcome.data.value).None? ==> run.result == Failure(ParseError))
              && (env.parseJson(outcome.data.value).Some? && !env.parseJson(outcome.data.value).value.JObj? ==>
                    run.result == Failure(AppError(Domain, -6, "Response format error")))
              && (ParseObject(env, outcome.data.value).Some? ==>
                    run.result == ExtractCredential(env, ParseObject(env, outcome.data.value).value))
  {
    if !env.validUrl(ep.presignedUrlApi) then
      Run([], Failure(AppError(Domain, -3, "Invalid URL")))
    else
      var calls := [CredentialRequest(ep)];
      match outcome
      case TransportFailed(cause) => Run(calls, Failure(TransportError(cause)))
      case Completed(None, _) => Run(calls, Failure(AppError(Domain, -4, "Invalid response")))
      case Completed(Some(status), data) =>
        if status != 200 then
          Run(calls, Failure(AppError(Domain, status, "HTTP error: " + IntToString(status))))
        else if data.None? then
          Run(calls, Failure(AppError(Domain, -5, "No data received")))
        else
          match env.parseJson(data.value)
          case None => Run(calls, Failure(ParseError))
          case Some(JObj(json)) => Run(calls, ExtractCredential(env, json))
          case Some(_) => Run(calls, Failure(AppError(Domain, -6, "Response format error")))
  }

  /** `uploadToS3`: a PUT of the exact bytes as `video/mp4`; only status 200 counts as success. */
  function Transfer(env: Env, video: seq<byte>, cred: Credential, outcome: Outcome): (run: Run<()>)
    ensures !env.validUrl(cred.presignedUrl) ==> run == Run([], Failure(AppError(Domain, -8, "Invalid presigned URL")))
    ensures env.validUrl(cred.presignedUrl) ==> run.calls == [TransferRequest(cred, video)]
    ensures run.result.Success? <==> env.validUrl(cred.presignedUrl) && outcome.Completed? && outcome.status == Some(200)
    ensures outcome.Completed? && outcome.status.Some? && outcome.status.value != 200 && run.calls != [] ==>
              run.result == Failure(AppError(Domain, outcome.status.value,
                                             "S3 upload failed: HTTP " + IntToString(outcome.status.value)))
  {
    if !env.validUrl(cred.presignedUrl) then
      Run([], Failure(AppError(Domain, -8, "Invalid presigned URL")))
    else
      var calls := [TransferRequest(cred, video)];
      match outcome
      case TransportFailed(cause) => Run(calls, Failure(TransportError(cause)))
      case Completed(None, _) => Run(calls, Failure(AppError(Domain, -9, "Invalid response")))
      case Completed(Some(status), _) =>
        if status != 200 then
          Run(calls, Failure(AppError(Domain, status, "S3 upload failed: HTTP " + IntToString(status))))
        else
          Run(calls, Success(()))
  }

  /**
   * Reads `Squat_analysis`. A `body` string is the only place looked at when
   * present (its parsed object, if any); a `body` object comes next; the top
   * level is read only when `body` is neither.
   */
  function ExtractAnalysis(env: Env, json: map<string, Json>): (r: Result<string, Failure>)
    ensures StringField(json, "body").Some? ==>
              r == (match ParseObjectText(env, json["body"].str)
                    case Some(inner) => FoundAnalysis(StringField(inner, "Squat_analysis"))
                    case None => FoundAnalysis(None))
    ensures ObjectField(json, "body").Some? ==>
              r == FoundAnalysis(StringField(json["body"].fields, "Squat_analysis"))
    ensures StringField(json, "body").None? && ObjectField(json, "body").None? ==>
              r == FoundAnalysis(StringField(json, "Squat_analysis"))
  {
    var analysis :=
      if StringField(json, "body").Some? then
        match ParseObjectText(env, StringField(json, "body").value)
        case Some(inner) => StringField(inner, "Squat_analysis")
        case None => None
      else if ObjectField(json, "body").Some? then
        StringField(ObjectField(json, "body").value, "Squat_analysis")
      else
        StringField(json, "Squat_analysis");
    FoundAnalysis(analysis)
  }

  /** The analysis text, or the code -7 failure when it was not found. */
  function FoundAnalysis(analysis: Option<string>): Result<string, Failure> {
    match analysis
    case Some(text) => Success(text)
    case None => Failure(AppError(Domain, -7, "Unable to parse response, analysis result not found"))
  }

  /** `analyzeVideo`: one POST of `{"s3Key": key}`; the HTTP status is never consulted. */
  function Analyze(env: Env, ep: Endpoints, s3Key: string, outcome: Outcome): (run: Run<string>)
    ensures !env.validUrl(ep.videoAnalysisApi) ==> run == Run([], Failure(AppError(Domain, -5, "Invalid API URL")))
    ensures env.validUrl(ep.videoAnalysisApi) ==> run.calls == [AnalysisRequest(env, ep, s3Key)]
    ensures env.validUrl(ep.videoAnalysisApi) && outcome.Completed? && outcome.status.Some? && outcome.data.Some? ==>
              run.result == (match env.parseJson(outcome.data.value)
                             case None => Failure(ParseError)
                             case Some(JObj(json)) => ExtractAnalysis(env, json)
                             case Some(_) => Failure(AppError(Domain, -7, "Response format error")))
  {
    if !env.validUrl(ep.videoAnalysisApi) then
      Run([], Failure(AppError(Domain, -5, "Invalid API URL")))
    else
      var calls := [AnalysisRequest(env, ep, s3Key)];
      match outcome
      case TransportFailed(cause) => Run(calls, Failure(TransportError(cause)))
      case Completed(None, _) => Run(calls, Failure(AppError(Domain, -6, "Invalid response")))
      case Completed(Some(_), None) => Run(calls, Failure(AppError(Domain, -6, "No data received")))
      case Completed(Some(_), Some(data)) =>
        match env.parseJson(data)
        case None => Run(calls, Failure(ParseError))
        case Some(JObj(json)) => Run(calls, ExtractAnalysis(env, json))
        case Some(_) => Run(calls, Failure(AppError(Domain, -7, "Response format error")))
  }

  function TooLarge(env: Env, size: nat): Failure {
    AppError(Domain, -2, "Video file too large (" + env.formatMegabytes(size) + "MB), maximum limit 1GB")
  }

  /**
   * `uploadAndAnalyzeVideo`: reads the file (`None` when it cannot be read),
   * applies the size guard, then chains the three steps, stopping at the
   * first failure.
   */
  function UploadAndAnalyze(env: Env, ep: Endpoints, file: Option<seq<byte>>, script: Script): (run: Run<string>)
    ensures file.None? ==> run == Run([], Failure(AppError(Domain, -1, "Unable to read video file")))
    ensures file.Some? && |file.value| > MaxVideoBytes ==> run == Run([], Failure(TooLarge(env, |file.value|)))
    ensures |run.calls| <= 3
    // The guard is `<=`: a video of exactly 1 GiB goes on to the credential request.
    ensures file.Some? && |file.value| <= MaxVideoBytes && env.validUrl(ep.presignedUrlApi) ==>
              |run.calls| >= 1 && run.calls[0] == CredentialRequest(ep)
    // After a failed credential step nothing else is attempted, and its failure is reported.
    ensures file.Some? && |file.value| <= MaxVideoBytes
            && RequestCredential(env, ep, script.credentials).result.Failure? ==>
              |run.calls| <= 1 && run.result == Failure(RequestCredential(env, ep, script.credentials).result.error)
    // The transfer, when issued, sends the video to the URL the credential step returned.
    ensures |run.calls| >= 2 ==>
              && file.Some?
              && RequestCredential(env, ep, script.credentials).result.Success?
              && run.calls[1] == TransferRequest(RequestCredential(env, ep, script.credentials).result.value, file.value)
    // The analysis, when issued, follows a transfer that returned 200 and names the key from the credential step.
    ensures |run.calls| == 3 ==>
              && script.transfer.Completed? && script.transfer.status == Some(200)
              && run.calls[2] == AnalysisRequest(env, ep, RequestCredential(env, ep, script.credentials).result.value.s3Key)
    ensures run.result.Success? ==> |run.calls| == 3
    // Once the credential arrived: a failed transfer's own failure is the result, after two requests at most ...
    ensures file.Some? && |file.value| <= MaxVideoBytes
            && RequestCredential(env, ep, script.credentials).result.Success? ==>
              var transfer := Transfer(env, file.value, RequestCredential(env, ep, script.credentials).result.value, script.transfer);
              && (transfer.result.Failure? ==> |run.calls| <= 2 && run.result == Failure(transfer.result.error))
              // ... and after a successful one, the analysis step's result is the pipeline's, whatever it is.
              && (transfer.result.Success? ==>
                    && |run.calls| == 2 + |Analyze(env, ep, RequestCredential(env, ep, script.credentials).result.value.s3Key, script.analysis).calls|
                    && run.result == Analyze(env, ep, RequestCredential(env, ep, script.credentials).result.value.s3Key, script.analysis).result)
  {
    match file
    case None => Run([], Failure(AppError(Domain, -1, "Unable to read video file")))
    case Some(video) =>
      if |video| > MaxVideoBytes then
        Run([], Failure(TooLarge(env, |video|)))
      else
        var credential := RequestCredential(env, ep, script.credentials);
        match credential.result
        case Failure(e) => Run(credential.calls, Failure(e))
        case Success(cred) =>
          var transfer := Transfer(env, video, cred, script.transfer);
          match transfer.result
          case Failure(e) => Run(credential.calls + transfer.calls, Failure(e))
          case Success(_) =>
            var analysis := Analyze(env, ep, cred.s3Key, script.analysis);
            Run(credential.calls + transfer.calls + analysis.calls, analysis.result)
  }

  /**
   * A transfer that comes back with any status but 200 ends the pipeline with
   * the transfer's own failure, and the analysis is never requested.
   */
  lemma TransferFailureStops(env: Env, ep: Endpoints, video: seq<byte>, script: Script, status: int)
    requires |video| <= MaxVideoBytes
    requires RequestCredential(env, ep, script.credentials).result.Success?
    requires env.validUrl(RequestCredential(env, ep, script.credentials).result.value.presignedUrl)
    requires script.transfer.Completed? && script.transfer.status == Some(status) && status != 200
    ensures var run := UploadAndAnalyze(env, ep, Some(video), script);
      && |run.calls| == 2
      && run.result == Failure(AppError(Domain, status, "S3 upload failed: HTTP " + IntToString(status)))
  {
  }
}

=== FILE: wrappers.dfy ===
/** Failure-compatible Option and Result types shared by every module of the model. */
module Wrappers {

  /** A value that may be missing: Swift's optional, Python's None. */
  datatype Option<+T> = None | Some(value: T) {
    predicate IsFailure() {
      None?
    }

    function PropagateFailure<U>(): Option<U>
      requires None?
    {
      None
    }

    function Extract(): T
      requires Some?
    {
      value
    }
  }

  /** Swift's `Result<Success, Failure>`. */
  datatype Result<+R, +E> = Success(value: R) | Failure(error: E) {
    predicate IsFailure() {
      Failure?
    }

    function PropagateFailure<U>(): Result<U, E>
      requires Failure?
    {
      Failure(error)
    }

    function Extract(): R
      requires Success?
    {
      value
    }
  }
}
